=== FILE: README.md ===
# DevSuite core, modelled in Dafny

This project models three parts of the DevSuite back end.

- **Time zones.** `getCurrentTime` resolves a zone from a query. It tries five
  steps in a fixed order: IP address (MaxMind), coordinates (geo-tz),
  city and country (GeoNames, best-scored place), city alone, then country
  alone. It falls back to `UTC` with a warning when nothing is found or the
  zone found is invalid. `lookupTimeZone` runs the same chain but collects
  one metadata record per candidate zone. `convertTime` classifies a
  date-time input and attaches daylight-saving warnings. The helpers are
  modelled too: feature-code ranks, zone metadata at local noon, zone long
  names, the country CSV mapping and the private-address test.
- **Text transformers.** Morse encoding and decoding, `slugify`, the seven
  case conversions, and the service functions that dispatch on an
  operation name.
- **URL shortener.** The base-62 codec, the `urls` table and its four
  queries, and the service functions for shortening, analytics and
  redirects.

Everything the program reads from outside is a parameter:

- the geo providers (MaxMind, geo-tz, GeoNames) and the zone catalog;
- the date library, as a validity test plus a zone-state function;
- the CSV file content;
- the clock (`now`);
- the environment variables;
- the base64 and URL codecs.

Thrown errors become `Result` values. `null` and `undefined` become
`Option`.

Text is a sequence of characters. The case conversions, slugs and Morse
encoding are stated for ASCII text, where JavaScript's `toUpperCase` and
`toLowerCase` change only the 26 letters.

## Model

| member | source | states |
|---|---|---|
| Base62.AlphabetLiteral | backend/src/utils/base62.js:1 | The digit alphabet is `0-9`, then `a-z`, then `A-Z`, digit `d` at position `d`. |
| Base62.IndexOfSpec | backend/src/utils/base62.js:17 | `indexOf` gives the position of a character in the alphabet, and -1 exactly for characters outside it. |
| Base62.Encode | backend/src/utils/base62.js:3-12 | The encoding is never empty, uses only alphabet characters, is `"0"` for zero and has no leading zero otherwise. |
| Base62.DecodePositional | backend/src/utils/base62.js:14-20 | The left-to-right fold of `decode` computes the positional base-62 value of the string. |
| Base62.DecodeLeadingZero | backend/src/utils/base62.js:14-20 | Leading `0` digits do not change the decoded value. |
| Base62.DecodeEncode | backend/src/utils/base62.js:3-20 | Decoding the encoding of any natural number gives the number back. |
| Base62.EncodeDecode | backend/src/utils/base62.js:3-20 | Encoding the decoded value of a canonical short id gives the same id back. |
| Base62.EncodeInjective | backend/src/utils/base62.js:3-12 | Distinct ids have distinct short ids. |
| Base62.EncodeLength | backend/src/utils/base62.js:7-10 | A positive `n` has a `k`-digit short id exactly when `62^(k-1) <= n < 62^k`. |
| Base62.EncodeLoop | backend/src/utils/base62.js:3-12 | The prepend-and-divide loop builds exactly the encoding. |
| Base62.DecodeLoop | backend/src/utils/base62.js:14-20 | The accumulate loop returns the positional value of the input. |
| UrlShortenerModel.ValidUnique | backend/src/models/urlShortener.model.js:10 | In a table built by `create`, no two rows share a short id. |
| UrlShortenerModel.Create | backend/src/models/urlShortener.model.js:31-59 | The new row takes the next serial id and the short id `encode(id)`. It starts with zero clicks and no last access. Every other row is unchanged, and the table invariant is kept. |
| UrlShortenerModel.CreateKeepsUnique | backend/src/models/urlShortener.model.js:31-59 | Creating a row keeps the short ids unique. |
| UrlShortenerModel.FindByShortId | backend/src/models/urlShortener.model.js:61-74 | The lookup gives a row with that short id, or null exactly when no row has it. |
| UrlShortenerModel.TouchMatching | backend/src/models/urlShortener.model.js:76-91 | The update adds one click and sets the last access on the matching rows, and changes no other row. |
| UrlShortenerModel.IncrementClicks | backend/src/models/urlShortener.model.js:76-91 | The counters are returned exactly when a row matched, and the table invariant is kept. In a valid table the returned counters are the matching row's old count plus one, with `now` as the last access. |
| UrlShortenerModel.NewCountReturned | backend/src/models/urlShortener.model.js:76-91 | In a valid table, reading back the row touched by a click gives its old count plus one and `now` as the last access. |
| UrlShortenerModel.GetAnalytics | backend/src/models/urlShortener.model.js:93-107 | The result is the counters and timestamps of the matching row, or null exactly when no row matches. |
| UrlShortenerModel.CreateAsWritten | backend/src/models/urlShortener.model.js:31-59 | The insert with the `'temp'` placeholder fails exactly when some row already holds `'temp'`. It consumes a serial value either way, and otherwise behaves as `Create`. |
| UrlShortenerModel.PlaceholderIsAnEncoding | backend/src/models/urlShortener.model.js:34 | The placeholder `temp` is itself the encoding of id 6966717. |
| UrlShortenerModel.CreateAsWrittenJams | backend/src/models/urlShortener.model.js:34-43 | Creating row 6966717 stores `temp` as its short id, and the next `create` then fails. |
| UrlShortenerModel.NoPlaceholderBelow | backend/src/models/urlShortener.model.js:34 | Before id 6966717 no row holds the placeholder. |
| UrlShortenerModel.CreateAsWrittenStaysJammed | backend/src/models/urlShortener.model.js:34-43 | Once a row holds `temp`, every later `create` fails and leaves the rows as they were. |
| UrlShortenerService.BaseUrl | backend/src/services/urlShortener.service.js:92 | An unset or empty `BASE_URL` falls back to `http://localhost:3000`. Any other value is used as it is. |
| UrlShortenerService.ShortUrlEndsWithId | backend/src/services/urlShortener.service.js:92 | The short URL begins with the base URL and a slash, and ends with a slash and the short id. |
| UrlShortenerService.ShortenUrl | backend/src/services/urlShortener.service.js:82-102 | The response describes the row `create` added: its short id, the original URL, the expiry and the short URL. |
| UrlShortenerService.ShortenUrlAsWritten | backend/src/services/urlShortener.service.js:82-102 | Over the `create` the source runs, shortening fails with the UNIQUE violation exactly when some row holds `temp`, and the table rows are then unchanged. Otherwise the answer is that of the corrected service. |
| UrlShortenerService.ShortenAsWrittenAgrees | backend/src/services/urlShortener.service.js:82-102 | Before serial id 6966717 is reached, the service as written and the corrected one give the same table and response. |
| UrlShortenerService.GetAnalytics | backend/src/services/urlShortener.service.js:104-129 | Unknown ids give 404. Known ids give the row's counters and whether `now` is past the expiry. |
| UrlShortenerService.GetOriginalUrl | backend/src/services/urlShortener.service.js:131-160 | Unknown ids give 404 and expired links 410, and in both cases the table is untouched. A live link always succeeds: the result is its original URL, and that row gains one click and the access time. |
| UrlShortenerService.ShortenThenResolve | backend/src/services/urlShortener.service.js:82-160 | A freshly shortened link resolves to its original URL at any instant before it expires. |
| UrlShortenerService.RedirectCountsOneClick | backend/src/services/urlShortener.service.js:104-160 | Each successful redirect raises the click count that analytics reports by exactly one, and records the access time. |
| CountryCodeMapper.ParseLine | backend/src/utils/countryCodeMapper.js:13-19 | A line yields a pair exactly when it contains a comma. |
| CountryCodeMapper.SplitCountsSeparator | backend/src/utils/countryCodeMapper.js:13-17 | `split(',')` gives at least two fields exactly when a comma occurs. |
| CountryCodeMapper.Collect | backend/src/utils/countryCodeMapper.js:12-21 | Every stored name comes from some data line. |
| CountryCodeMapper.LoadMapping | backend/src/utils/countryCodeMapper.js:12-21 | The loading loop builds the mapping of all lines after the header. |
| CountryCodeMapper.GetCountryCode | backend/src/utils/countryCodeMapper.js:27-28 | The result is the stored code, or null exactly when the name is unknown or its code is empty. |
| CountryCodeMapper.HeaderIgnored | backend/src/utils/countryCodeMapper.js:15-16 | The first line never contributes: files differing only in it give the same mapping. |
| CountryCodeMapper.ShortLineIgnored | backend/src/utils/countryCodeMapper.js:17 | A line without a comma is skipped. |
| CountryCodeMapper.StoredTrimmed | backend/src/utils/countryCodeMapper.js:18-19 | Stored names and codes are trimmed and free of commas, so a CRLF ending never reaches a code. |
| CountryCodeMapper.LastLineWins | backend/src/utils/countryCodeMapper.js:17-19 | A later `name,code` line replaces what an earlier line stored under that name. |
| CountryCodeMapper.ExtraFieldsIgnored | backend/src/utils/countryCodeMapper.js:17-19 | Fields after the second are ignored. |
| IpUtils.AnyMatches | backend/src/utils/ipUtils.js:28 | `some` is true exactly when some pattern in the list matches. |
| IpUtils.IsPrivateIpCases | backend/src/utils/ipUtils.js:15-29 | An address is private exactly when one of the eight anchored patterns matches. |
| IpUtils.IPv4PrefixesArePrivate | backend/src/utils/ipUtils.js:18-22 | Anything starting `10.`, `192.168.`, `127.` or `169.254.` is private. |
| IpUtils.Private172Exactly | backend/src/utils/ipUtils.js:19 | `172.N.` is private exactly when `N` has two digits and lies in 16..31. |
| IpUtils.Neighbours172ArePublic | backend/src/utils/ipUtils.js:19 | `172.15.0.1` and `172.32.0.1`, just outside the block, are public. |
| IpUtils.Ends172ArePrivate | backend/src/utils/ipUtils.js:19 | `172.16.0.1` and `172.31.255.255`, the two ends of the block, are private. |
| IpUtils.PublicExamples | backend/src/utils/ipUtils.js:18-25 | `100.64.0.1`, `8.8.8.8` and `fe8:1::1` are public. |
| IpUtils.Loopback6Whole | backend/src/utils/ipUtils.js:23 | `::1` is private only as the whole string. |
| IpUtils.StartingWithF | backend/src/utils/ipUtils.js:24-25 | An address starting with `f` is private only through the two IPv6 patterns. |
| IpUtils.IPv6Examples | backend/src/utils/ipUtils.js:24-25 | Unique-local and `fe80:` addresses are private, in either case. |
| IpUtils.IPv6PublicExamples | backend/src/utils/ipUtils.js:24-25 | `fe81::1`, `febf::1` and `fec0::1` are public, although `fe80::/10` is link-local. |
| IpUtils.CaseInsensitive | backend/src/utils/ipUtils.js:18-25 | Lower-casing an address never changes its classification. |
| IpLookup.SameAsIpUtils | backend/src/utils/ipLookup.js:2-16 | The second copy of `isPrivateIP` classifies every string as the first does. |
| IpLookup.NoPatternMeansPublic | backend/src/utils/ipLookup.js:5-12 | An address that starts with none of the listed prefixes is public. |
| TimeUtils.FeatureCodeRank | backend/src/utils/timeUtils.js:4-16 | A rank is one of the listed values or 0, and never above 100. |
| TimeUtils.FeatureCodeRankValues | backend/src/utils/timeUtils.js:5-13 | The seven known codes get 100, 80, 70, 60, 50, 40 and 30. |
| TimeUtils.UnknownCodeRanksZero | backend/src/utils/timeUtils.js:15 | Every other code ranks 0. |
| TimeUtils.RankZeroIffUnknown | backend/src/utils/timeUtils.js:15 | A rank is 0 exactly for codes outside the table, because every listed rank is positive. |
| TimeUtils.FindZone | backend/src/utils/timeUtils.js:51 | The result is the first catalog entry with that name, or none exactly when no entry has it. |
| TimeUtils.LongNameHit | backend/src/utils/timeUtils.js:48-52 | A catalog hit gives the long name of the first entry with that name. |
| TimeUtils.LongNameMiss | backend/src/utils/timeUtils.js:52-54 | A miss keeps the id, with only its first underscore replaced by a space. |
| TimeUtils.TimeZoneMetadata | backend/src/utils/timeUtils.js:19-45 | An invalid zone gives the metadata error. Otherwise the record echoes the id, the strategy and the date, and carries the long name. |
| TimeUtils.MetadataAtNoon | backend/src/utils/timeUtils.js:28-34 | The offset, abbreviation and DST flag are the zone's state at local noon of the reference date. |
| TimeHeuristics.SameAsTimeUtils | backend/src/utils/timeHeuristics.js:2-14 | The second copy of `getFeatureCodeRank` ranks every code as the first does. |
| TimeHeuristics.RankOrder | backend/src/utils/timeHeuristics.js:2-14 | Ranks strictly decrease from `PPLC` to `PPLX`, and unknown codes, the empty one included, rank 0. |
| PlaceRanker.Insert | backend/src/services/timeZone.service.js:123 | One insertion step of the stable sort is a permutation that puts the element first unless the head scores more. |
| PlaceRanker.InsertSorted | backend/src/services/timeZone.service.js:123 | Insertion keeps a list sorted by descending score. |
| PlaceRanker.SortByScore | backend/src/services/timeZone.service.js:113-127 | Sorting the scored places gives a permutation of them in descending score order. |
| PlaceRanker.FirstMax | backend/src/services/timeZone.service.js:113-127 | This position holds the maximal score, and every earlier position scores strictly less. |
| PlaceRanker.TopIsFirstMax | backend/src/services/timeZone.service.js:123-127 | The chosen place scores highest, and of equal scores it is the one GeoNames listed first. |
| PlaceRanker.TopScoresMost | backend/src/services/timeZone.service.js:113-127 | The chosen place is a candidate and scores at least as much as every candidate. |
| TimeZoneService.Spaced | backend/src/services/timeZone.service.js:87-88 | Replacing dashes by spaces keeps the length and leaves no dash. |
| TimeZoneService.Coordinates | backend/src/services/timeZone.service.js:62-67 | Coordinates are accepted exactly when both parse and lie in [-90, 90] and [-180, 180]. |
| TimeZoneService.IpStep | backend/src/services/timeZone.service.js:37-56 | A private address only sets the warning. Without credentials nothing happens. Otherwise MaxMind is asked once, and a non-empty answer becomes the zone with source `IP Geolocation (MaxMind)`. The step does nothing when there is no IP or a zone is already known. |
| TimeZoneService.CoordinateStep | backend/src/services/timeZone.service.js:59-83 | Unparsable or out-of-range coordinates only set `Invalid coordinates`. Valid ones make one geo-tz call: the first zone it lists wins, and an empty list gives `Etc/GMT` with the international-waters warning. The step does nothing without both coordinates or once a zone is known. |
| TimeZoneService.CityCountryStep | backend/src/services/timeZone.service.js:86-133 | An unmapped country sets the warning and makes no call. A mapped one makes one city-in-country search, and a non-empty answer gives the zone of the best-scored place. The step does nothing when skipped. |
| TimeZoneService.CityStep | backend/src/services/timeZone.service.js:136-166 | One city search is made. A non-empty answer gives the zone of the first (most populous) place; a zero result count sets the city-not-found warning. A positive count with no places records only the call. The step does nothing when skipped. |
| TimeZoneService.CountryStep | backend/src/services/timeZone.service.js:169-200 | An unmapped country does nothing, and no warning is ever set. A mapped one makes one country search, and a non-empty answer gives the zone of its first (most populous) place. |
| TimeZoneService.Finish | backend/src/services/timeZone.service.js:203-220 | No zone, or an invalid one, becomes `UTC`. Each default adds its warning only when none is set. A valid found zone is kept. |
| TimeZoneService.GetCurrentTime | backend/src/services/timeZone.service.js:28-264 | The reported zone is always valid when `UTC` is, and the long name is the one for that zone. |
| TimeZoneService.ChainCallsOrdered | backend/src/services/timeZone.service.js:37-200 | Providers are called in chain order, each at most once. |
| TimeZoneService.FoundStopsChain | backend/src/services/timeZone.service.js:59-169 | Once a zone is found, every later step leaves the state alone. |
| TimeZoneService.IpWins | backend/src/services/timeZone.service.js:37-56 | If the IP step finds a zone, no other provider is asked, and that zone is kept when valid. |
| TimeZoneService.CoordinatesWin | backend/src/services/timeZone.service.js:59-83 | If the coordinate step is the first to find a zone, GeoNames is never searched. |
| TimeZoneService.PrivateIpNeverQueried | backend/src/services/timeZone.service.js:39-41 | A private or reserved address is never sent to MaxMind, and it sets the private-address warning. |
| TimeZoneService.NoCredentialsNoZone | backend/src/services/timeZone.service.js:50-51 | Without MaxMind credentials the IP step finds nothing and makes no call. |
| TimeZoneService.UnmappedCountrySkipsBoth | backend/src/services/timeZone.service.js:86-180 | A country name without a code runs neither country-based search. |
| TimeZoneService.StaleWarningSurvives | backend/src/services/timeZone.service.js:33-76 | A private address followed by a coordinate hit reports the coordinate zone with the private-address warning still attached. |
| TimeZoneService.WatersGivesEtcGmt | backend/src/services/timeZone.service.js:70-79 | Coordinates with no geo-tz zone answer `Etc/GMT`, source `Coordinate Lookup (Default)`, with the international-waters warning. |
| TimeZoneService.InvalidCoordinatesWarn | backend/src/services/timeZone.service.js:62-68 | Invalid coordinates alone end in the `UTC` default, reporting `Invalid coordinates` instead of the generic warning. |
| TimeZoneService.NothingFoundDefaults | backend/src/services/timeZone.service.js:203-208 | With nothing found the answer is `UTC` from `Default`. The default warning appears only when no step left one. |
| TimeZoneService.InvalidZoneDefaults | backend/src/services/timeZone.service.js:212-218 | An invalid found zone is replaced by `UTC`, keeping any earlier warning. |
| TimeZoneLookup.MetadataPrefix | backend/src/services/timeZone.service.js:435-437 | The loop pushes the record of each id in order, stopping at the first invalid id. |
| TimeZoneLookup.CountryZoneNames | backend/src/services/timeZone.service.js:421-427 | The names are exactly those of the catalog zones of the country. |
| TimeZoneLookup.Dedup | backend/src/services/timeZone.service.js:424-432 | De-duplication keeps every new name, each exactly once. |
| TimeZoneLookup.DedupOrder | backend/src/services/timeZone.service.js:424-432 | De-duplication keeps the names in order of first occurrence. |
| TimeZoneLookup.UniqueZoneNames | backend/src/services/timeZone.service.js:424-432 | The loop computes exactly the de-duplicated list. |
| TimeZoneLookup.LookupIp | backend/src/services/timeZone.service.js:273-294 | The step does nothing without an IP or without credentials. A private address only sets the warning. Otherwise MaxMind is asked once, and a non-empty answer pushes that zone's metadata record when the zone is valid. |
| TimeZoneLookup.LookupCoordinates | backend/src/services/timeZone.service.js:297-327 | The step does nothing without coordinates or once results exist. Invalid coordinates only set `Invalid coordinates`. Valid ones make one geo-tz call: the listed zones push their records in order, up to the first invalid zone. An empty list pushes the `Etc/GMT` record with the international-waters warning, or changes nothing when that record cannot be built. |
| TimeZoneLookup.LookupCityCountry | backend/src/services/timeZone.service.js:330-377 | An unmapped country sets the warning and makes no call. A mapped one makes one search, and a non-empty answer pushes the record of the best-scored place when its zone is valid. The step does nothing without city and country or once results exist. |
| TimeZoneLookup.LookupCity | backend/src/services/timeZone.service.js:379-409 | One city search is made. A non-empty answer pushes the record of its first place when the zone is valid; a zero result count sets the city-not-found warning. A positive count with no places records only the call. The step does nothing without a city or once results exist. |
| TimeZoneLookup.LookupCountry | backend/src/services/timeZone.service.js:412-447 | The step does nothing without a country or once results exist, and it calls no provider. An unmapped country only sets `Invalid country name`. A mapped one keeps the warning and pushes one record per distinct catalog zone of the country, in catalog order, up to the first invalid zone. |
| TimeZoneLookup.LookupTimeZone | backend/src/services/timeZone.service.js:450-466 | The "no results" answer is given exactly when nothing was collected. Otherwise the answer echoes the reference date. The warning is passed through either way. |
| TimeZoneLookup.CoordinatesOnePerZone | backend/src/services/timeZone.service.js:297-327 | Coordinates alone give one record per geo-tz zone, in geo-tz order, when all are valid. |
| TimeZoneLookup.CountryOnePerDistinctZone | backend/src/services/timeZone.service.js:412-447 | A country alone gives one record per distinct zone of the country, in first-occurrence order. |
| TimeZoneConvert.RestorePlus | backend/src/services/timeZone.service.js:479 | Only a trailing ` HH:MM` changes, and then only its space, which becomes `+`. |
| TimeZoneConvert.InputTimePartAt | backend/src/services/timeZone.service.js:536 | The time part is the text between the first `T` and the next `T` (or the end), cut to five characters, or `00:00` when that text is empty. |
| TimeZoneConvert.Classify | backend/src/services/timeZone.service.js:481-510 | The input state follows from whether there is an explicit offset and whether a source zone is given, in each direction. |
| TimeZoneConvert.DstWarnings | backend/src/services/timeZone.service.js:528-542 | Several possible offsets give exactly the repeated-time warning. No offset, or one that moved the wall clock, gives exactly the skipped-time warning. One offset with the wall clock kept gives no warning, and nothing else does. |
| TimeZoneConvert.ConvertTime | backend/src/services/timeZone.service.js:472-571 | Input with no offset and no zone is rejected as ambiguous. Otherwise an unparsable time is rejected with the parser's reason. Results echo the target and the input, and give `fromZone` as the source zone for floating time and null otherwise. The interpretation text says which rule fixed the moment: an offset that overrides the zone (with its UTC instant), an offset alone, or floating time in `fromZone`. |
| TimeZoneConvert.ConvertWarnings | backend/src/services/timeZone.service.js:488-542 | The ignored-zone warning appears once, only when an offset overrides a zone. The midnight warning appears exactly when there is no `T<digit>`. Daylight-saving warnings appear only for floating time; there the repeated-time warning appears iff there are several offsets, the skipped-time warning iff there is none or the clock moved, and neither iff one offset kept the clock. |
| TimeZoneConvert.FloatingDst | backend/src/services/timeZone.service.js:528-542 | Within any warning list whose daylight-saving entries are those DstWarnings gives: repeated time iff several offsets, skipped time iff none or a moved clock, and no daylight-saving entry iff one offset kept the clock. |
| TimeZoneConvert.RestoredOffset | backend/src/services/timeZone.service.js:479-482 | A trailing ` HH:MM` is always read as an explicit offset, so such input is never floating time. |
| Morse.TableShape | backend/src/utils/textTransformers.js:99-109 | The table has 37 entries, each a codable character with a well-formed code, and neither characters nor codes repeat. |
| Morse.CodedAreListed | backend/src/utils/textTransformers.js:99-109 | Every upper-case letter and digit is in the table. |
| Morse.Reverse | backend/src/utils/textTransformers.js:111-118 | The reverse map's keys are exactly the codes. |
| Morse.ReverseInverts | backend/src/utils/textTransformers.js:111-118 | With distinct codes the reverse map sends each code back to its character. |
| Morse.ReverseTableExact | backend/src/utils/textTransformers.js:111-118 | The reverse map is exactly the inverse of the code map. |
| Morse.CodeOf | backend/src/utils/textTransformers.js:125 | A character has a code exactly when it is listed, and the reverse map gives the character back. |
| Morse.EncodeChar | backend/src/utils/textTransformers.js:125 | A character with no code stands for itself. A coded one becomes a well-formed code that the reverse map takes back to it. |
| Morse.MorseEncode | backend/src/utils/textTransformers.js:120-129 | The output's only white space is single spaces, and it neither starts nor ends with white space. For ASCII text whose only white space is spaces, it is one token per upper-cased character joined by single spaces, each token the character's code or, with no code, the character itself. |
| Morse.MorseDecode | backend/src/utils/textTransformers.js:131-139 | The output contains no `/` and is trimmed. |
| Morse.DecodeTokenCases | backend/src/utils/textTransformers.js:135-137 | `/` decodes to a space, unknown tokens pass through, and a character's code decodes to it. |
| Morse.TokensSurviveCleanup | backend/src/utils/textTransformers.js:127-128 | For text whose only white space is spaces, collapsing white space and trimming leave the space-joined tokens unchanged. |
| Morse.EmptyText | backend/src/utils/textTransformers.js:120-139 | The empty text encodes and decodes to the empty text. |
| Morse.DecodeJoined | backend/src/utils/textTransformers.js:131-139 | Decoding codes joined by single spaces gives back the characters, trimmed. |
| Morse.DecodeEncode | backend/src/utils/textTransformers.js:120-139 | Decoding the encoding of letters, digits and spaces gives the text back, upper-cased and trimmed. |
| TextTransformers.SeparatorChar | backend/src/utils/textTransformers.js:38 | The separator is `_` exactly for `'underscore'`, and `-` for anything else. |
| TextTransformers.Slugify | backend/src/utils/textTransformers.js:37-50 | The output is a slug: lower-case letters, digits and single separators, with no separator at either end. It keeps the input's letters and digits, lower-cased and in order. Where the separators go is given by SlugifyWords. |
| TextTransformers.SlugifyWords | backend/src/utils/textTransformers.js:46-49 | Words of `[a-z0-9]` separated by single spaces slugify to the same words joined by the chosen separator. |
| TextTransformers.SlugSeparatorChoice | backend/src/utils/textTransformers.js:38-47 | An underscore slug has no `-`, and any other slug has no `_`. |
| TextTransformers.Delimit | backend/src/utils/textTransformers.js:75-91 | Snake and kebab output is a slug with the chosen separator, keeping the input's letters and digits in order. Where the separators go is given by DelimitWords and DelimitCapital. |
| TextTransformers.DelimitWords | backend/src/utils/textTransformers.js:75-91 | Words of `[a-z0-9]` separated by single spaces come out joined by the separator. |
| TextTransformers.DelimitCapital | backend/src/utils/textTransformers.js:75-91 | A capital letter between two lower-case words starts a new word: `w1` + capital + rest comes out as `w1`, the separator, then the word in lower case. |
| TextTransformers.DelimitHelloWorld | backend/src/utils/textTransformers.js:75-91 | `helloWorld` comes out as `hello`, the separator, `world`. |
| TextTransformers.Snake | backend/src/utils/textTransformers.js:75-82 | The output is a slug with `_` as separator. |
| TextTransformers.SnakeWords | backend/src/utils/textTransformers.js:75-82 | Space-separated lower-case words come out joined by `_`. |
| TextTransformers.SnakeCapital | backend/src/utils/textTransformers.js:75-82 | Camel case splits at the capital with `_`, so `helloWorld` becomes `hello_world`. |
| TextTransformers.Kebab | backend/src/utils/textTransformers.js:84-91 | The output is a slug with `-` as separator. |
| TextTransformers.KebabWords | backend/src/utils/textTransformers.js:84-91 | Space-separated lower-case words come out joined by `-`. |
| TextTransformers.KebabCapital | backend/src/utils/textTransformers.js:84-91 | Camel case splits at the capital with `-`, so `helloWorld` becomes `hello-world`. |
| TextTransformers.DelimitSlug | backend/src/utils/textTransformers.js:75-91 | A slug is unchanged by its own conversion. |
| TextTransformers.DelimitIdempotent | backend/src/utils/textTransformers.js:75-91 | Converting twice is the same as converting once. |
| TextTransformers.Title | backend/src/utils/textTransformers.js:61-62 | Title case keeps the length. |
| TextTransformers.TitleCapitals | backend/src/utils/textTransformers.js:61-62 | Title case differs from the input only in case. A character is an upper-case letter exactly when it is a letter at a word start. |
| TextTransformers.TitleIdempotent | backend/src/utils/textTransformers.js:61-62 | Title case applied twice is title case. |
| TextTransformers.ContentTitle | backend/src/utils/textTransformers.js:61-62 | Title case keeps the letters and digits. |
| TextTransformers.Camelize | backend/src/utils/textTransformers.js:66-67 | After the replacement, non-alphanumerics remain only as a trailing run, and the letters and digits are kept in order. What each run becomes is given by CamelizeAfterRun and CamelizeKeep. |
| TextTransformers.CamelizeAfterRun | backend/src/utils/textTransformers.js:66-67 | A run of characters other than letters and digits, followed by a letter or digit, is replaced by that character upper-cased. |
| TextTransformers.CamelizeKeep | backend/src/utils/textTransformers.js:66-67 | A prefix of letters and digits is kept as it is, ahead of whatever the rest becomes. |
| TextTransformers.Camel | backend/src/utils/textTransformers.js:64-67 | Camel case keeps the letters and digits, and non-alphanumerics survive only at the end. |
| TextTransformers.CamelOfWord | backend/src/utils/textTransformers.js:64-67 | A single alphanumeric word becomes its lower-case form. |
| TextTransformers.Pascal | backend/src/utils/textTransformers.js:69-73 | Pascal case is camel case with its first character upper-cased (left alone when it is a line terminator, which `.` does not match), and it keeps the letters and digits. |
| TextTransformers.ConvertCase | backend/src/utils/textTransformers.js:53-96 | Each of the seven type names gives its own conversion of the text. Any other name throws `Invalid case type: <type>`. Every conversion keeps the letters and digits. |
| TextTransformService.Dispatch | backend/src/services/textTransform.service.js:5-23 | `encode` and `decode` pass the transformer's result or error through with the operation echoed. Any other operation fails with `Invalid operation`. |
| TextTransformService.CodecServicesAgree | backend/src/services/textTransform.service.js:5-43 | The base64 and URL services accept the same operation names and reject others with the same error. |
| TextTransformService.MorseTransform | backend/src/services/textTransform.service.js:69-87 | The service fails exactly for an operation other than `encode` or `decode`. Otherwise it returns the Morse encoding or decoding. |
| TextTransformService.MorseServiceRoundTrip | backend/src/services/textTransform.service.js:69-87 | Decoding through the service what it encoded gives back the text, upper-cased and trimmed. |
| TextTransformService.SlugifyText | backend/src/services/textTransform.service.js:45-55 | An absent separator is `'hyphen'`, and it is echoed with the slug. |
| TextTransformService.SlugifyTextDefault | backend/src/services/textTransform.service.js:45-55 | Without a separator the result is a hyphenated slug. |
| TextTransformService.ConvertCase | backend/src/services/textTransform.service.js:57-67 | The service succeeds exactly when the transformer does, echoing the type. The transformer's error is rethrown unchanged. |

## Left out

- `formatTime` (timeZone.service.js:573-657) is not modelled. It only formats through the date library.
- The date library is left out: parsing, offsets, DST resolution and ISO formatting. `convertTime` sees it as a `Parser` returning validity, the invalid reason, the count of possible offsets and the resolved clock time. `getTimeZoneMetadata` sees it as a validity test plus the zone state at a local instant.
- The clock readings and time fields of the `getCurrentTime` response, and the `toZone` conversion of `convertTime`, are left out. They are outputs of the date library.
- MaxMind, geo-tz and GeoNames are function parameters, as are `parseFloat` and the zone catalog. The HTTP requests, credentials and error messages of those calls are not modelled. Calls that throw are modelled as a provider returning nothing.
- The `try`/`catch` around each step is not modelled error by error. A step whose provider yields nothing sets the warning the source sets for that case.
- The `foundBy` variable of `lookupTimeZone` is assigned but never returned, so it is not modelled.
- A GeoNames hit with no `timezone` object is modelled as an empty zone id, which the chain treats as not found.
- The base64 and URL codecs (textTransformers.js:3-33) are `Buffer` and `encodeURIComponent` calls. They are parameters of the service, so no property of them is stated.
- Text is restricted to ASCII wherever upper- or lower-casing happens (Morse encode, `slugify`, the case conversions). JavaScript's full Unicode case mapping and `normalize` are not modelled.
- TextTransformers.Camel: its own contract states that letters and digits are kept and that non-alphanumerics remain only at the end. The capitalisation after each run is stated on Camelize by CamelizeAfterRun and CamelizeKeep, not on Camel.
- TextTransformers.Camelize: a run that reaches the end of the text backtracks so that `(.)` takes its last character `.` can match. Its contract only keeps that run at the end; it does not give the exact characters left.
- TextTransformers.Snake: its own contract gives only the slug shape. Where the `_` go is stated by SnakeWords and SnakeCapital.
- TextTransformers.Kebab: its own contract gives only the slug shape. Where the `-` go is stated by KebabWords and KebabCapital.
- TextTransformers.Title: beyond the length, the exact characters are stated in TitleCapitals.
- PlaceRanker: scores are reals, not IEEE doubles. The sort is modelled as the stable insertion sort V8 performs; other engines may order ties differently.
- Lookups on object literals (`fcodeRanks[code]`, `morseMap[c]`) are modelled on the listed keys only. Inherited `Object.prototype` names such as `constructor` are not modelled.
- Database plumbing is not modelled: connection pooling, SQL text, errors other than the UNIQUE violation, and `RETURNING` shapes. The table is a map with a serial counter.
- UrlShortenerService.ShortenUrl: built on the corrected `create`, so it never fails. The UNIQUE violation the source rethrows once a row holds `temp` is modelled by ShortenUrlAsWritten instead (see Findings).
- Base62.Decode: the source computes with JavaScript numbers (doubles), so `decode` of strings of nine or more digits, whose value can exceed 2^53, rounds there. The model computes exactly. `encode` is exact in both, since a SERIAL id stays below 2^31.
- Logging, Express routing, Joi validation schemas and the expiry-string parser are outside the modelled core.
- Concurrency is not modelled. Two concurrent `create` calls and the interleaving of awaited provider calls are outside the model.

## Findings

| source | as written | input that shows it | evidently intended | confidence | as-written member | corrected member |
|---|---|---|---|---|---|---|
| backend/src/models/urlShortener.model.js:34-43 | `create` first inserts the row with `short_id = 'temp'` under a UNIQUE constraint, then updates it to `encode(id)` | the row with serial id 6966717, whose encoding is `temp`, keeps `temp` as its short id; every later `create` then violates the constraint | each row gets `encode(id)` and creation always succeeds | high, not executed | UrlShortenerModel.CreateAsWrittenJams | UrlShortenerModel.CreateKeepsUnique |

=== FILE: base62.dfy ===
/** The base-62 codec that turns a row id into a short id. */
module Base62 {

  function DigitChar(d: int): char
    requires 0 <= d < 62
  {
    if d < 10 then ('0' as int + d) as char
    else if d < 36 then ('a' as int + d - 10) as char
    else ('A' as int + d - 36) as char
  }

  /** The digit alphabet, digit `d` being `Alphabet[d]`: the ten decimal
      digits, then the lower-case letters, then the upper-case letters
      (`AlphabetLiteral` spells it out). */
  const Alphabet: string := AlphabetByDigit()

  function AlphabetByDigit(): (s: string)
    ensures |s| == 62 && forall d :: 0 <= d < 62 ==> s[d] == DigitChar(d)
  {
    seq(62, d requires 0 <= d < 62 => DigitChar(d))
  }

  /** The alphabet is the source's `BASE62_CHARS` string. */
  lemma AlphabetLiteral()
    ensures Alphabet == "0123456789" + "abcdefghijklmnopqrstuvwxyz" + "ABCDEFGHIJKLMNOPQRSTUVWXYZ"
  {
    var digits: string := "0123456789";
    var lower: string := "abcdefghijklmnopqrstuvwxyz";
    var upper: string := "ABCDEFGHIJKLMNOPQRSTUVWXYZ";
    assert forall d :: 0 <= d < 10 ==> digits[d] == DigitChar(d);
    assert forall d :: 0 <= d < 26 ==> lower[d] == DigitChar(d + 10);
    assert forall d :: 0 <= d < 26 ==> upper[d] == DigitChar(d + 36);
    assert Alphabet == digits + lower + upper;
  }

  lemma AlphabetByRanges()
    ensures |Alphabet| == 62
    ensures forall d :: 0 <= d < 62 ==> Alphabet[d] == DigitChar(d)
  {
  }

  /** `BASE62_CHARS.indexOf(c)`: the digit value of `c`, or -1 when `c` is not in the alphabet. */
  function IndexOf(c: char): (i: int)
    ensures -1 <= i < 62
  {
    if '0' <= c <= '9' then c as int - '0' as int
    else if 'a' <= c <= 'z' then c as int - 'a' as int + 10
    else if 'A' <= c <= 'Z' then c as int - 'A' as int + 36
    else -1
  }

  /** `IndexOf` is the position of `c` in the alphabet, and -1 exactly for
      characters the alphabet does not contain. */
  lemma IndexOfSpec(c: char)
    ensures IndexOf(c) >= 0 ==> Alphabet[IndexOf(c)] == c
    ensures IndexOf(c) == -1 <==> c !in Alphabet
  {
    AlphabetByRanges();
    if c in Alphabet {
      var d :| 0 <= d < 62 && Alphabet[d] == c;
      assert c == DigitChar(d);
    }
  }

  /** Looking a digit up and back gives the digit again. */
  lemma IndexOfDigit(d: nat)
    requires d < 62
    ensures IndexOf(Alphabet[d]) == d
  {
    AlphabetByRanges();
  }

  predicate IsDigitString(s: string)
  {
    forall i :: 0 <= i < |s| ==> IndexOf(s[i]) >= 0
  }

  function Pow62(k: nat): (p: nat)
    ensures p >= 1
  {
    if k == 0 then 1 else 62 * Pow62(k - 1)
  }

  /** The digits of `n`, most significant first, without leading zeros
      (empty for 0): the characters the source's loop prepends one by one. */
  function Digits(n: nat): (s: string)
    ensures n == 0 <==> s == ""
    ensures n > 0 ==> s[0] != '0'
    ensures IsDigitString(s)
  {
    if n == 0 then ""
    else
      AlphabetByRanges();
      IndexOfDigit(n % 62);
      Digits(n / 62) + [Alphabet[n % 62]]
  }

  /** `encode(num)`: `'0'` for zero, otherwise the base-62 digits of `num`. */
  function Encode(n: nat): (s: string)
    ensures |s| >= 1 && IsDigitString(s)
    ensures n == 0 ==> s == "0"
    ensures n > 0 ==> s[0] != '0'
  {
    AlphabetByRanges();
    if n == 0 then "0" else Digits(n)
  }

  /** `decode(str)`: folds `result * 62 + indexOf(c)` over the characters;
      a character outside the alphabet contributes -1. */
  function Decode(s: string): int
  {
    if |s| == 0 then 0 else Decode(s[..|s| - 1]) * 62 + IndexOf(s[|s| - 1])
  }

  /** Positional value read from the most significant digit:
      the sum of `indexOf(s[i]) * 62^(|s|-1-i)`. */
  function Positional(s: string): int
  {
    if |s| == 0 then 0 else IndexOf(s[0]) * Pow62(|s| - 1) + Positional(s[1..])
  }

  lemma {:induction false} PositionalSnoc(s: string, c: char)
    ensures Positional(s + [c]) == Positional(s) * 62 + IndexOf(c)
  {
    if |s| > 0 {
      var sc := s + [c];
      var i, p, r := IndexOf(s[0]), Pow62(|s| - 1), Positional(s[1..]);
      assert sc[0] == s[0] && |sc| - 1 == |s|;
      assert sc[1..] == s[1..] + [c];
      PositionalSnoc(s[1..], c);
      var r' := Positional(s[1..] + [c]);
      assert r' == r * 62 + IndexOf(c);
      assert Positional(sc) == i * Pow62(|s|) + r';
      assert Pow62(|s|) == 62 * p;
      MulShift(i, p);
    } else {
      assert s + [c] == [c];
    }
  }

  lemma MulShift(i: int, p: int)
    ensures i * (62 * p) == (i * p) * 62
  {
  }

  /** `decode` computes the positional base-62 value of its input. */
  lemma {:induction false} DecodePositional(s: string)
    ensures Decode(s) == Positional(s)
  {
    if |s| > 0 {
      var init := s[..|s| - 1];
      DecodePositional(init);
      PositionalSnoc(init, s[|s| - 1]);
      assert init + [s[|s| - 1]] == s;
    }
  }

  /** Leading `'0'` digits do not change the decoded value, and the empty string decodes to 0. */
  lemma DecodeLeadingZero(s: string)
    ensures Decode("") == 0
    ensures Decode("0" + s) == Decode(s)
  {
    DecodePositional(s);
    DecodePositional("0" + s);
    assert ("0" + s)[1..] == s;
    AlphabetByRanges();
    assert IndexOf('0') == 0;
  }

  lemma {:induction false} DecodeDigits(n: nat)
    ensures Decode(Digits(n)) == n
  {
    if n > 0 {
      DecodeDigits(n / 62);
      var s := Digits(n);
      assert s[..|s| - 1] == Digits(n / 62);
      IndexOfDigit(n % 62);
    }
  }

  /** `decode` inverts `encode`. */
  lemma DecodeEncode(n: nat)
    ensures Decode(Encode(n)) == n
  {
    if n == 0 {
      AlphabetByRanges();
      assert Decode("0") == Decode("") * 62 + IndexOf('0');
    } else {
      DecodeDigits(n);
    }
  }

  /** Distinct numbers have distinct encodings. */
  lemma EncodeInjective(a: nat, b: nat)
    ensures Encode(a) == Encode(b) ==> a == b
  {
    DecodeEncode(a);
    DecodeEncode(b);
  }

  lemma {:induction false} PowMonotone(j: nat, k: nat)
    requires j <= k
    ensures Pow62(j) <= Pow62(k)
    decreases k
  {
    if j < k { PowMonotone(j, k - 1); }
  }

  lemma {:induction false} DigitsLength(n: nat)
    requires n > 0
    ensures Pow62(|Digits(n)| - 1) <= n < Pow62(|Digits(n)|)
  {
    if n / 62 > 0 {
      DigitsLength(n / 62);
    }
  }

  /** A positive number has a `k`-digit encoding exactly when `62^(k-1) <= n < 62^k`. */
  lemma EncodeLength(n: nat, k: nat)
    requires n > 0 && k >= 1
    ensures |Encode(n)| == k <==> Pow62(k - 1) <= n < Pow62(k)
  {
    var m := |Digits(n)|;
    DigitsLength(n);
    if Pow62(k - 1) <= n < Pow62(k) && m != k {
      if m < k {
        PowMonotone(m, k - 1);
      } else {
        PowMonotone(k, m - 1);
      }
    }
  }

  /** A canonical short id: digits only, and no leading zero unless it is `"0"`. */
  predicate IsCanonical(s: string)
  {
    |s| >= 1 && IsDigitString(s) && (s == "0" || s[0] != '0')
  }

  lemma {:induction false} PositionalBounds(s: string)
    requires IsDigitString(s)
    ensures Positional(s) >= 0
    ensures |s| > 0 && s[0] != '0' ==> Positional(s) >= Pow62(|s| - 1)
  {
    if |s| > 0 {
      PositionalBounds(s[1..]);
      var i, p := IndexOf(s[0]), Pow62(|s| - 1);
      assert Positional(s) == i * p + Positional(s[1..]);
      MulBounds(i, p);
    }
  }

  lemma MulBounds(i: int, p: int)
    requires i >= 0 && p >= 0
    ensures i * p >= 0
    ensures i >= 1 ==> i * p >= p
  {
  }

  /** `encode` inverts `decode` on canonical strings. */
  lemma {:induction false} EncodeDecode(s: string)
    requires IsCanonical(s)
    ensures Decode(s) >= 0 && Encode(Decode(s)) == s
    decreases |s|
  {
    var init, c := s[..|s| - 1], s[|s| - 1];
    var d := IndexOf(c);
    assert d >= 0;
    IndexOfSpec(c);
    assert s == init + [c];
    assert Decode(s) == Decode(init) * 62 + d;
    if |init| == 0 {
      if d == 0 {
        assert s == "0";
      } else {
        assert Digits(d) == Digits(0) + [Alphabet[d]];
      }
    } else {
      assert init[0] == s[0];
      assert IsCanonical(init);
      EncodeDecode(init);
      DecodePositional(init);
      PositionalBounds(init);
      var v := Decode(init);
      assert v > 0;
      DigitStep(v, d);
      assert Encode(v) == init;
    }
  }

  /** Appending digit `d` to the digits of a positive `v` gives the digits of `v * 62 + d`. */
  lemma DigitStep(v: nat, d: nat)
    requires v > 0 && d < 62
    ensures Digits(v * 62 + d) == Digits(v) + [Alphabet[d]]
  {
    var n := v * 62 + d;
    assert n / 62 == v && n % 62 == d;
  }

  lemma DigitsStep(n: nat)
    requires n > 0
    ensures Digits(n) == Digits(n / 62) + [Alphabet[n % 62]]
  {
  }

  /** The source's `encode` loop: prepend `BASE62_CHARS[num % 62]`, then `num = floor(num / 62)`. */
  method EncodeLoop(num0: nat) returns (result: string)
    ensures result == Encode(num0)
  {
    if num0 == 0 {
      return "0";
    }
    result := "";
    var num := num0;
    while num > 0
      invariant Digits(num) + result == Digits(num0)
      decreases num
    {
      var d := [Alphabet[num % 62]];
      DigitsStep(num);
      assert Digits(num / 62) + (d + result) == Digits(num) + result;
      result := d + result;
      num := num / 62;
    }
  }

  /** The source's `decode` loop: `result = result * 62 + indexOf(str[i])` from left to right. */
  method DecodeLoop(str: string) returns (result: int)
    ensures result == Positional(str)
  {
    result := 0;
    var i := 0;
    while i < |str|
      invariant 0 <= i <= |str|
      invariant result == Decode(str[..i])
    {
      assert str[..i + 1][..i] == str[..i];
      result := result * 62 + IndexOf(str[i]);
      i := i + 1;
    }
    assert str[..i] == str;
    DecodePositional(str);
  }
}

=== FILE: country_code_mapper.dfy ===
/** The country-name to ISO 3166-1 alpha-2 table, read from a CSV file whose
    content is a parameter: one `name,code` pair per line after the header. */
module CountryCodeMapper {
  import opened Wrappers
  import opened Strings

  /** One data line: `parts = line.split(',')`; with at least two fields the
      trimmed first two become a name and a code, the rest are ignored. */
  function ParseLine(line: string): (r: Option<(string, string)>)
    ensures r.Some? <==> ',' in line
  {
    var parts := Split(line, ',');
    SplitCountsSeparator(line);
    if |parts| >= 2 then Some((Trim(parts[0]), Trim(parts[1]))) else None
  }

  /** `split(c)` yields more than one piece exactly when `c` occurs. */
  lemma {:induction false} SplitCountsSeparator(s: string)
    ensures |Split(s, ',')| >= 2 <==> ',' in s
  {
    if |s| > 0 {
      SplitCountsSeparator(s[1..]);
      assert s == [s[0]] + s[1..];
    }
  }

  /** The mapping after the given data lines, stored in order (a later line
      with the same name overwrites an earlier one). */
  function Collect(lines: seq<string>): (m: map<string, string>)
    ensures forall name :: name in m ==> exists i :: 0 <= i < |lines| && ParseLine(lines[i]).Some? && ParseLine(lines[i]).value.0 == name
  {
    if |lines| == 0 then map[]
    else
      var m := Collect(lines[..|lines| - 1]);
      match ParseLine(lines[|lines| - 1])
      case Some((name, code)) => m[name := code]
      case None => m
  }

  /** The mapping built from the whole file: every line but the first (the header). */
  function BuildMapping(content: string): map<string, string>
  {
    Collect(Split(content, '\n')[1..])
  }

  /** The loading loop of the module, from `i = 1` to the last line. */
  method LoadMapping(content: string) returns (mapping: map<string, string>)
    ensures mapping == BuildMapping(content)
  {
    var lines := Split(content, '\n');
    mapping := map[];
    var i := 1;
    while i < |lines|
      invariant 1 <= i <= |lines|
      invariant mapping == Collect(lines[1..i])
    {
      var parts := Split(lines[i], ',');
      CollectSnoc(lines[1..i], lines[i]);
      assert lines[1..i + 1] == lines[1..i] + [lines[i]];
      if |parts| >= 2 {
        assert ParseLine(lines[i]) == Some((Trim(parts[0]), Trim(parts[1])));
        mapping := mapping[Trim(parts[0]) := Trim(parts[1])];
      } else {
        assert ParseLine(lines[i]) == None;
      }
      i := i + 1;
    }
    assert lines[1..i] == lines[1..];
  }

  /** `getCountryCode`: the stored code, or null when the name is unknown or its code is empty. */
  function GetCountryCode(mapping: map<string, string>, name: string): (r: Option<string>)
    ensures r.Some? <==> name in mapping && mapping[name] != ""
    ensures r.Some? ==> r.value == mapping[name]
  {
    if name in mapping && mapping[name] != "" then Some(mapping[name]) else None
  }

  // ------------------------------------------------------------ properties

  /** A line contributes exactly its parsed pair, overriding earlier ones. */
  lemma CollectSnoc(lines: seq<string>, line: string)
    ensures Collect(lines + [line]) ==
      match ParseLine(line)
      case Some((name, code)) => Collect(lines)[name := code]
      case None => Collect(lines)
  {
    assert (lines + [line])[..|lines|] == lines;
  }

  /** The header line never produces a mapping: two files that differ only in
      their first line give the same table. */
  lemma HeaderIgnored(h1: string, h2: string, body: string)
    requires '\n' !in h1 && '\n' !in h2
    ensures BuildMapping(h1 + "\n" + body) == BuildMapping(h2 + "\n" + body)
    ensures BuildMapping(h1) == map[]
  {
    SplitCons(h1, '\n', body);
    SplitCons(h2, '\n', body);
    SplitNoSep(h1, '\n');
  }

  /** Lines without a comma are skipped. */
  lemma ShortLineIgnored(lines: seq<string>, line: string)
    requires ',' !in line
    ensures Collect(lines + [line]) == Collect(lines)
  {
    CollectSnoc(lines, line);
  }

  /** A stored pair: both sides trimmed and free of commas. */
  predicate CleanPair(name: string, code: string)
  {
    && (|name| > 0 ==> !IsWs(name[0]) && !IsWs(name[|name| - 1]))
    && (|code| > 0 ==> !IsWs(code[0]) && !IsWs(code[|code| - 1]))
    && ',' !in name && ',' !in code
  }

  lemma ParseLineClean(line: string)
    ensures ParseLine(line).Some? ==> CleanPair(ParseLine(line).value.0, ParseLine(line).value.1)
  {
    var parts := Split(line, ',');
    if |parts| >= 2 {
      assert ',' !in parts[0] && ',' !in parts[1];
    }
  }

  /** Names and codes are stored trimmed and free of commas; since a carriage
      return is white space, a CRLF line ending never reaches a code. */
  lemma {:induction false} StoredTrimmed(lines: seq<string>)
    ensures forall name :: name in Collect(lines) ==> CleanPair(name, Collect(lines)[name])
  {
    if |lines| > 0 {
      var init := lines[..|lines| - 1];
      StoredTrimmed(init);
      ParseLineClean(lines[|lines| - 1]);
    }
  }

  /** A line `name,code` (neither containing a comma) maps the trimmed name to
      the trimmed code, replacing what an earlier line stored under that name. */
  lemma LastLineWins(lines: seq<string>, name: string, code: string)
    requires ',' !in name && ',' !in code
    ensures Collect(lines + [name + "," + code]) == Collect(lines)[Trim(name) := Trim(code)]
  {
    ExtraFieldsIgnored(name, code, "");
    CollectSnoc(lines, name + "," + code);
  }

  /** Fields after the second are ignored. */
  lemma ExtraFieldsIgnored(name: string, code: string, extra: string)
    requires ',' !in name && ',' !in code
    ensures ParseLine(name + "," + code) == Some((Trim(name), Trim(code)))
    ensures ParseLine(name + "," + code + "," + extra) == Some((Trim(name), Trim(code)))
  {
    SplitCons(name, ',', code);
    SplitNoSep(code, ',');
    assert name + "," + code == name + [','] + code;
    SplitCons(name, ',', code + "," + extra);
    SplitCons(code, ',', extra);
    assert name + "," + code + "," + extra == name + [','] + (code + [','] + extra);
  }
}

=== FILE: ip_lookup.dfy ===
/** The second copy of the private-address test. It is written here as one
    disjunction over the address and its lower-cased form, reading the
    `172.` octet as a number, and proved equal to the pattern-list version. */
module IpLookup {
  import opened Strings
  import IpUtils

  predicate IsLowerHex(c: char) { IsDigit(c) || 'a' <= c <= 'f' }

  /** `172.N.` with `N` two decimal digits whose value is 16 through 31. */
  predicate SecondOctetPrivate(ip: string)
  {
    && StartsWith(ip, "172.") && |ip| >= 7 && ip[6] == '.'
    && IsDigit(ip[4]) && IsDigit(ip[5])
    && 16 <= 10 * IpUtils.DigitValue(ip[4]) + IpUtils.DigitValue(ip[5]) <= 31
  }

  /** `isPrivateIP`. */
  predicate IsPrivateIp(ip: string)
  {
    var l := ToLower(ip);
    || StartsWith(ip, "10.")
    || SecondOctetPrivate(ip)
    || StartsWith(ip, "192.168.")
    || StartsWith(ip, "127.")
    || StartsWith(ip, "169.254.")
    || ip == "::1"
    || (|l| >= 5 && l[0] == 'f' && l[1] in {'c', 'd'} && IsLowerHex(l[2]) && IsLowerHex(l[3]) && l[4] == ':')
    || StartsWith(l, "fe80:")
  }

  lemma SecondOctetAgrees(ip: string)
    ensures SecondOctetPrivate(ip) == IpUtils.Private172(ip)
  {
  }

  lemma LowerPatternsAgree(ip: string)
    ensures var l := ToLower(ip);
      && ((|l| >= 5 && l[0] == 'f' && l[1] in {'c', 'd'} && IsLowerHex(l[2]) && IsLowerHex(l[3]) && l[4] == ':')
          == IpUtils.UniqueLocal6(ip))
      && (StartsWith(l, "fe80:") == IpUtils.LinkLocal6(ip))
  {
    var l := ToLower(ip);
    if |ip| >= 5 {
      assert l[0] == LowerChar(ip[0]) && l[1] == LowerChar(ip[1]) && l[2] == LowerChar(ip[2]);
      assert l[3] == LowerChar(ip[3]) && l[4] == LowerChar(ip[4]);
    }
  }

  /** Both copies of `isPrivateIP` classify every string alike. */
  lemma SameAsIpUtils(ip: string)
    ensures IsPrivateIp(ip) == IpUtils.IsPrivateIp(ip)
  {
    IpUtils.IsPrivateIpCases(ip);
    SecondOctetAgrees(ip);
    LowerPatternsAgree(ip);
  }

  /** What matches none of the eight patterns is public. */
  lemma NoPatternMeansPublic(ip: string)
    requires !StartsWith(ip, "10.") && !StartsWith(ip, "172.") && !StartsWith(ip, "192.168.")
    requires !StartsWith(ip, "127.") && !StartsWith(ip, "169.254.") && ip != "::1"
    requires |ip| < 5 || (ip[0] != 'f' && ip[0] != 'F')
    ensures !IsPrivateIp(ip)
  {
    var l := ToLower(ip);
    if |ip| >= 5 {
      assert l[0] == LowerChar(ip[0]);
    }
  }
}

=== FILE: ip_utils.dfy ===
/** The textual private-address test used before an address is sent to the
    geolocation service: a list of eight anchored regular expressions, any of
    which marks the address as private or reserved. Each expression is a
    predicate on the whole string. */
module IpUtils {
  import opened Strings

  /** `[0-9a-f]` under the `i` flag. */
  predicate IsHexDigit(c: char)
  {
    IsDigit(c) || 'a' <= c <= 'f' || 'A' <= c <= 'F'
  }

  /** `/^10\./`: 10.0.0.0/8 (section 3 of RFC 1918). */
  predicate Private10(ip: string) { StartsWith(ip, "10.") }

  /** `/^172\.(1[6-9]|2[0-9]|3[0-1])\./`: 172.16.0.0/12 (section 3 of RFC 1918). */
  predicate Private172(ip: string)
  {
    && StartsWith(ip, "172.") && |ip| >= 7 && ip[6] == '.'
    && (|| (ip[4] == '1' && '6' <= ip[5] <= '9')
        || (ip[4] == '2' && IsDigit(ip[5]))
        || (ip[4] == '3' && '0' <= ip[5] <= '1'))
  }

  /** `/^192\.168\./`: 192.168.0.0/16 (section 3 of RFC 1918). */
  predicate Private192(ip: string) { StartsWith(ip, "192.168.") }

  /** `/^127\./`: IPv4 loopback (section 3.2.1.3 of RFC 1122). */
  predicate Loopback4(ip: string) { StartsWith(ip, "127.") }

  /** `/^169\.254\./`: IPv4 link-local (RFC 3927). */
  predicate LinkLocal4(ip: string) { StartsWith(ip, "169.254.") }

  /** `/^::1$/`: the IPv6 loopback address (section 2.5.3 of RFC 4291), written exactly so. */
  predicate Loopback6(ip: string) { ip == "::1" }

  /** `/^f[cd][0-9a-f]{2}:/i`: unique-local addresses (RFC 4193) whose first group has four digits. */
  predicate UniqueLocal6(ip: string)
  {
    && |ip| >= 5
    && (ip[0] == 'f' || ip[0] == 'F')
    && (ip[1] == 'c' || ip[1] == 'd' || ip[1] == 'C' || ip[1] == 'D')
    && IsHexDigit(ip[2]) && IsHexDigit(ip[3])
    && ip[4] == ':'
  }

  /** `/^fe80:/i`: the literal prefix `fe80:` only, not all of fe80::/10
      (section 2.5.6 of RFC 4291). */
  predicate LinkLocal6(ip: string)
  {
    |ip| >= 5 && (ip[0] == 'f' || ip[0] == 'F') && (ip[1] == 'e' || ip[1] == 'E')
    && ip[2] == '8' && ip[3] == '0' && ip[4] == ':'
  }

  /** The `privateRanges` list, in source order. */
  const PrivateRanges: seq<string -> bool> :=
    [Private10, Private172, Private192, Loopback4, LinkLocal4, Loopback6, UniqueLocal6, LinkLocal6]

  /** `ranges.some(range => range.test(ip))`. */
  function AnyMatches(ranges: seq<string -> bool>, ip: string): (b: bool)
    ensures b <==> exists i :: 0 <= i < |ranges| && ranges[i](ip)
  {
    if |ranges| == 0 then false
    else if ranges[0](ip) then true
    else
      assert forall i :: 1 <= i < |ranges| ==> ranges[i] == ranges[1..][i - 1];
      AnyMatches(ranges[1..], ip)
  }

  /** `isPrivateIP`. */
  function IsPrivateIp(ip: string): bool
  {
    AnyMatches(PrivateRanges, ip)
  }

  /** The classification is exactly the disjunction of the eight patterns. */
  lemma IsPrivateIpCases(ip: string)
    ensures IsPrivateIp(ip) <==>
      || Private10(ip) || Private172(ip) || Private192(ip) || Loopback4(ip)
      || LinkLocal4(ip) || Loopback6(ip) || UniqueLocal6(ip) || LinkLocal6(ip)
  {
    var r := PrivateRanges;
    assert r[0] == Private10 && r[1] == Private172 && r[2] == Private192 && r[3] == Loopback4;
    assert r[4] == LinkLocal4 && r[5] == Loopback6 && r[6] == UniqueLocal6 && r[7] == LinkLocal6;
  }

  lemma StartsWithConcat(p: string, rest: string)
    ensures StartsWith(p + rest, p)
  {
  }

  /** Anything beginning `10.`, `192.168.`, `127.` or `169.254.` is private. */
  lemma IPv4PrefixesArePrivate(rest: string)
    ensures IsPrivateIp("10." + rest)
    ensures IsPrivateIp("192.168." + rest)
    ensures IsPrivateIp("127." + rest)
    ensures IsPrivateIp("169.254." + rest)
  {
    StartsWithConcat("10.", rest);
    StartsWithConcat("192.168.", rest);
    StartsWithConcat("127.", rest);
    StartsWithConcat("169.254.", rest);
    IsPrivateIpCases("10." + rest);
    IsPrivateIpCases("192.168." + rest);
    IsPrivateIpCases("127." + rest);
    IsPrivateIpCases("169.254." + rest);
  }

  function DigitValue(c: char): int { c as int - '0' as int }

  predicate AllDigits(n: string) { forall i :: 0 <= i < |n| ==> IsDigit(n[i]) }

  /** `172.N.` is private exactly when `N` is written with two digits and lies in 16..31. */
  lemma Private172Exactly(n: string, rest: string)
    requires |n| >= 1 && AllDigits(n)
    ensures IsPrivateIp("172." + n + "." + rest) <==>
      |n| == 2 && 16 <= 10 * DigitValue(n[0]) + DigitValue(n[1]) <= 31
  {
    var ip := "172." + n + "." + rest;
    IsPrivateIpCases(ip);
    assert ip[0] == '1' && ip[1] == '7' && ip[2] == '2' && ip[3] == '.';
    assert forall i :: 0 <= i < |n| ==> ip[4 + i] == n[i];
    assert ip[4 + |n|] == '.';
    assert StartsWith(ip, "172.");
    assert !Private10(ip) by { assert ip[1] != "10."[1]; }
    assert !Private192(ip) by { assert ip[1] != "192.168."[1]; }
    assert !Loopback4(ip) by { assert ip[1] != "127."[1]; }
    assert !LinkLocal4(ip) by { assert ip[1] != "169.254."[1]; }
    assert !Loopback6(ip) by { assert ip[0] != "::1"[0]; }
  }

  /** The two neighbours of the 172.16.0.0/12 block are public. */
  lemma Neighbours172ArePublic()
    ensures !IsPrivateIp("172.15.0.1") && !IsPrivateIp("172.32.0.1")
  {
    Private172Exactly("15", "0.1");
    Private172Exactly("32", "0.1");
    assert "172.15.0.1" == "172." + "15" + "." + "0.1";
    assert "172.32.0.1" == "172." + "32" + "." + "0.1";
  }

  /** The first and last second octets of the block are private. */
  lemma Ends172ArePrivate()
    ensures IsPrivateIp("172.16.0.1") && IsPrivateIp("172.31.255.255")
  {
    Private172Exactly("16", "0.1");
    Private172Exactly("31", "255.255");
    assert "172.16.0.1" == "172." + "16" + "." + "0.1";
    assert "172.31.255.255" == "172." + "31" + "." + "255.255";
  }

  /** The dot after `10` keeps longer first octets out, and public addresses stay public. */
  lemma PublicExamples()
    ensures !IsPrivateIp("100.64.0.1")
    ensures !IsPrivateIp("8.8.8.8")
    ensures !IsPrivateIp("fe8:1::1")
  {
    var a, b, c := "100.64.0.1", "8.8.8.8", "fe8:1::1";
    IsPrivateIpCases(a);
    IsPrivateIpCases(b);
    IsPrivateIpCases(c);
    assert a[2] != "10."[2] && a[1] != "172."[1] && a[1] != "192.168."[1];
    assert a[1] != "127."[1] && a[1] != "169.254."[1];
    assert b[0] != "10."[0] && b[0] != "172."[0] && b[0] != "192.168."[0];
    assert b[0] != "127."[0] && b[0] != "169.254."[0];
    assert c[0] != "10."[0] && c[0] != "172."[0] && c[0] != "192.168."[0];
    assert c[0] != "127."[0] && c[0] != "169.254."[0];
    assert c[3] == ':';
  }

  /** `::1` is private only as the whole string. */
  lemma Loopback6Whole(rest: string)
    ensures IsPrivateIp("::1")
    ensures rest != "" ==> !IsPrivateIp("::1" + rest)
  {
    IsPrivateIpCases("::1");
    var ip := "::1" + rest;
    IsPrivateIpCases(ip);
    assert ip[0] == ':';
    if rest != "" {
      assert |ip| != 3;
    }
  }

  /** An address beginning with `f` can only match the two IPv6 prefix patterns. */
  lemma StartingWithF(ip: string)
    requires |ip| > 0 && (ip[0] == 'f' || ip[0] == 'F')
    ensures IsPrivateIp(ip) == (UniqueLocal6(ip) || LinkLocal6(ip))
  {
    IsPrivateIpCases(ip);
    assert ip[0] != "10."[0] && ip[0] != "172."[0] && ip[0] != "192.168."[0];
    assert ip[0] != "127."[0] && ip[0] != "169.254."[0];
  }

  /** IPv6 unique-local and `fe80:` addresses are private in either case. */
  lemma IPv6Examples()
    ensures IsPrivateIp("fd12:3456::1") && IsPrivateIp("FC00::") && IsPrivateIp("fe80::1") && IsPrivateIp("FE80::1")
  {
    var a, b, c, d := "fd12:3456::1", "FC00::", "fe80::1", "FE80::1";
    StartingWithF(a);
    StartingWithF(b);
    StartingWithF(c);
    StartingWithF(d);
    assert a[4] == ':' && b[4] == ':' && c[4] == ':' && d[4] == ':';
  }

  /** The rest of fe80::/10, and the deprecated site-local fec0::, are not private. */
  lemma IPv6PublicExamples()
    ensures !IsPrivateIp("fe81::1") && !IsPrivateIp("febf::1") && !IsPrivateIp("fec0::1")
  {
    var e, f, g := "fe81::1", "febf::1", "fec0::1";
    StartingWithF(e);
    StartingWithF(f);
    StartingWithF(g);
    assert e[1] == 'e' && e[3] == '1';
    assert f[1] == 'e' && f[2] == 'b';
    assert g[1] == 'e' && g[2] == 'c';
  }

  /** The literal characters of `p` are neither letters, so case does not affect a match. */
  lemma StartsWithLower(ip: string, p: string)
    requires forall i :: 0 <= i < |p| ==> !IsUpperLetter(p[i]) && !IsLowerLetter(p[i])
    ensures StartsWith(ToLower(ip), p) == StartsWith(ip, p)
  {
    var l := ToLower(ip);
    if |p| <= |ip| {
      forall i | 0 <= i < |p|
        ensures l[i] == p[i] <==> ip[i] == p[i]
      {
        assert l[i] == LowerChar(ip[i]);
      }
    }
  }

  /** The patterns that contain letters ignore case; the others contain none. */
  lemma LowerKeepsLetterPatterns(ip: string)
    ensures Private172(ToLower(ip)) == Private172(ip)
    ensures UniqueLocal6(ToLower(ip)) == UniqueLocal6(ip)
    ensures LinkLocal6(ToLower(ip)) == LinkLocal6(ip)
  {
    var l := ToLower(ip);
    StartsWithLower(ip, "172.");
    if |ip| >= 5 {
      assert l[0] == LowerChar(ip[0]) && l[1] == LowerChar(ip[1]) && l[2] == LowerChar(ip[2]);
      assert l[3] == LowerChar(ip[3]) && l[4] == LowerChar(ip[4]);
    }
    if |ip| >= 7 {
      assert l[5] == LowerChar(ip[5]) && l[6] == LowerChar(ip[6]);
    }
  }

  lemma LowerKeepsLoopback6(ip: string)
    ensures Loopback6(ToLower(ip)) == Loopback6(ip)
  {
    var l := ToLower(ip);
    if |ip| == 3 {
      assert l[0] == LowerChar(ip[0]) && l[1] == LowerChar(ip[1]) && l[2] == LowerChar(ip[2]);
      if l == "::1" || ip == "::1" {
        assert l == ip;
      }
    }
  }

  /** Letters in an address are compared without regard to case. */
  lemma CaseInsensitive(ip: string)
    ensures IsPrivateIp(ToLower(ip)) == IsPrivateIp(ip)
  {
    IsPrivateIpCases(ip);
    IsPrivateIpCases(ToLower(ip));
    StartsWithLower(ip, "10.");
    StartsWithLower(ip, "192.168.");
    StartsWithLower(ip, "127.");
    StartsWithLower(ip, "169.254.");
    LowerKeepsLetterPatterns(ip);
    LowerKeepsLoopback6(ip);
  }
}

=== FILE: morse.dfy ===
/** Morse code as the text transformers use it: the letters and digits of
    ITU-R M.1677-1, with `/` standing for the space between words. */
module Morse {
  import opened Wrappers
  import opened Strings
  import opened Tables

  /** `getMorseCodeMap()`, in the order `Object.entries` lists it: the
      integer-like keys `'0'`..`'9'` first, then the rest in writing order. */
  const MorseTable: seq<(char, string)> := [
    ('0', "-----"), ('1', ".----"), ('2', "..---"), ('3', "...--"), ('4', "....-"),
    ('5', "....."), ('6', "-...."), ('7', "--..."), ('8', "---.."), ('9', "----."),
    ('A', ".-"), ('B', "-..."), ('C', "-.-."), ('D', "-.."), ('E', "."), ('F', "..-."),
    ('G', "--."), ('H', "...."), ('I', ".."), ('J', ".---"), ('K', "-.-"), ('L', ".-.."),
    ('M', "--"), ('N', "-."), ('O', "---"), ('P', ".--."), ('Q', "--.-"), ('R', ".-."),
    ('S', "..."), ('T', "-"), ('U', "..-"), ('V', "...-"), ('W', ".--"), ('X', "-..-"),
    ('Y', "-.--"), ('Z', "--.."), (' ', "/")]

  /** The characters that have a code: upper-case letters, digits and space. */
  predicate HasCode(c: char)
  {
    IsDigit(c) || IsUpperLetter(c) || c == ' '
  }

  /** A code is a non-empty string of dots and dashes, or the word separator `/`. */
  predicate IsCode(code: string)
  {
    |code| > 0 && forall i :: 0 <= i < |code| ==> code[i] in {'.', '-', '/'}
  }

  /** The table lists each coded character once, under a well-formed code,
      and no two characters share a code. */
  lemma TableShape()
    ensures |MorseTable| == 37
    ensures forall i :: 0 <= i < |MorseTable| ==> HasCode(MorseTable[i].0) && IsCode(MorseTable[i].1)
    ensures forall i, j :: 0 <= i < j < |MorseTable| ==> MorseTable[i].0 != MorseTable[j].0
    ensures forall i, j :: 0 <= i < j < |MorseTable| ==> MorseTable[i].1 != MorseTable[j].1
  {
    TableCodesWellFormed();
    TableCharsDistinct();
    TableCodesDistinct();
  }

  lemma TableCodesWellFormed()
    ensures forall i :: 0 <= i < |MorseTable| ==> HasCode(MorseTable[i].0) && IsCode(MorseTable[i].1)
  {
  }

  /** Entry `i` holds digit `i`, letter `i - 10`, or the space at 36. */
  lemma TableCharsDistinct()
    ensures forall i, j :: 0 <= i < j < |MorseTable| ==> MorseTable[i].0 != MorseTable[j].0
  {
    var t := MorseTable;
    assert forall i :: 0 <= i < 10 ==> t[i].0 as int == '0' as int + i;
    assert forall i :: 10 <= i < 36 ==> t[i].0 as int == 'A' as int + i - 10;
    assert t[36].0 == ' ';
  }

  /** The digit codes have five symbols, unlike every other code, and differ among themselves. */
  lemma DigitCodesDistinct()
    ensures forall i, j :: 0 <= i < 10 && i < j < |MorseTable| ==> MorseTable[i].1 != MorseTable[j].1
  {
    var t := MorseTable;
    assert forall j :: 10 <= j < 37 ==> |t[j].1| < 5;
  }

  lemma LetterCodesDistinct()
    ensures forall i, j :: 10 <= i < j < |MorseTable| ==> MorseTable[i].1 != MorseTable[j].1
  {
  }

  lemma TableCodesDistinct()
    ensures forall i, j :: 0 <= i < j < |MorseTable| ==> MorseTable[i].1 != MorseTable[j].1
  {
    DigitCodesDistinct();
    LetterCodesDistinct();
  }

  /** Every character that has a code is in the table. */
  lemma TableCovers(c: char)
    requires HasCode(c)
    ensures exists i :: 0 <= i < |MorseTable| && MorseTable[i].0 == c
  {
    if IsDigit(c) {
      assert MorseTable[c as int - '0' as int].0 == c;
    } else if IsUpperLetter(c) {
      assert MorseTable[c as int - 'A' as int + 10].0 == c;
    } else {
      assert MorseTable[36].0 == c;
    }
  }

  lemma CodedAreListed()
    ensures forall c :: HasCode(c) ==> exists i :: 0 <= i < |MorseTable| && MorseTable[i].0 == c
  {
    forall c | HasCode(c)
      ensures exists i :: 0 <= i < |MorseTable| && MorseTable[i].0 == c
    {
      TableCovers(c);
    }
  }

  /** The reverse map built by the loop over `Object.entries`: each code is
      stored under its character, later entries overwriting earlier ones. */
  function Reverse(entries: seq<(char, string)>): (m: map<string, char>)
    ensures m.Keys == set i | 0 <= i < |entries| :: entries[i].1
  {
    if |entries| == 0 then map[]
    else
      var init := entries[..|entries| - 1];
      var last := entries[|entries| - 1];
      var m := Reverse(init)[last.1 := last.0];
      assert forall i :: 0 <= i < |init| ==> entries[i] == init[i];
      m
  }

  /** With distinct codes nothing is overwritten: the reverse map sends each code back to its character. */
  lemma {:induction false} ReverseInverts(entries: seq<(char, string)>)
    requires forall i, j :: 0 <= i < j < |entries| ==> entries[i].1 != entries[j].1
    ensures forall i :: 0 <= i < |entries| ==> Reverse(entries)[entries[i].1] == entries[i].0
  {
    if |entries| > 0 {
      var init := entries[..|entries| - 1];
      ReverseInverts(init);
      assert forall i :: 0 <= i < |init| ==> entries[i] == init[i];
    }
  }

  /** `getReverseMorseCodeMap()`. */
  const ReverseTable: map<string, char> := Reverse(MorseTable)

  /** The reverse map is the exact inverse of the code map. */
  lemma ReverseTableExact()
    ensures forall i :: 0 <= i < |MorseTable| ==> MorseTable[i].1 in ReverseTable && ReverseTable[MorseTable[i].1] == MorseTable[i].0
    ensures forall code :: code in ReverseTable ==> exists i :: 0 <= i < |MorseTable| && MorseTable[i] == (ReverseTable[code], code)
  {
    TableShape();
    ReverseInverts(MorseTable);
  }

  /** The code of a character, when it has one. */
  function CodeOf(c: char): (r: Option<string>)
    ensures r.Some? <==> HasCode(c)
    ensures r.Some? ==> IsCode(r.value) && r.value in ReverseTable && ReverseTable[r.value] == c
  {
    var r := Lookup(MorseTable, c);
    TableShape();
    ReverseTableExact();
    CodedAreListed();
    r
  }

  /** `morseMap[char] || char`: a character's code, or the character itself. */
  function EncodeChar(c: char): (r: string)
    ensures !HasCode(c) ==> r == [c]
    ensures HasCode(c) ==> IsCode(r) && r in ReverseTable && ReverseTable[r] == c
  {
    match CodeOf(c)
    case Some(code) => code
    case None => [c]
  }

  /** `reverseMorseMap[code] || code`: a code's character, or the token itself. */
  function DecodeToken(token: string): string
  {
    if token in ReverseTable then [ReverseTable[token]] else token
  }

  /** One token per character. */
  function Tokens(u: string): (toks: seq<string>)
    ensures |toks| == |u| && forall i :: 0 <= i < |u| ==> toks[i] == EncodeChar(u[i])
  {
    seq(|u|, i requires 0 <= i < |u| => EncodeChar(u[i]))
  }

  function DecodeTokens(parts: seq<string>): (r: seq<string>)
    ensures |r| == |parts| && forall i :: 0 <= i < |parts| ==> r[i] == DecodeToken(parts[i])
  {
    seq(|parts|, i requires 0 <= i < |parts| => DecodeToken(parts[i]))
  }

  /** `morseEncode`: upper-case, one token per character, tokens joined by a
      space, white-space runs collapsed to one space, and the ends trimmed. */
  function MorseEncode(text: string): (r: string)
    requires IsAscii(text)
    ensures forall i :: 0 <= i < |r| && IsWs(r[i]) ==> r[i] == ' '
    ensures NoDoubled(r, ' ')
    ensures |r| > 0 ==> !IsWs(r[0]) && !IsWs(r[|r| - 1])
    ensures SpaceOnly(text) && |text| > 0 ==> r == Join(Tokens(ToUpper(text)), " ")
  {
    var joined := Join(Tokens(ToUpper(text)), " ");
    CollapseAndTrim(joined);
    TokensSurviveCleanup(text);
    Trim(ReplaceRuns(joined, IsWs, ' '))
  }

  /** Collapsing white-space runs to one space and trimming leaves single
      spaces as the only white space. */
  lemma CollapseAndTrim(s: string)
    ensures var r := Trim(ReplaceRuns(s, IsWs, ' '));
      && (forall i :: 0 <= i < |r| && IsWs(r[i]) ==> r[i] == ' ')
      && NoDoubled(r, ' ')
  {
    var collapsed := ReplaceRuns(s, IsWs, ' ');
    ReplaceRunsChars(s, IsWs, ' ');
    ReplaceRunsNoDoubled(s, IsWs, ' ');
    TrimNoDoubled(collapsed, ' ');
    TrimChars(collapsed);
    var r := Trim(collapsed);
    forall i | 0 <= i < |r| && IsWs(r[i])
      ensures r[i] == ' '
    {
      assert r[i] in r;
    }
  }

  /** `morseDecode`: split at single spaces, decode each token, concatenate,
      turn every `/` into a space, and trim. */
  function MorseDecode(text: string): (r: string)
    ensures '/' !in r
    ensures |r| > 0 ==> !IsWs(r[0]) && !IsWs(r[|r| - 1])
  {
    var joined := Join(DecodeTokens(Split(text, ' ')), "");
    var spaced := ReplaceChar(joined, '/', ' ');
    assert '/' !in spaced;
    TrimChars(spaced);
    Trim(spaced)
  }

  /** Unknown tokens pass through decoding and `/` becomes a space. */
  lemma DecodeTokenCases(token: string)
    ensures token == "/" ==> DecodeToken(token) == " "
    ensures token !in ReverseTable ==> DecodeToken(token) == token
    ensures forall c :: HasCode(c) ==> DecodeToken(EncodeChar(c)) == [c]
  {
    ReverseTableExact();
    assert MorseTable[36] == (' ', "/");
  }

  // ------------------------------------------------------------ round trip

  /** A token of the encoding: non-empty and free of white space. */
  predicate IsToken(t: string)
  {
    |t| > 0 && forall i :: 0 <= i < |t| ==> !IsWs(t[i])
  }

  /** Tokens joined by single spaces: no white space at the ends, and every
      white-space character a lone space. */
  predicate WellSpaced(s: string)
  {
    && |s| > 0 && !IsWs(s[0]) && !IsWs(s[|s| - 1])
    && (forall i :: 0 <= i < |s| && IsWs(s[i]) ==> s[i] == ' ')
    && forall i :: 0 <= i < |s| - 1 ==> !(IsWs(s[i]) && IsWs(s[i + 1]))
  }

  lemma {:induction false} JoinTokens(toks: seq<string>)
    requires |toks| >= 1 && forall k :: 0 <= k < |toks| ==> IsToken(toks[k])
    ensures WellSpaced(Join(toks, " "))
  {
    if |toks| > 1 {
      JoinTokens(toks[1..]);
      SpacedCons(toks[0], Join(toks[1..], " "));
    } else {
      assert IsToken(toks[0]);
    }
  }

  /** A token, a space, and well-spaced tokens are well spaced. */
  lemma SpacedCons(a: string, b: string)
    requires IsToken(a) && WellSpaced(b)
    ensures WellSpaced(a + " " + b)
  {
    var j := a + " " + b;
    assert forall i :: 0 <= i < |a| ==> j[i] == a[i];
    assert j[|a|] == ' ';
    assert forall i :: 0 <= i < |b| ==> j[|a| + 1 + i] == b[i];
    forall i | 0 <= i < |j| - 1
      ensures !(IsWs(j[i]) && IsWs(j[i + 1]))
    {
      if i < |a| - 1 {
      } else if i == |a| - 1 {
      } else if i == |a| {
      } else {
        assert j[i] == b[i - |a| - 1];
      }
    }
  }

  /** Every character other than a non-space white space encodes to a token. */
  lemma CharToken(c: char)
    requires !IsWs(c) || c == ' '
    ensures IsToken(EncodeChar(c))
  {
    if HasCode(c) {
      CodeNoWs(EncodeChar(c));
    }
  }

  lemma CodeNoWs(code: string)
    requires IsCode(code)
    ensures IsToken(code)
  {
    assert !IsWs('.') && !IsWs('-') && !IsWs('/');
    forall i | 0 <= i < |code|
      ensures !IsWs(code[i])
    {
      assert code[i] in {'.', '-', '/'};
    }
  }

  lemma TokensAreTokens(u: string)
    requires forall i :: 0 <= i < |u| ==> !IsWs(u[i]) || u[i] == ' '
    ensures forall k :: 0 <= k < |u| ==> IsToken(Tokens(u)[k])
  {
    forall k | 0 <= k < |u|
      ensures IsToken(Tokens(u)[k])
    {
      CharToken(u[k]);
    }
  }

  /** Upper-casing ASCII text adds no white space. */
  lemma UpperSpaceOnly(s: string)
    requires SpaceOnly(s)
    ensures forall i :: 0 <= i < |s| ==> !IsWs(ToUpper(s)[i]) || ToUpper(s)[i] == ' '
  {
    forall i | 0 <= i < |s|
      ensures !IsWs(ToUpper(s)[i]) || ToUpper(s)[i] == ' '
    {
      assert ToUpper(s)[i] == UpperChar(s[i]);
      if IsLowerLetter(s[i]) {
        assert IsUpperLetter(UpperChar(s[i]));
      }
    }
  }

  /** Concatenating one-character strings gives back the string. */
  lemma {:induction false} JoinSingletons(u: string)
    ensures Join(seq(|u|, i requires 0 <= i < |u| => [u[i]]), "") == u
  {
    if |u| > 1 {
      JoinSingletons(u[1..]);
      var parts := seq(|u|, i requires 0 <= i < |u| => [u[i]]);
      assert parts[1..] == seq(|u[1..]|, i requires 0 <= i < |u[1..]| => [u[1..][i]]);
      assert u == [u[0]] + u[1..];
    } else if |u| == 1 {
      assert u == [u[0]];
    }
  }

  /** Text over letters, digits and spaces. */
  predicate IsPlainText(s: string)
  {
    forall i :: 0 <= i < |s| ==> IsAlnum(s[i]) || s[i] == ' '
  }

  /** ASCII text whose only white space is the plain space. */
  predicate SpaceOnly(s: string)
  {
    IsAscii(s) && forall i :: 0 <= i < |s| && IsWs(s[i]) ==> s[i] == ' '
  }

  lemma UpperPlain(s: string)
    requires IsPlainText(s)
    ensures SpaceOnly(s)
    ensures forall i :: 0 <= i < |s| ==> HasCode(ToUpper(s)[i])
  {
  }

  lemma CodedTokens(u: string)
    requires forall i :: 0 <= i < |u| ==> HasCode(u[i])
    ensures forall k :: 0 <= k < |u| ==> IsCode(Tokens(u)[k]) && DecodeTokens(Tokens(u))[k] == [u[k]]
  {
    forall k | 0 <= k < |u|
      ensures IsCode(Tokens(u)[k]) && DecodeToken(Tokens(u)[k]) == [u[k]]
    {
      DecodeTokenCases(Tokens(u)[k]);
    }
  }

  /** For text whose only white space is spaces, the tokens joined by single
      spaces pass the clean-up steps unchanged. */
  lemma TokensSurviveCleanup(s: string)
    ensures var j := Join(Tokens(ToUpper(s)), " ");
      SpaceOnly(s) && |s| > 0 ==> Trim(ReplaceRuns(j, IsWs, ' ')) == j
  {
    if SpaceOnly(s) && |s| > 0 {
      CleanTokens(s);
    }
  }

  lemma CleanTokens(s: string)
    requires SpaceOnly(s) && |s| > 0
    ensures var j := Join(Tokens(ToUpper(s)), " ");
      Trim(ReplaceRuns(j, IsWs, ' ')) == j
  {
    var toks := Tokens(ToUpper(s));
    UpperSpaceOnly(s);
    TokensAreTokens(ToUpper(s));
    var j := Join(toks, " ");
    JoinTokens(toks);
    ReplaceRunsNoop(j, IsWs, ' ');
    TrimNoop(j);
  }

  lemma EmptyText()
    ensures MorseEncode("") == "" && MorseDecode("") == ""
  {
    EncodeEmpty();
    DecodeEmpty();
  }

  lemma EncodeEmpty()
    ensures MorseEncode("") == ""
  {
    assert Tokens(ToUpper("")) == [];
    assert ReplaceRuns("", IsWs, ' ') == "";
  }

  lemma DecodeEmpty()
    ensures MorseDecode("") == ""
  {
    EmptyIsNoCode();
    assert Split("", ' ') == [""];
    assert DecodeTokens([""]) == [""];
    assert ReplaceChar("", '/', ' ') == "";
  }

  /** Every code is non-empty, so the empty token is not in the reverse map. */
  lemma EmptyIsNoCode()
    ensures "" !in ReverseTable
  {
    TableCodesWellFormed();
    forall i | 0 <= i < |MorseTable|
      ensures MorseTable[i].1 != ""
    {
      assert IsCode(MorseTable[i].1);
    }
  }

  /** Decoding codes joined by single spaces gives the coded characters, trimmed. */
  lemma DecodeJoined(u: string)
    requires |u| > 0 && forall i :: 0 <= i < |u| ==> HasCode(u[i])
    ensures MorseDecode(Join(Tokens(u), " ")) == Trim(u)
  {
    var toks := Tokens(u);
    var text := Join(toks, " ");
    CodedTokens(u);
    SplitJoin(toks, ' ');
    DecodeSingles(u);
    JoinSingletons(u);
    NoSlashCoded(u);
    MorseDecodeSteps(text);
  }

  /** The steps of `morseDecode`, spelled out. */
  lemma MorseDecodeSteps(text: string)
    ensures MorseDecode(text) == Trim(ReplaceChar(Join(DecodeTokens(Split(text, ' ')), ""), '/', ' '))
  {
  }

  lemma DecodeSingles(u: string)
    requires forall i :: 0 <= i < |u| ==> HasCode(u[i])
    ensures DecodeTokens(Tokens(u)) == seq(|u|, i requires 0 <= i < |u| => [u[i]])
  {
    CodedTokens(u);
  }

  lemma NoSlashCoded(u: string)
    requires forall i :: 0 <= i < |u| ==> HasCode(u[i])
    ensures ReplaceChar(u, '/', ' ') == u
  {
    assert forall i :: 0 <= i < |u| ==> u[i] != '/';
  }

  /** Decoding the encoding of plain text gives it back upper-cased and trimmed. */
  lemma DecodeEncode(s: string)
    requires IsPlainText(s)
    ensures IsAscii(s) && MorseDecode(MorseEncode(s)) == Trim(ToUpper(s))
  {
    UpperPlain(s);
    if |s| == 0 {
      EmptyText();
      assert ToUpper(s) == "";
    } else {
      DecodeJoined(ToUpper(s));
    }
  }
}

=== FILE: place_ranker.dfy ===
/** The city-and-country heuristic: every GeoNames candidate gets the score
    `0.6 * population + 0.3 * featureRank + 0.1 * geonamesScore` (a missing
    value counting 0), the candidates are sorted by descending score with a
    stable sort, and the first one wins. Scores are exact reals here. */
module PlaceRanker {
  import opened Wrappers
  import TimeUtils

  /** One GeoNames search hit: its feature code, optional population and
      relevance score, and `timezone.timeZoneId` ("" when it is missing). */
  datatype Place = Place(fcode: string, population: Option<real>, geonamesScore: Option<real>, timeZoneId: string)

  function Score(p: Place): (r: real)
    ensures p.population.None? && p.geonamesScore.None? ==> r == 0.3 * TimeUtils.FeatureCodeRank(p.fcode) as real
  {
    p.population.GetOr(0.0) * 0.6 + TimeUtils.FeatureCodeRank(p.fcode) as real * 0.3 + p.geonamesScore.GetOr(0.0) * 0.1
  }

  predicate SortedDesc(s: seq<Place>)
  {
    forall i, j :: 0 <= i < j < |s| ==> Score(s[i]) >= Score(s[j])
  }

  /** Places `p`, which precedes every element of `sorted` in the input,
      after the elements that score strictly more, so ties keep input order. */
  function Insert(p: Place, sorted: seq<Place>): (r: seq<Place>)
    ensures |r| == |sorted| + 1
    ensures multiset(r) == multiset(sorted) + multiset{p}
    ensures |sorted| == 0 || Score(sorted[0]) <= Score(p) ==> r[0] == p
    ensures |sorted| > 0 && Score(sorted[0]) > Score(p) ==> r[0] == sorted[0]
  {
    if |sorted| == 0 then [p]
    else if Score(sorted[0]) > Score(p) then
      assert sorted == [sorted[0]] + sorted[1..];
      [sorted[0]] + Insert(p, sorted[1..])
    else [p] + sorted
  }

  /** Every element of `s` scores at most `bound`. */
  predicate Below(s: seq<Place>, bound: real)
  {
    forall k :: 0 <= k < |s| ==> Score(s[k]) <= bound
  }

  lemma {:induction false} InsertBelow(p: Place, sorted: seq<Place>, bound: real)
    requires Below(sorted, bound) && Score(p) <= bound
    ensures Below(Insert(p, sorted), bound)
  {
    var r := Insert(p, sorted);
    forall k | 0 <= k < |r|
      ensures Score(r[k]) <= bound
    {
      assert r[k] in multiset(r);
      if r[k] != p {
        assert r[k] in multiset(sorted);
        var m :| 0 <= m < |sorted| && sorted[m] == r[k];
      }
    }
  }

  lemma {:induction false} InsertSorted(p: Place, sorted: seq<Place>)
    requires SortedDesc(sorted)
    ensures SortedDesc(Insert(p, sorted))
  {
    if |sorted| > 0 && Score(sorted[0]) > Score(p) {
      var h := sorted[0];
      TailSorted(sorted);
      InsertSorted(p, sorted[1..]);
      InsertBelow(p, sorted[1..], Score(h));
      InsertPasses(p, sorted);
      ConsSorted(h, Insert(p, sorted[1..]));
    } else {
      InsertStops(p, sorted);
      SortedBelowHead(sorted, Score(p));
      ConsSorted(p, sorted);
    }
  }

  lemma InsertStops(p: Place, sorted: seq<Place>)
    requires |sorted| == 0 || Score(sorted[0]) <= Score(p)
    ensures Insert(p, sorted) == [p] + sorted
  {
  }

  /** A sorted list whose head scores at most `bound` lies entirely below it. */
  lemma SortedBelowHead(sorted: seq<Place>, bound: real)
    requires SortedDesc(sorted) && (|sorted| == 0 || Score(sorted[0]) <= bound)
    ensures Below(sorted, bound)
  {
    forall k | 0 < k < |sorted|
      ensures Score(sorted[k]) <= bound
    {
      assert Score(sorted[k]) <= Score(sorted[0]);
    }
  }

  lemma InsertPasses(p: Place, sorted: seq<Place>)
    requires |sorted| > 0 && Score(sorted[0]) > Score(p)
    ensures Insert(p, sorted) == [sorted[0]] + Insert(p, sorted[1..])
  {
  }

  /** The tail of a sorted list is sorted and scores at most its head. */
  lemma TailSorted(sorted: seq<Place>)
    requires SortedDesc(sorted) && |sorted| > 0
    ensures SortedDesc(sorted[1..]) && Below(sorted[1..], Score(sorted[0]))
  {
    var t := sorted[1..];
    forall k | 0 <= k < |t|
      ensures Score(t[k]) <= Score(sorted[0])
    {
      assert t[k] == sorted[k + 1];
    }
  }

  /** A head scoring at least as much as every element of a sorted tail keeps it sorted. */
  lemma ConsSorted(h: Place, rest: seq<Place>)
    requires SortedDesc(rest) && Below(rest, Score(h))
    ensures SortedDesc([h] + rest)
  {
    var r := [h] + rest;
    forall i, j | 0 <= i < j < |r|
      ensures Score(r[i]) >= Score(r[j])
    {
      assert r[j] == rest[j - 1];
      if i > 0 {
        assert r[i] == rest[i - 1];
      }
    }
  }

  /** `scoredResults.sort((a, b) => b.score - a.score)`: a stable sort by descending score. */
  function SortByScore(s: seq<Place>): (r: seq<Place>)
    ensures |r| == |s|
    ensures multiset(r) == multiset(s)
    ensures SortedDesc(r)
  {
    if |s| == 0 then []
    else
      assert s == [s[0]] + s[1..];
      InsertSorted(s[0], SortByScore(s[1..]));
      Insert(s[0], SortByScore(s[1..]))
  }

  /** The first position holding a maximal score: the place a stable
      descending sort puts first. */
  function FirstMax(s: seq<Place>): (i: nat)
    requires |s| > 0
    ensures i < |s|
    ensures forall j :: 0 <= j < |s| ==> Score(s[j]) <= Score(s[i])
    ensures forall j :: 0 <= j < i ==> Score(s[j]) < Score(s[i])
  {
    if |s| == 1 then 0
    else
      var m := FirstMax(s[1..]);
      TailMax(s, m);
      if Score(s[0]) >= Score(s[1 + m]) then 0 else 1 + m
  }

  /** What `FirstMax` says about the tail, read on the whole sequence. */
  lemma TailMax(s: seq<Place>, m: nat)
    requires 1 + m < |s|
    requires forall j :: 0 <= j < |s| - 1 ==> Score(s[1..][j]) <= Score(s[1..][m])
    requires forall j :: 0 <= j < m ==> Score(s[1..][j]) < Score(s[1..][m])
    ensures forall j :: 1 <= j < |s| ==> Score(s[j]) <= Score(s[1 + m])
    ensures forall j :: 1 <= j < 1 + m ==> Score(s[j]) < Score(s[1 + m])
  {
    forall j | 1 <= j < |s|
      ensures Score(s[j]) <= Score(s[1 + m])
      ensures j < 1 + m ==> Score(s[j]) < Score(s[1 + m])
    {
      assert s[j] == s[1..][j - 1];
    }
  }

  /** `scoredResults[0]`. */
  function TopPlace(s: seq<Place>): Place
    requires |s| > 0
  {
    SortByScore(s)[0]
  }

  /** The winner has the maximal score, and among equal scores it is the one
      GeoNames listed first. */
  lemma {:induction false} TopIsFirstMax(s: seq<Place>)
    requires |s| > 0
    ensures TopPlace(s) == s[FirstMax(s)]
  {
    if |s| > 1 {
      TopIsFirstMax(s[1..]);
      var t := SortByScore(s[1..]);
      var m := FirstMax(s[1..]);
      assert t[0] == s[1..][m];
    }
  }

  /** Consequently the winner scores at least as much as every candidate. */
  lemma TopScoresMost(s: seq<Place>)
    requires |s| > 0
    ensures TopPlace(s) in s
    ensures forall p :: p in s ==> Score(p) <= Score(TopPlace(s))
  {
    TopIsFirstMax(s);
  }
}

=== FILE: strings.dfy ===
/** String helpers shared by the text, CSV and time-zone models: the
    JavaScript string operations the source relies on (`trim`, `split`,
    `join`, ASCII case mapping, replacement of character runs), written once. */
module Strings {

  /** Every character is 7-bit ASCII. */
  predicate IsAscii(s: string)
  {
    forall i :: 0 <= i < |s| ==> s[i] as int < 128
  }

  /** JavaScript's white space and line terminators: the set removed by
      `String.prototype.trim` and matched by the regular-expression class `\s`. */
  predicate IsWs(c: char)
  {
    || c == ' ' || c == '\t' || c == '\n' || c == '\U{000B}' || c == '\U{000C}' || c == '\r'
    || c == '\U{00A0}' || c == '\U{1680}' || ('\U{2000}' <= c <= '\U{200A}')
    || c == '\U{2028}' || c == '\U{2029}' || c == '\U{202F}' || c == '\U{205F}'
    || c == '\U{3000}' || c == '\U{FEFF}'
  }

  /** The characters the regular-expression `.` refuses to match. */
  predicate IsLineTerminator(c: char)
  {
    c == '\n' || c == '\r' || c == '\U{2028}' || c == '\U{2029}'
  }

  predicate IsDigit(c: char) { '0' <= c <= '9' }
  predicate IsLowerLetter(c: char) { 'a' <= c <= 'z' }
  predicate IsUpperLetter(c: char) { 'A' <= c <= 'Z' }

  /** The class `[a-zA-Z0-9]`. */
  predicate IsAlnum(c: char) { IsDigit(c) || IsLowerLetter(c) || IsUpperLetter(c) }

  /** The class `\w`, i.e. `[A-Za-z0-9_]`. */
  predicate IsWordChar(c: char) { IsAlnum(c) || c == '_' }

  /** `s` begins with `p` (a regular expression `^p` with `p` literal). */
  predicate StartsWith(s: string, p: string)
  {
    |p| <= |s| && forall i :: 0 <= i < |p| ==> s[i] == p[i]
  }

  /** `toUpperCase` of one ASCII character. */
  function UpperChar(c: char): char
  {
    if IsLowerLetter(c) then (c as int - 32) as char else c
  }

  /** `toLowerCase` of one ASCII character. */
  function LowerChar(c: char): char
  {
    if IsUpperLetter(c) then (c as int + 32) as char else c
  }

  function ToUpper(s: string): (r: string)
    ensures |r| == |s|
    ensures forall i :: 0 <= i < |s| ==> r[i] == UpperChar(s[i])
  {
    seq(|s|, i requires 0 <= i < |s| => UpperChar(s[i]))
  }

  function ToLower(s: string): (r: string)
    ensures |r| == |s|
    ensures forall i :: 0 <= i < |s| ==> r[i] == LowerChar(s[i])
  {
    seq(|s|, i requires 0 <= i < |s| => LowerChar(s[i]))
  }

  /** `s.replace(/a/g, b)` for single characters. */
  function ReplaceChar(s: string, a: char, b: char): (r: string)
    ensures |r| == |s|
    ensures forall i :: 0 <= i < |s| ==> r[i] == (if s[i] == a then b else s[i])
  {
    seq(|s|, i requires 0 <= i < |s| => if s[i] == a then b else s[i])
  }

  /** `s.replace(a, b)` with a one-character string pattern: only the first
      occurrence of `a` is replaced. */
  function ReplaceFirst(s: string, a: char, b: char): (r: string)
    ensures |r| == |s|
    ensures a !in s ==> r == s
  {
    if |s| == 0 then s
    else if s[0] == a then [b] + s[1..]
    else [s[0]] + ReplaceFirst(s[1..], a, b)
  }

  /** The first `a`, at position `i`, becomes `b`; the rest of `s` is kept. */
  lemma {:induction false} ReplaceFirstAt(s: string, a: char, b: char, i: nat)
    requires i < |s| && s[i] == a && a !in s[..i]
    ensures ReplaceFirst(s, a, b) == s[..i] + [b] + s[i + 1..]
  {
    if i > 0 {
      assert s[0] == s[..i][0];
      assert s[1..][..i - 1] == s[1..i];
      ReplaceFirstAt(s[1..], a, b, i - 1);
      assert s[..i] == [s[0]] + s[1..i];
    }
  }

  /** Keeps the characters satisfying `keep`, in order. */
  function Filter(s: string, keep: char -> bool): (r: string)
    ensures |r| <= |s|
    ensures forall c :: c in r ==> c in s && keep(c)
  {
    if |s| == 0 then [] else (if keep(s[0]) then [s[0]] else []) + Filter(s[1..], keep)
  }

  lemma FilterAppend(a: string, b: string, keep: char -> bool)
    ensures Filter(a + b, keep) == Filter(a, keep) + Filter(b, keep)
  {
    if |a| > 0 {
      assert (a + b)[1..] == a[1..] + b;
      FilterAppend(a[1..], b, keep);
    } else {
      assert a + b == b;
    }
  }

  // ---------------------------------------------------------------- trimming

  /** `trimStart`: drops the leading white space and nothing else. */
  function TrimStart(s: string): (r: string)
    ensures |r| <= |s| && r == s[|s| - |r|..]
    ensures forall i :: 0 <= i < |s| - |r| ==> IsWs(s[i])
    ensures |r| > 0 ==> !IsWs(r[0])
  {
    if |s| > 0 && IsWs(s[0]) then TrimStart(s[1..]) else s
  }

  /** `trimEnd`: drops the trailing white space and nothing else. */
  function TrimEnd(s: string): (r: string)
    ensures |r| <= |s| && r == s[..|r|]
    ensures forall i :: |r| <= i < |s| ==> IsWs(s[i])
    ensures |r| > 0 ==> !IsWs(r[|r| - 1])
  {
    if |s| > 0 && IsWs(s[|s| - 1]) then TrimEnd(s[..|s| - 1]) else s
  }

  /** `trim`: the longest infix of `s` that neither starts nor ends with white space. */
  function Trim(s: string): (r: string)
    ensures |r| <= |s|
    ensures |r| > 0 ==> !IsWs(r[0]) && !IsWs(r[|r| - 1])
  {
    TrimEnd(TrimStart(s))
  }

  /** Trimming only removes characters. */
  lemma TrimChars(s: string)
    ensures forall c :: c in Trim(s) ==> c in s
  {
    var t := TrimStart(s);
    assert forall c :: c in TrimEnd(t) ==> c in t;
  }

  /** A string that starts and ends with a non-space character is its own trim. */
  lemma TrimNoop(s: string)
    requires |s| > 0 ==> !IsWs(s[0]) && !IsWs(s[|s| - 1])
    ensures Trim(s) == s
  {
  }

  /** Trimming cannot create two adjacent copies of a character. */
  lemma TrimNoDoubled(s: string, c: char)
    requires NoDoubled(s, c)
    ensures NoDoubled(Trim(s), c)
  {
    var t := TrimStart(s);
    NoDoubledSlice(s, c, |s| - |t|, |s|);
    NoDoubledSlice(t, c, 0, |TrimEnd(t)|);
  }

  lemma NoDoubledSlice(s: string, c: char, a: nat, b: nat)
    requires a <= b <= |s| && NoDoubled(s, c)
    ensures NoDoubled(s[a..b], c)
  {
    var t := s[a..b];
    forall i | 0 <= i < |t| - 1
      ensures !(t[i] == c && t[i + 1] == c)
    {
      assert t[i] == s[a + i] && t[i + 1] == s[a + i + 1];
    }
  }

  // ---------------------------------------------------------- split and join

  /** `s.split(c)`: the pieces between occurrences of `c`; never empty. */
  function Split(s: string, c: char): (parts: seq<string>)
    ensures |parts| >= 1
    ensures forall k :: 0 <= k < |parts| ==> c !in parts[k]
  {
    if |s| == 0 then [""]
    else
      var rest := Split(s[1..], c);
      if s[0] == c then [""] + rest else [[s[0]] + rest[0]] + rest[1..]
  }

  /** `parts.join(sep)`; the empty list joins to the empty string. */
  function Join(parts: seq<string>, sep: string): string
  {
    if |parts| == 0 then ""
    else if |parts| == 1 then parts[0]
    else parts[0] + sep + Join(parts[1..], sep)
  }

  /** A string without `c` is a single piece. */
  lemma SplitNoSep(a: string, c: char)
    requires c !in a
    ensures Split(a, c) == [a]
  {
    if |a| > 0 {
      SplitNoSep(a[1..], c);
      assert [a[0]] + a[1..] == a;
    }
  }

  /** Splitting at the first separator peels off the piece before it. */
  lemma SplitCons(a: string, c: char, b: string)
    requires c !in a
    ensures Split(a + [c] + b, c) == [a] + Split(b, c)
  {
    if |a| == 0 {
      assert a + [c] + b == [c] + b;
      assert ([c] + b)[1..] == b;
    } else {
      assert (a + [c] + b)[1..] == a[1..] + [c] + b;
      SplitCons(a[1..], c, b);
      assert [a[0]] + a[1..] == a;
    }
  }

  /** The second piece is the text between the first separator, at `k`, and
      the next one, at `j` (or the end). */
  lemma SplitSecond(s: string, c: char, k: nat, j: nat)
    requires k < j <= |s| && s[k] == c && c !in s[..k] && c !in s[k + 1..j]
    requires j == |s| || s[j] == c
    ensures |Split(s, c)| >= 2 && Split(s, c)[1] == s[k + 1..j]
  {
    var rest := s[k + 1..];
    CutAt(s, k);
    SplitCons(s[..k], c, rest);
    if j == |s| {
      assert s[k + 1..j] == rest;
      SplitNoSep(rest, c);
    } else {
      CutAt(rest, j - (k + 1));
      assert rest[..j - (k + 1)] == s[k + 1..j] && rest[j - (k + 1) + 1..] == s[j + 1..];
      SplitCons(s[k + 1..j], c, s[j + 1..]);
    }
  }

  /** A string is its prefix before `i`, the character at `i`, and the rest. */
  lemma CutAt(s: string, i: nat)
    requires i < |s|
    ensures s == s[..i] + [s[i]] + s[i + 1..]
  {
  }

  /** `split` undoes `join` when no piece contains the separator. */
  lemma {:induction false} SplitJoin(parts: seq<string>, c: char)
    requires |parts| >= 1
    requires forall k :: 0 <= k < |parts| ==> c !in parts[k]
    ensures Split(Join(parts, [c]), c) == parts
  {
    if |parts| == 1 {
      SplitNoSep(parts[0], c);
    } else {
      SplitJoin(parts[1..], c);
      SplitCons(parts[0], c, Join(parts[1..], [c]));
    }
  }

  // ------------------------------------------------------- runs of characters

  /** Drops the leading characters that satisfy `p`. */
  function DropWhile(s: string, p: char -> bool): (r: string)
    ensures |r| <= |s| && r == s[|s| - |r|..]
    ensures forall i :: 0 <= i < |s| - |r| ==> p(s[i])
    ensures |r| > 0 ==> !p(r[0])
  {
    if |s| > 0 && p(s[0]) then DropWhile(s[1..], p) else s
  }

  /** `s.replace(/P+/g, rep)`: every maximal run of characters satisfying `p`
      becomes the single character `rep`; everything else is kept. */
  function ReplaceRuns(s: string, p: char -> bool, rep: char): (r: string)
    decreases |s|
  {
    if |s| == 0 then []
    else if p(s[0]) then
      var rest := DropWhile(s, p);
      [rep] + ReplaceRuns(rest, p, rep)
    else [s[0]] + ReplaceRuns(s[1..], p, rep)
  }

  /** No two consecutive copies of `c`. */
  predicate NoDoubled(s: string, c: char)
  {
    forall i :: 0 <= i < |s| - 1 ==> !(s[i] == c && s[i + 1] == c)
  }

  lemma ReplaceRunsFirst(s: string, p: char -> bool, rep: char)
    requires |s| > 0
    ensures |ReplaceRuns(s, p, rep)| > 0
    ensures ReplaceRuns(s, p, rep)[0] == if p(s[0]) then rep else s[0]
  {
  }

  /** Every output character is `rep` or an input character outside the class. */
  lemma {:induction false} ReplaceRunsChars(s: string, p: char -> bool, rep: char)
    ensures forall c :: c in ReplaceRuns(s, p, rep) ==> c == rep || (c in s && !p(c))
    decreases |s|
  {
    if |s| > 0 {
      if p(s[0]) {
        var rest := DropWhile(s, p);
        ReplaceRunsChars(rest, p, rep);
        assert forall c :: c in rest ==> c in s;
      } else {
        ReplaceRunsChars(s[1..], p, rep);
      }
    }
  }

  /** When `rep` itself belongs to the class, the output never repeats `rep`. */
  lemma {:induction false} ReplaceRunsNoDoubled(s: string, p: char -> bool, rep: char)
    requires p(rep)
    ensures NoDoubled(ReplaceRuns(s, p, rep), rep)
    decreases |s|
  {
    if |s| > 0 {
      var r := ReplaceRuns(s, p, rep);
      if p(s[0]) {
        var rest := DropWhile(s, p);
        ReplaceRunsNoDoubled(rest, p, rep);
        if |rest| > 0 { ReplaceRunsFirst(rest, p, rep); }
        assert r == [rep] + ReplaceRuns(rest, p, rep);
      } else {
        ReplaceRunsNoDoubled(s[1..], p, rep);
        if |s| > 1 { ReplaceRunsFirst(s[1..], p, rep); }
        assert r == [s[0]] + ReplaceRuns(s[1..], p, rep);
      }
    }
  }

  /** A prefix with no character of the class is kept as it is. */
  lemma {:induction false} ReplaceRunsKeep(a: string, b: string, p: char -> bool, rep: char)
    requires forall i :: 0 <= i < |a| ==> !p(a[i])
    ensures ReplaceRuns(a + b, p, rep) == a + ReplaceRuns(b, p, rep)
  {
    if |a| > 0 {
      HeadThenRest(a, b);
      ReplaceRunsCons(a[0], a[1..] + b, p, rep);
      ReplaceRunsKeep(a[1..], b, p, rep);
      HeadThenRest(a, ReplaceRuns(b, p, rep));
    } else {
      assert a + b == b;
      assert a + ReplaceRuns(b, p, rep) == ReplaceRuns(b, p, rep);
    }
  }

  lemma ReplaceRunsCons(h: char, rest: string, p: char -> bool, rep: char)
    requires !p(h)
    ensures ReplaceRuns([h] + rest, p, rep) == [h] + ReplaceRuns(rest, p, rep)
  {
    assert ([h] + rest)[0] == h && ([h] + rest)[1..] == rest;
  }

  /** A non-empty string is its first character followed by the rest. */
  lemma HeadThenRest(a: string, c: string)
    requires |a| > 0
    ensures a + c == [a[0]] + (a[1..] + c)
  {
  }

  /** Dropping a leading run skips a prefix that lies entirely in the class. */
  lemma {:induction false} DropWhileRun(a: string, b: string, p: char -> bool)
    requires forall i :: 0 <= i < |a| ==> p(a[i])
    ensures DropWhile(a + b, p) == DropWhile(b, p)
  {
    if |a| > 0 {
      assert (a + b)[1..] == a[1..] + b;
      DropWhileRun(a[1..], b, p);
    } else {
      assert a + b == b;
    }
  }

  /** A lone class character before a non-class one becomes one `rep`. */
  lemma ReplaceRunsLone(x: char, b: string, p: char -> bool, rep: char)
    requires p(x) && |b| > 0 && !p(b[0])
    ensures ReplaceRuns([x] + b, p, rep) == [rep] + ReplaceRuns(b, p, rep)
  {
    assert ([x] + b)[1..] == b;
    assert DropWhile([x] + b, p) == DropWhile(b, p) == b;
  }

  /** Keeping the characters of a string that all pass keeps the string. */
  lemma {:induction false} FilterAll(s: string, keep: char -> bool)
    requires forall i :: 0 <= i < |s| ==> keep(s[i])
    ensures Filter(s, keep) == s
  {
    if |s| > 0 {
      FilterAll(s[1..], keep);
      assert s == [s[0]] + s[1..];
    }
  }

  /** A string whose only class members are isolated copies of `rep` is unchanged. */
  lemma {:induction false} ReplaceRunsNoop(s: string, p: char -> bool, rep: char)
    requires forall i :: 0 <= i < |s| ==> p(s[i]) ==> s[i] == rep
    requires forall i :: 0 <= i < |s| - 1 ==> !(p(s[i]) && p(s[i + 1]))
    ensures ReplaceRuns(s, p, rep) == s
    decreases |s|
  {
    if |s| > 0 {
      if p(s[0]) {
        var rest := DropWhile(s, p);
        assert rest == s[1..] by {
          if |s| > 1 { assert !p(s[1]); }
        }
        ReplaceRunsNoop(s[1..], p, rep);
      } else {
        ReplaceRunsNoop(s[1..], p, rep);
      }
    }
  }

  /** The regular-expression replacement `/^c|c$/g`: one leading and one
      trailing `c` are removed (the second search resumes after the first match). */
  function StripOne(s: string, c: char): string
  {
    var t := if |s| > 0 && s[0] == c then s[1..] else s;
    if |t| > 0 && t[|t| - 1] == c then t[..|t| - 1] else t
  }
}

=== FILE: tables.dfy ===
/** Object literals used as lookup tables: a sequence of key/value entries in
    the order `Object.entries` lists them. */
module Tables {
  import opened Wrappers

  /** `table[key]`: the value of the first entry under `key`, if any. */
  function Lookup<K(==), V>(table: seq<(K, V)>, key: K): (r: Option<V>)
    ensures r.None? <==> forall i :: 0 <= i < |table| ==> table[i].0 != key
    ensures r.Some? ==> exists i :: 0 <= i < |table| && table[i] == (key, r.value)
  {
    if |table| == 0 then None
    else if table[0].0 == key then Some(table[0].1)
    else
      var r := Lookup(table[1..], key);
      assert forall i :: 1 <= i < |table| ==> table[i] == table[1..][i - 1];
      r
  }

  /** The first entry under `key` is the one the lookup finds. */
  lemma {:induction false} LookupAt<K, V>(table: seq<(K, V)>, key: K, i: nat)
    requires i < |table| && table[i].0 == key
    requires forall j :: 0 <= j < i ==> table[j].0 != key
    ensures Lookup(table, key) == Some(table[i].1)
  {
    if i > 0 {
      LookupAt(table[1..], key, i - 1);
    }
  }
}

=== FILE: text_transform_service.dfy ===
/** The text-transform service: dispatches an operation name to a
    transformer and wraps the result with the argument it echoes. The base64
    and URL codecs are library calls and enter as functions of a `Codecs`
    value; the Morse, slug and case transformers are the modelled ones. */
module TextTransformService {
  import opened Wrappers
  import opened Strings
  import Morse
  import TextTransformers

  /** `Buffer`-based base64 and `encodeURIComponent`/`decodeURIComponent`;
      each may throw, the failure carrying the message it throws. */
  datatype Codecs = Codecs(
    base64Encode: string -> Result<string, string>,
    base64Decode: string -> Result<string, string>,
    urlEncode: string -> Result<string, string>,
    urlDecode: string -> Result<string, string>)

  /** `{ result, operation }`. */
  datatype OperationResult = OperationResult(result: string, operation: string)

  /** `{ result, separator }`. */
  datatype SlugResult = SlugResult(result: string, separator: string)

  /** `{ result, type }`. */
  datatype CaseResult = CaseResult(result: string, caseType: string)

  const InvalidOperation: string := "Invalid operation"
  const DefaultSeparator: string := "hyphen"

  /** The shared shape of the three encode/decode services: `'encode'` and
      `'decode'` pick a transformer, anything else throws `'Invalid operation'`,
      and a transformer's error is rethrown as it is. */
  function Dispatch(input: string, operation: string,
                    encode: string --> Result<string, string>,
                    decode: string --> Result<string, string>): (r: Result<OperationResult, string>)
    requires operation == "encode" ==> encode.requires(input)
    requires operation == "decode" ==> decode.requires(input)
    ensures r.Success? ==> r.value.operation == operation
    ensures operation != "encode" && operation != "decode" ==> r == Failure(InvalidOperation)
    ensures operation == "encode" ==> (r.Success? <==> encode(input).Success?)
    ensures operation == "encode" && r.Success? ==> r.value.result == encode(input).value
    ensures operation == "encode" && r.Failure? ==> r.error == encode(input).error
    ensures operation == "decode" ==> (r.Success? <==> decode(input).Success?)
    ensures operation == "decode" && r.Success? ==> r.value.result == decode(input).value
    ensures operation == "decode" && r.Failure? ==> r.error == decode(input).error
  {
    var out := if operation == "encode" then encode(input)
               else if operation == "decode" then decode(input)
               else Failure(InvalidOperation);
    match out
    case Success(result) => Success(OperationResult(result, operation))
    case Failure(e) => Failure(e)
  }

  /** `base64Transform`. */
  function Base64Transform(codecs: Codecs, input: string, operation: string): Result<OperationResult, string>
  {
    Dispatch(input, operation, codecs.base64Encode, codecs.base64Decode)
  }

  /** `urlTransform`. */
  function UrlTransform(codecs: Codecs, input: string, operation: string): Result<OperationResult, string>
  {
    Dispatch(input, operation, codecs.urlEncode, codecs.urlDecode)
  }

  /** The Morse transformers never throw. */
  function MorseEncoder(s: string): Result<string, string>
    requires IsAscii(s)
  {
    Success(Morse.MorseEncode(s))
  }

  function MorseDecoder(s: string): Result<string, string>
  {
    Success(Morse.MorseDecode(s))
  }

  /** `morseTransform`; encoding upper-cases, so it asks for ASCII input. */
  function MorseTransform(input: string, operation: string): (r: Result<OperationResult, string>)
    requires operation == "encode" ==> IsAscii(input)
    ensures r.Failure? <==> operation != "encode" && operation != "decode"
    ensures r.Failure? ==> r.error == InvalidOperation
    ensures operation == "encode" ==> r == Success(OperationResult(Morse.MorseEncode(input), operation))
    ensures operation == "decode" ==> r == Success(OperationResult(Morse.MorseDecode(input), operation))
  {
    Dispatch(input, operation, MorseEncoder, MorseDecoder)
  }

  /** Base64 and URL dispatch alike: the same operation names are accepted,
      and a rejected name gives the same error. */
  lemma CodecServicesAgree(codecs: Codecs, input: string, operation: string)
    ensures Base64Transform(codecs, input, operation) == Failure(InvalidOperation) <==>
      (operation != "encode" && operation != "decode") ||
      (operation == "encode" && codecs.base64Encode(input) == Failure(InvalidOperation)) ||
      (operation == "decode" && codecs.base64Decode(input) == Failure(InvalidOperation))
    ensures UrlTransform(codecs, input, operation) == Failure(InvalidOperation) <==>
      (operation != "encode" && operation != "decode") ||
      (operation == "encode" && codecs.urlEncode(input) == Failure(InvalidOperation)) ||
      (operation == "decode" && codecs.urlDecode(input) == Failure(InvalidOperation))
  {
  }

  /** Decoding through the service what the service encoded gives back the
      upper-cased, trimmed text, for text of letters, digits and spaces. */
  lemma MorseServiceRoundTrip(input: string)
    requires Morse.IsPlainText(input)
    ensures IsAscii(input)
    ensures var enc := MorseTransform(input, "encode");
      && enc.Success?
      && MorseTransform(enc.value.result, "decode") == Success(OperationResult(Trim(ToUpper(input)), "decode"))
  {
    Morse.DecodeEncode(input);
  }

  /** `slugifyText(input, separator = 'hyphen')`: an absent separator is `'hyphen'`. */
  function SlugifyText(input: string, separator: Option<string>): (r: SlugResult)
    requires IsAscii(input)
    ensures r.separator == separator.GetOr(DefaultSeparator)
    ensures r.result == TextTransformers.Slugify(input, r.separator)
  {
    var sep := separator.GetOr(DefaultSeparator);
    SlugResult(TextTransformers.Slugify(input, sep), sep)
  }

  /** Without a separator the slug is hyphenated. */
  lemma SlugifyTextDefault(input: string)
    requires IsAscii(input)
    ensures '_' !in SlugifyText(input, None).result
    ensures TextTransformers.IsSlug(SlugifyText(input, None).result, '-')
  {
    TextTransformers.SlugSeparatorChoice(input, DefaultSeparator);
  }

  /** `convertCase`: the conversion with the type echoed; the transformer's error rethrown unchanged. */
  function ConvertCase(input: string, caseType: string): (r: Result<CaseResult, string>)
    requires IsAscii(input)
    ensures r.Success? <==> TextTransformers.ConvertCase(input, caseType).Success?
    ensures r.Success? ==> r.value == CaseResult(TextTransformers.ConvertCase(input, caseType).value, caseType)
    ensures r.Failure? ==> r.error == TextTransformers.InvalidCasePrefix + caseType
  {
    match TextTransformers.ConvertCase(input, caseType)
    case Success(result) => Success(CaseResult(result, caseType))
    case Failure(e) => Failure(e)
  }
}

=== FILE: text_transformers.dfy ===
/** The slug and case transformers. Case mapping is ASCII-only here, so the
    operations whose result depends on it ask for ASCII input; the snake and
    kebab forms keep only ASCII letters and digits and need no such restriction. */
module TextTransformers {
  import opened Wrappers
  import opened Strings

  predicate IsLowerAlnum(c: char) { IsLowerLetter(c) || IsDigit(c) }

  /** The letters and digits of `s`, lower-cased, in order: what every
      transformer keeps of its input. */
  function Content(s: string): (r: string)
    ensures forall i :: 0 <= i < |r| ==> IsLowerAlnum(r[i])
  {
    if |s| == 0 then ""
    else if IsAlnum(s[0]) then [LowerChar(s[0])] + Content(s[1..])
    else Content(s[1..])
  }

  lemma {:induction false} ContentAppend(a: string, b: string)
    ensures Content(a + b) == Content(a) + Content(b)
  {
    if |a| > 0 {
      assert (a + b)[1..] == a[1..] + b;
      ContentAppend(a[1..], b);
    } else {
      assert a + b == b;
    }
  }

  lemma {:induction false} ContentNone(s: string)
    requires forall i :: 0 <= i < |s| ==> !IsAlnum(s[i])
    ensures Content(s) == ""
  {
    if |s| > 0 { ContentNone(s[1..]); }
  }

  /** A string of lower-case letters, digits and separators is its content once the separators go. */
  lemma {:induction false} ContentOfLower(s: string)
    requires forall i :: 0 <= i < |s| ==> !IsUpperLetter(s[i])
    ensures Content(s) == Filter(s, IsLowerAlnum)
  {
    if |s| > 0 { ContentOfLower(s[1..]); }
  }

  lemma {:induction false} ContentToLower(s: string)
    ensures Content(ToLower(s)) == Content(s)
  {
    if |s| > 0 {
      ContentToLower(s[1..]);
      assert ToLower(s)[1..] == ToLower(s[1..]);
    }
  }

  lemma {:induction false} ContentTrimStart(s: string)
    ensures Content(TrimStart(s)) == Content(s)
  {
    if |s| > 0 && IsWs(s[0]) {
      ContentTrimStart(s[1..]);
    }
  }

  lemma {:induction false} ContentTrimEnd(s: string)
    ensures Content(TrimEnd(s)) == Content(s)
  {
    if |s| > 0 && IsWs(s[|s| - 1]) {
      var init := s[..|s| - 1];
      ContentTrimEnd(init);
      assert s == init + [s[|s| - 1]];
      ContentAppend(init, [s[|s| - 1]]);
    }
  }

  lemma ContentTrim(s: string)
    ensures Content(Trim(s)) == Content(s)
  {
    ContentTrimStart(s);
    ContentTrimEnd(TrimStart(s));
  }

  /** Replacing runs of non-alphanumeric characters by a non-alphanumeric one keeps the content. */
  lemma {:induction false} ContentReplaceRuns(s: string, p: char -> bool, rep: char)
    requires forall c :: p(c) ==> !IsAlnum(c)
    requires !IsAlnum(rep)
    ensures Content(ReplaceRuns(s, p, rep)) == Content(s)
    decreases |s|
  {
    if |s| > 0 {
      if p(s[0]) {
        var rest := DropWhile(s, p);
        ContentReplaceRuns(rest, p, rep);
        var k := |s| - |rest|;
        assert s == s[..k] + rest;
        ContentAppend(s[..k], rest);
        ContentNone(s[..k]);
        ContentAppend([rep], ReplaceRuns(rest, p, rep));
      } else {
        ContentReplaceRuns(s[1..], p, rep);
        ContentAppend([s[0]], ReplaceRuns(s[1..], p, rep));
        assert s == [s[0]] + s[1..];
        ContentAppend([s[0]], s[1..]);
      }
    }
  }

  lemma ContentStripOne(s: string, c: char)
    requires !IsAlnum(c)
    ensures Content(StripOne(s, c)) == Content(s)
  {
    var t := if |s| > 0 && s[0] == c then s[1..] else s;
    if |s| > 0 && s[0] == c {
      assert s == [c] + t;
      ContentAppend([c], t);
    }
    if |t| > 0 && t[|t| - 1] == c {
      assert t == t[..|t| - 1] + [c];
      ContentAppend(t[..|t| - 1], [c]);
    }
  }

  // ----------------------------------------------------------------- slugs

  /** A slug over `sep`: lower-case letters, digits and `sep`, with no
      leading, trailing or doubled `sep`. */
  predicate IsSlug(s: string, sep: char)
  {
    && (forall i :: 0 <= i < |s| ==> IsLowerAlnum(s[i]) || s[i] == sep)
    && NoDoubled(s, sep)
    && (|s| > 0 ==> s[0] != sep && s[|s| - 1] != sep)
  }

  /** Dropping one leading and one trailing `c` from a string without doubled
      `c` leaves none at either end. */
  lemma StripOneSlug(s: string, c: char)
    requires forall i :: 0 <= i < |s| ==> IsLowerAlnum(s[i]) || s[i] == c
    requires NoDoubled(s, c)
    ensures IsSlug(StripOne(s, c), c)
  {
    var t := if |s| > 0 && s[0] == c then s[1..] else s;
    assert forall i :: 0 <= i < |t| ==> t[i] == s[i + |s| - |t|];
    var r := if |t| > 0 && t[|t| - 1] == c then t[..|t| - 1] else t;
    assert forall i :: 0 <= i < |r| ==> r[i] == t[i];
    if |r| > 0 {
      if |s| > 0 && s[0] == c {
        assert r[0] == s[1];
      }
      if |t| > 0 && t[|t| - 1] == c {
        assert r[|r| - 1] == t[|t| - 2];
      }
    }
  }

  /** `separator === 'underscore' ? '_' : '-'`. */
  function SeparatorChar(separator: string): (c: char)
    ensures c == '_' <==> separator == "underscore"
    ensures c == '_' || c == '-'
  {
    if separator == "underscore" then '_' else '-'
  }

  /** The class `[a-z0-9 ]`. */
  predicate IsSlugSource(c: char) { IsLowerAlnum(c) || c == ' ' }

  /** `slugify`: lower-case and trim, keep `[a-z0-9 ]`, turn white-space runs
      into the separator, collapse repeated separators, and drop one at each end.
      Unicode normalisation and diacritic removal leave ASCII text unchanged. */
  function Slugify(text: string, separator: string): (r: string)
    requires IsAscii(text)
    ensures IsSlug(r, SeparatorChar(separator))
    ensures Content(r) == Content(text)
  {
    var sep := SeparatorChar(separator);
    var lower := ToLower(text);
    var cleaned := Filter(Trim(lower), IsSlugSource);
    var spaced := ReplaceRuns(cleaned, IsWs, sep);
    var single := ReplaceRuns(spaced, Only(sep), sep);
    SlugifyShape(cleaned, sep);
    SlugifyContent(text, sep);
    StripOne(single, sep)
  }

  /** The last three steps turn any string over `[a-z0-9 ]` into a slug. */
  lemma SlugifyShape(cleaned: string, sep: char)
    requires sep == '_' || sep == '-'
    requires forall c :: c in cleaned ==> IsSlugSource(c)
    ensures IsSlug(StripOne(ReplaceRuns(ReplaceRuns(cleaned, IsWs, sep), Only(sep), sep), sep), sep)
  {
    var spaced := ReplaceRuns(cleaned, IsWs, sep);
    var single := ReplaceRuns(spaced, Only(sep), sep);
    ReplaceRunsChars(cleaned, IsWs, sep);
    ReplaceRunsChars(spaced, Only(sep), sep);
    ReplaceRunsNoDoubled(spaced, Only(sep), sep);
    forall i | 0 <= i < |single|
      ensures IsLowerAlnum(single[i]) || single[i] == sep
    {
      assert single[i] in single;
    }
    StripOneSlug(single, sep);
  }

  /** Every step of `slugify` keeps the content. */
  lemma SlugifyContent(text: string, sep: char)
    requires sep == '_' || sep == '-'
    ensures var cleaned := Filter(Trim(ToLower(text)), IsSlugSource);
      var single := ReplaceRuns(ReplaceRuns(cleaned, IsWs, sep), Only(sep), sep);
      Content(StripOne(single, sep)) == Content(text)
  {
    var lower := ToLower(text);
    var trimmed := Trim(lower);
    var cleaned := Filter(trimmed, IsSlugSource);
    var spaced := ReplaceRuns(cleaned, IsWs, sep);
    var single := ReplaceRuns(spaced, Only(sep), sep);
    ContentToLower(text);
    ContentTrim(lower);
    TrimChars(lower);
    forall i | 0 <= i < |trimmed|
      ensures !IsUpperLetter(trimmed[i])
    {
      assert trimmed[i] in lower;
    }
    ContentFilterSource(trimmed);
    ContentReplaceRuns(cleaned, IsWs, sep);
    ContentReplaceRuns(spaced, Only(sep), sep);
    ContentStripOne(single, sep);
  }

  /** Keeping `[a-z0-9 ]` of a string without capitals keeps its content. */
  lemma {:induction false} ContentFilterSource(s: string)
    requires forall i :: 0 <= i < |s| ==> !IsUpperLetter(s[i])
    ensures Content(Filter(s, IsSlugSource)) == Content(s)
  {
    if |s| > 0 {
      ContentFilterSource(s[1..]);
      ContentAppend(if IsSlugSource(s[0]) then [s[0]] else [], Filter(s[1..], IsSlugSource));
    }
  }

  /** Only the exact value `'underscore'` selects `_`; the default and every other value give `-`. */
  lemma SlugSeparatorChoice(text: string, separator: string)
    requires IsAscii(text)
    ensures separator == "underscore" ==> '-' !in Slugify(text, separator)
    ensures separator != "underscore" ==> '_' !in Slugify(text, separator)
  {
    var r := Slugify(text, separator);
    if separator == "underscore" {
      SlugLacks(r, '_', '-');
    } else {
      SlugLacks(r, '-', '_');
    }
  }

  /** A slug contains no character other than letters, digits and its separator. */
  lemma SlugLacks(r: string, sep: char, other: char)
    requires IsSlug(r, sep) && other != sep && !IsLowerAlnum(other)
    ensures other !in r
  {
  }

  /** Non-empty words of `[a-z0-9]`, at least one. */
  predicate IsWords(words: seq<string>)
  {
    && |words| > 0
    && forall k :: 0 <= k < |words| ==> |words[k]| > 0 && forall i :: 0 <= i < |words[k]| ==> IsLowerAlnum(words[k][i])
  }

  /** Words separated by single spaces slugify to the same words joined by
      the separator: each space between two words becomes the separator. */
  lemma SlugifyWords(words: seq<string>, separator: string)
    requires IsWords(words)
    ensures IsAscii(Join(words, " "))
    ensures Slugify(Join(words, " "), separator) == Join(words, [SeparatorChar(separator)])
  {
    SpacedWordsClean(words);
    SlugifySteps(Join(words, " "), separator);
    SeparatorWords(words, SeparatorChar(separator));
  }

  /** The separator steps of `slugify` join space-separated words by `sep`. */
  lemma SeparatorWords(words: seq<string>, sep: char)
    requires IsWords(words) && (sep == '_' || sep == '-')
    ensures StripOne(ReplaceRuns(ReplaceRuns(Join(words, " "), IsWs, sep), Only(sep), sep), sep) == Join(words, [sep])
  {
    var joined := Join(words, [sep]);
    forall c | IsLowerAlnum(c)
      ensures !IsWs(c)
    {
      LowerAlnumNotWs(c);
    }
    JoinReplace(words, IsWs, sep);
    JoinWordsSlug(words, sep);
    SeparatorRunsNoop(joined, sep);
    assert StripOne(joined, sep) == joined;
  }

  /** The steps of `slugify`, spelled out. */
  lemma SlugifySteps(text: string, separator: string)
    requires IsAscii(text)
    ensures var sep := SeparatorChar(separator);
      Slugify(text, separator)
        == StripOne(ReplaceRuns(ReplaceRuns(Filter(Trim(ToLower(text)), IsSlugSource), IsWs, sep), Only(sep), sep), sep)
  {
  }

  /** Space-joined words are ASCII and pass lower-casing, trimming and the
      `[a-z0-9 ]` filter unchanged. */
  lemma SpacedWordsClean(words: seq<string>)
    requires IsWords(words)
    ensures var text := Join(words, " ");
      IsAscii(text) && Filter(Trim(ToLower(text)), IsSlugSource) == text
  {
    var text := Join(words, " ");
    JoinWordsSlug(words, ' ');
    forall i | 0 <= i < |text|
      ensures IsSlugSource(text[i]) && !IsUpperLetter(text[i]) && text[i] as int < 128
    {
      assert IsLowerAlnum(text[i]) || text[i] == ' ';
    }
    LowerOfLower(text);
    LowerAlnumNotWs(text[0]);
    LowerAlnumNotWs(text[|text| - 1]);
    TrimNoop(text);
    FilterAll(text, IsSlugSource);
  }

  lemma LowerAlnumNotWs(c: char)
    requires IsLowerAlnum(c)
    ensures !IsWs(c)
  {
  }

  /** Replacing the runs of a class that holds the space but no letter or
      digit joins space-joined words by `sep`. */
  lemma {:induction false} JoinReplace(words: seq<string>, p: char -> bool, sep: char)
    requires IsWords(words) && (sep == '_' || sep == '-')
    requires p(' ') && forall c :: IsLowerAlnum(c) ==> !p(c)
    ensures ReplaceRuns(Join(words, " "), p, sep) == Join(words, [sep])
  {
    var w := words[0];
    assert forall i :: 0 <= i < |w| ==> IsLowerAlnum(w[i]);
    if |words| == 1 {
      ReplaceRunsNoop(w, p, sep);
    } else {
      var tail := words[1..];
      assert IsWords(tail) by {
        assert forall k :: 0 <= k < |tail| ==> tail[k] == words[k + 1];
      }
      var rest := Join(tail, " ");
      assert Join(words, " ") == w + (" " + rest);
      assert Join(words, [sep]) == w + ([sep] + Join(tail, [sep]));
      JoinWordsSlug(tail, ' ');
      assert IsLowerAlnum(rest[0]);
      ReplaceRunsKeep(w, " " + rest, p, sep);
      ReplaceRunsLone(' ', rest, p, sep);
      JoinReplace(tail, p, sep);
    }
  }

  /** Words joined by a character other than a letter or digit form a slug over it. */
  lemma {:induction false} JoinWordsSlug(words: seq<string>, c: char)
    requires IsWords(words) && !IsLowerAlnum(c)
    ensures |Join(words, [c])| > 0 && IsSlug(Join(words, [c]), c)
  {
    if |words| == 1 {
      assert Join(words, [c]) == words[0];
    } else {
      var tail := words[1..];
      assert IsWords(tail) by {
        assert forall k :: 0 <= k < |tail| ==> tail[k] == words[k + 1];
      }
      JoinWordsSlug(tail, c);
      WordCons(words[0], Join(tail, [c]), c);
    }
  }

  /** A word, `c`, and a non-empty slug over `c` form a slug over `c`. */
  lemma WordCons(w: string, b: string, c: char)
    requires |w| > 0 && forall i :: 0 <= i < |w| ==> IsLowerAlnum(w[i])
    requires |b| > 0 && IsSlug(b, c) && !IsLowerAlnum(c)
    ensures IsSlug(w + [c] + b, c)
  {
    var j := w + [c] + b;
    assert forall i :: 0 <= i < |w| ==> j[i] == w[i];
    assert j[|w|] == c;
    assert forall i :: 0 <= i < |b| ==> j[|w| + 1 + i] == b[i];
    forall i | 0 <= i < |j| - 1
      ensures !(j[i] == c && j[i + 1] == c)
    {
      if i < |w| {
      } else if i == |w| {
      } else {
        assert j[i] == b[i - |w| - 1];
      }
    }
  }

  // ------------------------------------------------------ snake and kebab

  predicate NotAlnum(c: char) { !IsAlnum(c) }

  /** The class `sep` alone, as a regular expression `sep+` sees it. */
  function Only(sep: char): char -> bool
  {
    c => c == sep
  }

  /** `s.replace(/[A-Z]/g, c => sep + c.toLowerCase())`. */
  function ExpandUpper(s: string, sep: char): (r: string)
    requires !IsAlnum(sep)
    ensures forall c :: c in r ==> !IsUpperLetter(c)
  {
    if |s| == 0 then ""
    else (if IsUpperLetter(s[0]) then [sep, LowerChar(s[0])] else [s[0]]) + ExpandUpper(s[1..], sep)
  }

  lemma {:induction false} ContentExpandUpper(s: string, sep: char)
    requires !IsAlnum(sep)
    ensures Content(ExpandUpper(s, sep)) == Content(s)
  {
    if |s| > 0 {
      ContentExpandUpper(s[1..], sep);
      var head := if IsUpperLetter(s[0]) then [sep, LowerChar(s[0])] else [s[0]];
      ContentAppend(head, ExpandUpper(s[1..], sep));
      if IsUpperLetter(s[0]) {
        assert head == [sep] + [LowerChar(s[0])];
        ContentAppend([sep], [LowerChar(s[0])]);
      }
    }
  }

  /** A string without capitals is left alone. */
  lemma {:induction false} ExpandUpperNoop(s: string, sep: char)
    requires !IsAlnum(sep)
    requires forall i :: 0 <= i < |s| ==> !IsUpperLetter(s[i])
    ensures ExpandUpper(s, sep) == s
  {
    if |s| > 0 { ExpandUpperNoop(s[1..], sep); }
  }

  /** The first three steps: trim, expand capitals, turn other runs into `sep`. */
  function Separated(text: string, sep: char): string
    requires sep == '_' || sep == '-'
  {
    ReplaceRuns(ExpandUpper(Trim(text), sep), NotAlnum, sep)
  }

  /** After the runs are replaced, only lower-case letters, digits and isolated `sep` remain. */
  lemma SeparatedShape(text: string, sep: char)
    requires sep == '_' || sep == '-'
    ensures var c := Separated(text, sep);
      && (forall i :: 0 <= i < |c| ==> IsLowerAlnum(c[i]) || c[i] == sep)
      && NoDoubled(c, sep)
      && Content(c) == Content(text)
  {
    var a := Trim(text);
    var b := ExpandUpper(a, sep);
    var c := ReplaceRuns(b, NotAlnum, sep);
    ReplaceRunsChars(b, NotAlnum, sep);
    ReplaceRunsNoDoubled(b, NotAlnum, sep);
    forall i | 0 <= i < |c|
      ensures IsLowerAlnum(c[i]) || c[i] == sep
    {
      assert c[i] in c;
      if c[i] != sep {
        assert c[i] in b && IsAlnum(c[i]);
        assert !IsUpperLetter(c[i]);
      }
    }
    ContentTrim(text);
    ContentExpandUpper(a, sep);
    ContentReplaceRuns(b, NotAlnum, sep);
  }

  /** The last two steps change nothing on a slug. */
  lemma SlugTail(d: string, sep: char)
    requires sep == '_' || sep == '-'
    requires IsSlug(d, sep)
    ensures ToLower(ReplaceRuns(d, Only(sep), sep)) == d
  {
    SeparatorRunsNoop(d, sep);
    forall i | 0 <= i < |d|
      ensures !IsUpperLetter(d[i])
    {
      assert IsLowerAlnum(d[i]) || d[i] == sep;
    }
    LowerOfLower(d);
  }

  /** Without doubled separators, collapsing separator runs changes nothing. */
  lemma SeparatorRunsNoop(d: string, sep: char)
    requires NoDoubled(d, sep)
    ensures ReplaceRuns(d, Only(sep), sep) == d
  {
    var p := Only(sep);
    forall i | 0 <= i < |d| - 1
      ensures !(p(d[i]) && p(d[i + 1]))
    {
      assert !(d[i] == sep && d[i + 1] == sep);
    }
    ReplaceRunsNoop(d, p, sep);
  }

  /** Lower-casing changes nothing in a string without capitals. */
  lemma LowerOfLower(s: string)
    requires forall i :: 0 <= i < |s| ==> !IsUpperLetter(s[i])
    ensures ToLower(s) == s
  {
    forall i | 0 <= i < |s|
      ensures ToLower(s)[i] == s[i]
    {
    }
  }

  /** The `snake` and `kebab` pipelines, which differ only in `sep`: trim,
      prefix every capital with `sep` and lower it, turn runs of anything but
      `[a-zA-Z0-9]` into `sep`, drop one `sep` at each end, collapse repeated
      `sep`, lower-case. No step depends on case mapping beyond ASCII. */
  function Delimit(text: string, sep: char): (r: string)
    requires sep == '_' || sep == '-'
    ensures IsSlug(r, sep)
    ensures Content(r) == Content(text)
  {
    var c := Separated(text, sep);
    SeparatedShape(text, sep);
    StripOneSlug(c, sep);
    ContentStripOne(c, sep);
    var d := StripOne(c, sep);
    SlugTail(d, sep);
    ToLower(ReplaceRuns(d, Only(sep), sep))
  }

  /** A slug goes through the first three steps unchanged. */
  lemma SeparatedSlug(s: string, sep: char)
    requires sep == '_' || sep == '-'
    requires IsSlug(s, sep)
    ensures Separated(s, sep) == s
  {
    assert forall i :: 0 <= i < |s| ==> !IsUpperLetter(s[i]) && !IsWs(s[i]);
    TrimNoop(s);
    ExpandUpperNoop(s, sep);
    SlugRunsNoop(s, sep);
  }

  function Snake(text: string): (r: string)
    ensures IsSlug(r, '_')
  {
    Delimit(text, '_')
  }

  function Kebab(text: string): (r: string)
    ensures IsSlug(r, '-')
  {
    Delimit(text, '-')
  }

  /** A slug passes through the pipeline unchanged, so applying it twice is applying it once. */
  lemma DelimitIdempotent(text: string, sep: char)
    requires sep == '_' || sep == '-'
    ensures Delimit(Delimit(text, sep), sep) == Delimit(text, sep)
  {
    DelimitSlug(Delimit(text, sep), sep);
  }

  lemma DelimitSlug(s: string, sep: char)
    requires sep == '_' || sep == '-'
    requires IsSlug(s, sep)
    ensures Delimit(s, sep) == s
  {
    SeparatedSlug(s, sep);
    DelimitOfSlug(s, sep);
  }

  /** When the first three steps already give a slug, the rest keep it. */
  lemma DelimitOfSlug(text: string, sep: char)
    requires sep == '_' || sep == '-'
    requires IsSlug(Separated(text, sep), sep)
    ensures Delimit(text, sep) == Separated(text, sep)
  {
    var c := Separated(text, sep);
    assert StripOne(c, sep) == c;
    SlugTail(c, sep);
  }

  /** Words of `[a-z0-9]` separated by single spaces come out joined by `sep`. */
  lemma DelimitWords(words: seq<string>, sep: char)
    requires IsWords(words) && (sep == '_' || sep == '-')
    ensures Delimit(Join(words, " "), sep) == Join(words, [sep])
  {
    var text := Join(words, " ");
    JoinWordsSlug(words, ' ');
    forall i | 0 <= i < |text|
      ensures !IsUpperLetter(text[i])
    {
      assert IsLowerAlnum(text[i]) || text[i] == ' ';
    }
    LowerAlnumNotWs(text[0]);
    LowerAlnumNotWs(text[|text| - 1]);
    TrimNoop(text);
    ExpandUpperNoop(text, sep);
    JoinReplace(words, NotAlnum, sep);
    JoinWordsSlug(words, sep);
    DelimitOfSlug(text, sep);
  }

  /** A capital inside a word splits it: `helloWorld` becomes `hello` `sep` `world`. */
  lemma DelimitCapital(w1: string, w2: string, sep: char)
    requires |w1| > 0 && forall i :: 0 <= i < |w1| ==> IsLowerAlnum(w1[i])
    requires |w2| > 0 && forall i :: 0 <= i < |w2| ==> IsLowerAlnum(w2[i])
    requires IsLowerLetter(w2[0]) && (sep == '_' || sep == '-')
    ensures Delimit(w1 + [UpperChar(w2[0])] + w2[1..], sep) == w1 + [sep] + w2
  {
    var text := w1 + [UpperChar(w2[0])] + w2[1..];
    var out := w1 + [sep] + w2;
    CapitalTrimmed(w1, w2);
    CapitalExpanded(w1, w2, sep);
    WordCons(w1, w2, sep);
    SlugRunsNoop(out, sep);
    DelimitOfSlug(text, sep);
  }

  /** The text of a split word has no white space at either end. */
  lemma CapitalTrimmed(w1: string, w2: string)
    requires |w1| > 0 && forall i :: 0 <= i < |w1| ==> IsLowerAlnum(w1[i])
    requires |w2| > 0 && forall i :: 0 <= i < |w2| ==> IsLowerAlnum(w2[i])
    requires IsLowerLetter(w2[0])
    ensures var text := w1 + [UpperChar(w2[0])] + w2[1..];
      Trim(text) == text
  {
    var text := w1 + [UpperChar(w2[0])] + w2[1..];
    LowerAlnumNotWs(w1[0]);
    assert text[0] == w1[0];
    if |w2| > 1 {
      LowerAlnumNotWs(w2[|w2| - 1]);
      assert text[|text| - 1] == w2[|w2| - 1];
    } else {
      assert text[|text| - 1] == UpperChar(w2[0]);
    }
    TrimNoop(text);
  }

  /** Expanding the capital of a split word puts `sep` before its lower case. */
  lemma CapitalExpanded(w1: string, w2: string, sep: char)
    requires forall i :: 0 <= i < |w1| ==> IsLowerAlnum(w1[i])
    requires |w2| > 0 && forall i :: 0 <= i < |w2| ==> IsLowerAlnum(w2[i])
    requires IsLowerLetter(w2[0]) && (sep == '_' || sep == '-')
    ensures ExpandUpper(w1 + [UpperChar(w2[0])] + w2[1..], sep) == w1 + [sep] + w2
  {
    var c, v := w2[0], w2[1..];
    assert forall i :: 0 <= i < |v| ==> !IsUpperLetter(v[i]) by {
      assert forall i :: 0 <= i < |v| ==> v[i] == w2[i + 1];
    }
    calc {
      ExpandUpper(w1 + [UpperChar(c)] + v, sep);
    == { ExpandUpperAppend(w1 + [UpperChar(c)], v, sep); }
      ExpandUpper(w1 + [UpperChar(c)], sep) + ExpandUpper(v, sep);
    == { ExpandCapital(w1, c, sep); ExpandUpperNoop(v, sep); }
      w1 + [sep, c] + v;
    == { ConcatSplit(w1, sep, c, v); }
      w1 + [sep] + ([c] + v);
    == { assert w2 == [c] + v; }
      w1 + [sep] + w2;
    }
  }

  /** A word and one capital expand to the word, `sep` and the lower case. */
  lemma ExpandCapital(w: string, c: char, sep: char)
    requires forall i :: 0 <= i < |w| ==> IsLowerAlnum(w[i])
    requires IsLowerLetter(c) && (sep == '_' || sep == '-')
    ensures ExpandUpper(w + [UpperChar(c)], sep) == w + [sep, c]
  {
    var u := UpperChar(c);
    ExpandUpperAppend(w, [u], sep);
    ExpandUpperNoop(w, sep);
    assert LowerChar(u) == c;
    assert ExpandUpper([u], sep) == [sep, c];
  }

  lemma ConcatSplit(w: string, sep: char, c: char, v: string)
    ensures w + [sep, c] + v == w + [sep] + ([c] + v)
  {
  }

  lemma {:induction false} ExpandUpperAppend(a: string, b: string, sep: char)
    requires !IsAlnum(sep)
    ensures ExpandUpper(a + b, sep) == ExpandUpper(a, sep) + ExpandUpper(b, sep)
  {
    if |a| > 0 {
      HeadThenRest(a, b);
      ExpandUpperAppend(a[1..], b, sep);
    } else {
      assert a + b == b;
    }
  }

  /** A slug keeps its shape when the runs of other characters are replaced. */
  lemma SlugRunsNoop(s: string, sep: char)
    requires sep == '_' || sep == '-'
    requires IsSlug(s, sep)
    ensures ReplaceRuns(s, NotAlnum, sep) == s
  {
    ReplaceRunsNoop(s, NotAlnum, sep);
  }

  /** `helloWorld` splits into `hello` and `world`. */
  lemma DelimitHelloWorld(sep: char)
    requires sep == '_' || sep == '-'
    ensures Delimit("helloWorld", sep) == "hello" + [sep] + "world"
  {
    assert forall i :: 0 <= i < |"hello"| ==> IsLowerAlnum("hello"[i]);
    assert forall i :: 0 <= i < |"world"| ==> IsLowerAlnum("world"[i]);
    assert "hello" + [UpperChar("world"[0])] + "world"[1..] == "helloWorld" by {
      assert UpperChar('w') == 'W';
    }
    DelimitCapital("hello", "world", sep);
  }

  /** `snake` joins space-separated words with `_`. */
  lemma SnakeWords(words: seq<string>)
    requires IsWords(words)
    ensures Snake(Join(words, " ")) == Join(words, "_")
  {
    DelimitWords(words, '_');
  }

  /** `snake` splits camel case at the capital: `helloWorld` gives `hello_world`. */
  lemma SnakeCapital(w1: string, w2: string)
    requires |w1| > 0 && forall i :: 0 <= i < |w1| ==> IsLowerAlnum(w1[i])
    requires |w2| > 0 && forall i :: 0 <= i < |w2| ==> IsLowerAlnum(w2[i])
    requires IsLowerLetter(w2[0])
    ensures Snake(w1 + [UpperChar(w2[0])] + w2[1..]) == w1 + "_" + w2
  {
    DelimitCapital(w1, w2, '_');
  }

  /** `kebab` joins space-separated words with `-`. */
  lemma KebabWords(words: seq<string>)
    requires IsWords(words)
    ensures Kebab(Join(words, " ")) == Join(words, "-")
  {
    DelimitWords(words, '-');
  }

  /** `kebab` splits camel case at the capital: `helloWorld` gives `hello-world`. */
  lemma KebabCapital(w1: string, w2: string)
    requires |w1| > 0 && forall i :: 0 <= i < |w1| ==> IsLowerAlnum(w1[i])
    requires |w2| > 0 && forall i :: 0 <= i < |w2| ==> IsLowerAlnum(w2[i])
    requires IsLowerLetter(w2[0])
    ensures Kebab(w1 + [UpperChar(w2[0])] + w2[1..]) == w1 + "-" + w2
  {
    DelimitCapital(w1, w2, '-');
  }

  // ------------------------------------------------------------------ title

  /** `\b\w` matches at `i`: a word character with no word character before it. */
  predicate WordStart(s: string, i: int)
    requires 0 <= i < |s|
  {
    IsWordChar(s[i]) && (i == 0 || !IsWordChar(s[i - 1]))
  }

  /** `text.toLowerCase().replace(/\b\w/g, c => c.toUpperCase())`. */
  function Title(text: string): (r: string)
    requires IsAscii(text)
    ensures |r| == |text|
  {
    var l := ToLower(text);
    seq(|l|, i requires 0 <= i < |l| => if WordStart(l, i) then UpperChar(l[i]) else l[i])
  }

  lemma WordCharLower(c: char)
    ensures IsWordChar(LowerChar(c)) == IsWordChar(c)
    ensures IsAlnum(LowerChar(c)) == IsAlnum(c)
    ensures LowerChar(UpperChar(c)) == LowerChar(c)
  {
  }

  /** Title case changes only case, and a letter of the result is a capital
      exactly when it starts a word of the input. */
  lemma TitleCapitals(text: string)
    requires IsAscii(text)
    ensures ToLower(Title(text)) == ToLower(text)
    ensures forall i :: 0 <= i < |text| ==>
      (IsUpperLetter(Title(text)[i]) <==> IsLowerLetter(LowerChar(text[i])) && WordStart(text, i))
  {
    var l := ToLower(text);
    forall i | 0 <= i < |text|
      ensures WordStart(l, i) == WordStart(text, i)
    {
      WordCharLower(text[i]);
      if i > 0 { WordCharLower(text[i - 1]); }
    }
  }

  /** Title case is idempotent. */
  lemma TitleIdempotent(text: string)
    requires IsAscii(text)
    ensures IsAscii(Title(text)) && Title(Title(text)) == Title(text)
  {
    TitleCapitals(text);
  }

  lemma ContentTitle(text: string)
    requires IsAscii(text)
    ensures Content(Title(text)) == Content(text)
  {
    TitleCapitals(text);
    ContentToLower(Title(text));
    ContentToLower(text);
  }

  // ------------------------------------------------------- camel and pascal

  /** The largest `j` with `1 <= j < limit` whose character `.` can match. */
  function LastPlain(s: string, limit: nat): (r: Option<nat>)
    requires limit <= |s|
    ensures r.Some? ==> 1 <= r.value < limit && !IsLineTerminator(s[r.value])
    ensures r.Some? ==> forall m :: r.value < m < limit ==> IsLineTerminator(s[m])
    ensures r.None? ==> forall m :: 1 <= m < limit ==> IsLineTerminator(s[m])
  {
    if limit <= 1 then None
    else if !IsLineTerminator(s[limit - 1]) then Some(limit - 1)
    else LastPlain(s, limit - 1)
  }

  /** `s.replace(/[^a-zA-Z0-9]+(.)/g, (m, c) => c.toUpperCase())` on a
      lower-cased string. A run of other characters followed by a letter or
      digit is replaced by that character in upper case. A run that reaches
      the end backtracks so that `(.)` takes its last character `.` can match,
      and the whole run collapses to that character; when there is none the
      run stays. */
  function Camelize(s: string): (r: string)
    ensures forall i, j :: 0 <= i < j < |r| && !IsAlnum(r[i]) ==> !IsAlnum(r[j])
    ensures Content(r) == Content(s)
    decreases |s|
  {
    if |s| == 0 then ""
    else if IsAlnum(s[0]) then
      ContentAppend([s[0]], s[1..]);
      [s[0]] + Camelize(s[1..])
    else
      var rest := DropWhile(s, NotAlnum);
      CamelizeRun(s, rest);
      if |rest| > 0 then [UpperChar(rest[0])] + Camelize(rest[1..])
      else match LastPlain(s, |s|)
        case Some(j) =>
          ContentNone([UpperChar(s[j])] + s[j + 1..]);
          [UpperChar(s[j])] + s[j + 1..]
        case None => s
  }

  /** What a run of non-alphanumeric characters contributes to the content. */
  lemma CamelizeRun(s: string, rest: string)
    requires |s| > 0 && !IsAlnum(s[0]) && rest == DropWhile(s, NotAlnum)
    ensures Content(s) == Content(rest)
    ensures |rest| > 0 ==> Content(s) == Content([UpperChar(rest[0])]) + Content(rest[1..])
    ensures |rest| > 0 ==> IsAlnum(UpperChar(rest[0]))
    ensures |rest| == 0 ==> Content(s) == "" && forall j :: 0 <= j < |s| ==> !IsAlnum(s[j]) && UpperChar(s[j]) == s[j]
  {
    ContentDropRun(s);
    if |rest| > 0 {
      UpperHead(rest);
    } else {
      forall j | 0 <= j < |s|
        ensures !IsAlnum(s[j]) && UpperChar(s[j]) == s[j]
      {
        assert NotAlnum(s[j]);
      }
    }
  }

  lemma {:induction false} ContentDropRun(s: string)
    ensures Content(DropWhile(s, NotAlnum)) == Content(s)
  {
    if |s| > 0 && NotAlnum(s[0]) {
      ContentDropRun(s[1..]);
    }
  }

  /** Upper-casing the leading letter or digit keeps the content. */
  lemma UpperHead(s: string)
    requires |s| > 0 && IsAlnum(s[0])
    ensures Content(s) == Content([UpperChar(s[0])]) + Content(s[1..])
    ensures IsAlnum(UpperChar(s[0]))
  {
    assert s == [s[0]] + s[1..];
    ContentAppend([s[0]], s[1..]);
    ContentAppend([UpperChar(s[0])], s[1..]);
    WordCharLower(s[0]);
  }

  /** A run of characters other than letters and digits, followed by a
      letter or digit, collapses to that character in upper case. */
  lemma CamelizeAfterRun(run: string, b: string)
    requires |run| > 0 && forall i :: 0 <= i < |run| ==> !IsAlnum(run[i])
    requires |b| > 0 && IsAlnum(b[0])
    ensures Camelize(run + b) == [UpperChar(b[0])] + Camelize(b[1..])
  {
    assert forall i :: 0 <= i < |run| ==> NotAlnum(run[i]);
    DropWhileRun(run, b, NotAlnum);
    assert (run + b)[0] == run[0];
  }

  /** Letters and digits before anything else are kept as they are. */
  lemma {:induction false} CamelizeKeep(a: string, t: string)
    requires forall i :: 0 <= i < |a| ==> IsAlnum(a[i])
    ensures Camelize(a + t) == a + Camelize(t)
  {
    if |a| > 0 {
      CamelizeKeep(a[1..], t);
      CamelizeStep(a, t);
      HeadThenRest(a, Camelize(t));
    } else {
      assert a + t == t;
      assert a + Camelize(t) == Camelize(t);
    }
  }

  /** One letter or digit of the prefix, given the rest of it. */
  lemma CamelizeStep(a: string, t: string)
    requires |a| > 0 && IsAlnum(a[0])
    requires Camelize(a[1..] + t) == a[1..] + Camelize(t)
    ensures Camelize(a + t) == [a[0]] + (a[1..] + Camelize(t))
  {
    HeadThenRest(a, t);
    CamelizeCons(a[0], a[1..] + t);
  }

  lemma CamelizeCons(h: char, rest: string)
    requires IsAlnum(h)
    ensures Camelize([h] + rest) == [h] + Camelize(rest)
  {
    assert ([h] + rest)[0] == h && ([h] + rest)[1..] == rest;
  }

  /** Camel case of a string of letters and digits is its lower case. */
  lemma {:induction false} CamelizeAlnum(s: string)
    requires forall i :: 0 <= i < |s| ==> IsAlnum(s[i])
    ensures Camelize(s) == s
  {
    if |s| > 0 { CamelizeAlnum(s[1..]); }
  }

  function Camel(text: string): (r: string)
    requires IsAscii(text)
    ensures Content(r) == Content(text)
    ensures forall i, j :: 0 <= i < j < |r| && !IsAlnum(r[i]) ==> !IsAlnum(r[j])
  {
    ContentToLower(text);
    Camelize(ToLower(text))
  }

  lemma CamelOfWord(text: string)
    requires IsAscii(text)
    requires forall i :: 0 <= i < |text| ==> IsAlnum(text[i])
    ensures Camel(text) == ToLower(text)
  {
    CamelizeAlnum(ToLower(text));
  }

  /** Camel case followed by `/^(.)/` upper-casing the first character. */
  function Pascal(text: string): (r: string)
    requires IsAscii(text)
    ensures |r| == |Camel(text)| && (|r| > 0 ==> r[1..] == Camel(text)[1..])
    ensures |r| > 0 && IsLowerLetter(Camel(text)[0]) ==> IsUpperLetter(r[0])
    ensures |r| > 0 && !IsLineTerminator(Camel(text)[0]) ==> r[0] == UpperChar(Camel(text)[0])
    ensures |r| == 0 || IsLineTerminator(Camel(text)[0]) ==> r == Camel(text)
    ensures Content(r) == Content(text)
  {
    var c := Camel(text);
    if |c| > 0 && !IsLineTerminator(c[0]) then
      ContentAppend([c[0]], c[1..]);
      ContentAppend([UpperChar(c[0])], c[1..]);
      WordCharLower(c[0]);
      [UpperChar(c[0])] + c[1..]
    else c
  }

  // ----------------------------------------------------------- convertCase

  predicate IsCaseType(caseType: string)
  {
    || caseType == "upper" || caseType == "lower" || caseType == "title" || caseType == "camel"
    || caseType == "pascal" || caseType == "snake" || caseType == "kebab"
  }

  const InvalidCasePrefix: string := "Invalid case type: "

  lemma {:induction false} ContentToUpper(s: string)
    ensures Content(ToUpper(s)) == Content(s)
  {
    if |s| > 0 {
      ContentToUpper(s[1..]);
      assert ToUpper(s)[1..] == ToUpper(s[1..]);
      WordCharLower(s[0]);
    }
  }

  /** `convertCase`: one of the seven conversions, or the error thrown for any other type. */
  function ConvertCase(text: string, caseType: string): (r: Result<string, string>)
    requires IsAscii(text)
    ensures r.Failure? <==> !IsCaseType(caseType)
    ensures r.Failure? ==> r.error == InvalidCasePrefix + caseType
    ensures r.Success? ==> Content(r.value) == Content(text)
    ensures caseType == "upper" ==> r == Success(ToUpper(text))
    ensures caseType == "lower" ==> r == Success(ToLower(text))
    ensures caseType == "title" ==> r == Success(Title(text))
    ensures caseType == "camel" ==> r == Success(Camel(text))
    ensures caseType == "pascal" ==> r == Success(Pascal(text))
    ensures caseType == "snake" ==> r == Success(Snake(text))
    ensures caseType == "kebab" ==> r == Success(Kebab(text))
  {
    match caseType
    case "upper" => ContentToUpper(text); Success(ToUpper(text))
    case "lower" => ContentToLower(text); Success(ToLower(text))
    case "title" => ContentTitle(text); Success(Title(text))
    case "camel" => Success(Camel(text))
    case "pascal" => Success(Pascal(text))
    case "snake" => Success(Snake(text))
    case "kebab" => Success(Kebab(text))
    case _ => Failure(InvalidCasePrefix + caseType)
  }
}

=== FILE: time_heuristics.dfy ===
/** The second copy of the feature-code rank, written as a chain of comparisons. */
module TimeHeuristics {
  import TimeUtils

  /** `getFeatureCodeRank`. */
  function FeatureCodeRank(fcode: string): nat
  {
    if fcode == "PPLC" then 100
    else if fcode == "PPLA" then 80
    else if fcode == "PPLA2" then 70
    else if fcode == "PPLA3" then 60
    else if fcode == "PPLA4" then 50
    else if fcode == "PPL" then 40
    else if fcode == "PPLX" then 30
    else 0
  }

  /** Both copies rank every code alike. */
  lemma SameAsTimeUtils(fcode: string)
    ensures FeatureCodeRank(fcode) == TimeUtils.FeatureCodeRank(fcode)
  {
    TimeUtils.FeatureCodeRankValues();
    if fcode !in {"PPLC", "PPLA", "PPLA2", "PPLA3", "PPLA4", "PPL", "PPLX"} {
      TimeUtils.UnknownCodeRanksZero(fcode);
    }
  }

  /** Ranks strictly decrease from capital to section of a populated place,
      and every unknown code, the empty one included, ranks 0. */
  lemma RankOrder(fcode: string)
    ensures FeatureCodeRank("PPLC") > FeatureCodeRank("PPLA") > FeatureCodeRank("PPLA2")
      > FeatureCodeRank("PPLA3") > FeatureCodeRank("PPLA4") > FeatureCodeRank("PPL")
      > FeatureCodeRank("PPLX") > 0
    ensures fcode !in {"PPLC", "PPLA", "PPLA2", "PPLA3", "PPLA4", "PPL", "PPLX"} ==> FeatureCodeRank(fcode) == 0
    ensures FeatureCodeRank("") == 0
  {
  }
}

=== FILE: time_utils.dfy ===
/** Helpers of the time-zone service: the GeoNames feature-code rank, the
    metadata record of a zone at a reference date, and a zone's long name. The
    date library and the zone catalog are parameters. */
module TimeUtils {
  import opened Wrappers
  import opened Strings
  import opened Tables

  // ------------------------------------------------------ feature-code rank

  /** The `fcodeRanks` object literal, in source order. */
  const FcodeRanks: seq<(string, nat)> :=
    [("PPLC", 100), ("PPLA", 80), ("PPLA2", 70), ("PPLA3", 60), ("PPLA4", 50), ("PPL", 40), ("PPLX", 30)]

  /** JavaScript's `v || 0` on a number that may be undefined. */
  function OrZero(v: Option<nat>): nat
  {
    if v.Some? && v.value != 0 then v.value else 0
  }

  /** `getFeatureCodeRank`. */
  function FeatureCodeRank(fcode: string): (r: nat)
    ensures r in {0, 30, 40, 50, 60, 70, 80, 100}
    ensures r <= 100
  {
    var v := Lookup(FcodeRanks, fcode);
    assert v.Some? ==> v.value in {30, 40, 50, 60, 70, 80, 100};
    OrZero(v)
  }

  /** The seven known codes and their ranks. */
  lemma FeatureCodeRankValues()
    ensures FeatureCodeRank("PPLC") == 100 && FeatureCodeRank("PPLA") == 80
    ensures FeatureCodeRank("PPLA2") == 70 && FeatureCodeRank("PPLA3") == 60
    ensures FeatureCodeRank("PPLA4") == 50 && FeatureCodeRank("PPL") == 40
    ensures FeatureCodeRank("PPLX") == 30
  {
    RankAt(0);
    RankAt(1);
    RankAt(2);
    RankAt(3);
    RankAt(4);
    RankAt(5);
    RankAt(6);
  }

  /** Any other code, the empty one included, ranks 0. */
  lemma UnknownCodeRanksZero(fcode: string)
    requires fcode !in {"PPLC", "PPLA", "PPLA2", "PPLA3", "PPLA4", "PPL", "PPLX"}
    ensures FeatureCodeRank(fcode) == 0
  {
    var t := FcodeRanks;
    assert t[0].0 == "PPLC" && t[1].0 == "PPLA" && t[2].0 == "PPLA2" && t[3].0 == "PPLA3";
    assert t[4].0 == "PPLA4" && t[5].0 == "PPL" && t[6].0 == "PPLX";
    RankZeroIffUnknown(fcode);
  }

  /** The code at position `i` of the table gets the rank stored there. */
  lemma RankAt(i: nat)
    requires i < |FcodeRanks|
    ensures FeatureCodeRank(FcodeRanks[i].0) == FcodeRanks[i].1
  {
    var t := FcodeRanks;
    assert forall j, k :: 0 <= j < k < |t| ==> t[j].0 != t[k].0 by {
      assert t[0].0 == "PPLC" && t[1].0 == "PPLA" && t[2].0 == "PPLA2" && t[3].0 == "PPLA3";
      assert t[4].0 == "PPLA4" && t[5].0 == "PPL" && t[6].0 == "PPLX";
    }
    LookupAt(t, t[i].0, i);
  }

  /** Every table entry is positive, so `|| 0` never hides a known code: the
      rank is 0 exactly for codes outside the table. */
  lemma {:induction false} RankZeroIffUnknown(fcode: string)
    ensures FeatureCodeRank(fcode) == 0 <==> forall i :: 0 <= i < |FcodeRanks| ==> FcodeRanks[i].0 != fcode
  {
    var v := Lookup(FcodeRanks, fcode);
    if v.Some? {
      var i :| 0 <= i < |FcodeRanks| && FcodeRanks[i] == (fcode, v.value);
      assert v.value > 0;
    }
  }

  // --------------------------------------------------------------- catalog

  /** One entry of the zone catalog: IANA name, country, and the long name. */
  datatype TzEntry = TzEntry(name: string, countryCode: string, alternativeName: string)

  /** `allTimeZones.find(tz => tz.name === ianaId)`: the first entry with that name. */
  function FindZone(catalog: seq<TzEntry>, name: string): (r: Option<TzEntry>)
    ensures r.None? <==> forall i :: 0 <= i < |catalog| ==> catalog[i].name != name
    ensures r.Some? ==> exists i :: (0 <= i < |catalog| && catalog[i] == r.value && r.value.name == name
      && forall j :: 0 <= j < i ==> catalog[j].name != name)
  {
    if |catalog| == 0 then None
    else if catalog[0].name == name then Some(catalog[0])
    else
      var r := FindZone(catalog[1..], name);
      assert forall i :: 1 <= i < |catalog| ==> catalog[i] == catalog[1..][i - 1];
      r
  }

  /** `getTimeZoneLongName`: the catalog's long name of the first matching
      entry, else the id with its first `_` turned into a space. */
  function LongName(catalog: seq<TzEntry>, ianaId: string): (r: string)
  {
    match FindZone(catalog, ianaId)
    case Some(zone) => zone.alternativeName
    case None => ReplaceFirst(ianaId, '_', ' ')
  }

  /** A catalog hit gives the long name of the first entry with that name. */
  lemma LongNameHit(catalog: seq<TzEntry>, ianaId: string, i: nat)
    requires i < |catalog| && catalog[i].name == ianaId
    requires forall j :: 0 <= j < i ==> catalog[j].name != ianaId
    ensures LongName(catalog, ianaId) == catalog[i].alternativeName
  {
    var r := FindZone(catalog, ianaId);
    var i' :| 0 <= i' < |catalog| && catalog[i'] == r.value && r.value.name == ianaId
      && forall j :: 0 <= j < i' ==> catalog[j].name != ianaId;
    assert i' == i;
  }

  /** A miss keeps every character of the id except its first underscore,
      which becomes a space. */
  lemma LongNameMiss(catalog: seq<TzEntry>, ianaId: string)
    requires forall i :: 0 <= i < |catalog| ==> catalog[i].name != ianaId
    ensures '_' !in ianaId ==> LongName(catalog, ianaId) == ianaId
    ensures forall k :: 0 <= k < |ianaId| && ianaId[k] == '_' && '_' !in ianaId[..k] ==>
      LongName(catalog, ianaId) == ianaId[..k] + " " + ianaId[k + 1..]
  {
    forall k | 0 <= k < |ianaId| && ianaId[k] == '_' && '_' !in ianaId[..k]
      ensures LongName(catalog, ianaId) == ianaId[..k] + " " + ianaId[k + 1..]
    {
      ReplaceFirstAt(ianaId, '_', ' ', k);
    }
  }

  // -------------------------------------------------------------- metadata

  /** The date library's view of a zone at one local instant. */
  datatype ZoneState = ZoneState(offsetMinutes: int, offsetString: string, abbreviation: string, isDST: bool)

  /** The date library: which names are valid zones, and the state of a zone at
      a local ISO date-time. */
  datatype ZoneLib = ZoneLib(isValid: string -> bool, atLocal: (string, string) -> ZoneState)

  datatype MetadataAtDate = MetadataAtDate(
    date: string,
    utcOffsetMinutes: int,
    offsetString: string,
    abbreviation: string,
    isCurrentlyDST: bool,
    dstNameLong: string)

  datatype Metadata = Metadata(ianaId: string, foundBy: string, metadataAtDate: MetadataAtDate)

  const MetadataErrorPrefix: string := "Error getting timezone metadata: "
  const InvalidZoneMessage: string := "Invalid IANA timezone ID"

  /** The local noon of `referenceDate`, the instant the metadata describes. */
  function Noon(referenceDate: string): string
  {
    referenceDate + "T12:00:00"
  }

  /** `getTimeZoneMetadata`: fails for an invalid zone; otherwise echoes the id,
      the strategy and the date, and reports the zone's state at local noon. */
  function TimeZoneMetadata(lib: ZoneLib, catalog: seq<TzEntry>, ianaId: string, referenceDate: string, foundBy: string)
    : (r: Result<Metadata, string>)
    ensures r.Failure? <==> !lib.isValid(ianaId)
    ensures r.Failure? ==> r.error == MetadataErrorPrefix + InvalidZoneMessage
    ensures r.Success? ==>
      && r.value.ianaId == ianaId && r.value.foundBy == foundBy
      && r.value.metadataAtDate.date == referenceDate
      && r.value.metadataAtDate.dstNameLong == LongName(catalog, ianaId)
  {
    if !lib.isValid(ianaId) then Failure(MetadataErrorPrefix + InvalidZoneMessage)
    else
      var st := lib.atLocal(ianaId, Noon(referenceDate));
      Success(Metadata(ianaId, foundBy,
        MetadataAtDate(referenceDate, st.offsetMinutes, st.offsetString, st.abbreviation, st.isDST, LongName(catalog, ianaId))))
  }

  /** The offset, abbreviation and DST flag are those at noon of the reference
      date, so two libraries that agree at that instant give the same record. */
  lemma MetadataAtNoon(lib1: ZoneLib, lib2: ZoneLib, catalog: seq<TzEntry>, ianaId: string, referenceDate: string, foundBy: string)
    requires lib1.isValid(ianaId) && lib2.isValid(ianaId)
    requires lib1.atLocal(ianaId, referenceDate + "T12:00:00") == lib2.atLocal(ianaId, referenceDate + "T12:00:00")
    ensures TimeZoneMetadata(lib1, catalog, ianaId, referenceDate, foundBy)
         == TimeZoneMetadata(lib2, catalog, ianaId, referenceDate, foundBy)
    ensures var m := TimeZoneMetadata(lib1, catalog, ianaId, referenceDate, foundBy).value.metadataAtDate;
      var st := lib1.atLocal(ianaId, referenceDate + "T12:00:00");
      m.utcOffsetMinutes == st.offsetMinutes && m.abbreviation == st.abbreviation && m.isCurrentlyDST == st.isDST
  {
  }
}

=== FILE: timezone_convert.dfy ===
/** `convertTime`: how the input is classified and which warnings it earns.
    Parsing and zone arithmetic belong to the date library and enter as a
    `Parser` returning the few facts the classification reads. */
module TimeZoneConvert {
  import opened Wrappers
  import opened Strings

  /** What the date library reports about a parsed instant: validity, the
      reason when invalid, how many offsets the local wall time has in its
      zone, the resolved `HH:mm`, and the instant in UTC as ISO text. */
  datatype Parsed = Parsed(isValid: bool, invalidReason: string, possibleOffsetCount: nat, resolvedHHmm: string, utcIso: string)

  /** `DateTime.fromISO(text)` (zone `None`) or `DateTime.fromISO(text, { zone })`. */
  type Parser = (string, Option<string>) -> Parsed

  /** The thrown `{ statusCode, message, code }`. */
  datatype ConvertError = ConvertError(statusCode: nat, message: string, code: string)

  /** The four input states. */
  datatype InputState = OffsetOverridesZone | OffsetOnly | FloatingInZone | Ambiguous

  datatype Conversion = Conversion(
    targetZone: string,
    sourceZoneUsed: Option<string>,
    warnings: seq<Warning>,
    sourceInput: string,
    inputInterpretation: string)

  /** The warnings `convertTime` can emit; `Text` gives each one's message. */
  datatype Warning =
    | IgnoredZone
    | NoTimeComponent
    | FallBack(zone: string)
    | SpringForward(input: string, resolved: string)

  function Text(w: Warning): string
  {
    match w
    case IgnoredZone => "fromZone was provided but ignored because the DateTime string included an explicit offset."
    case NoTimeComponent => "No time component detected in dateTime. Defaulted to midnight (00:00:00)."
    case FallBack(zone) =>
      "Ambiguous time detected in " + zone + ". The local wall time occurred twice during a DST fall-back. The first instance was selected."
    case SpringForward(input, resolved) =>
      "Invalid time detected (DST spring forward). Luxon adjusted the time from " + input + " to " + resolved
      + " to find the nearest valid moment."
  }

  const AmbiguousMessage: string :=
    "Ambiguous input: dateTime lacks an offset and fromZone was not provided. Cannot determine the moment in time."
  const DefaultTimePart: string := "00:00"

  predicate IsDigitAt(s: string, i: int) { 0 <= i < |s| && IsDigit(s[i]) }

  /** `DD:DD` starts at `i`. */
  predicate ClockAt(s: string, i: int)
  {
    IsDigitAt(s, i) && IsDigitAt(s, i + 1) && 0 <= i + 2 < |s| && s[i + 2] == ':' && IsDigitAt(s, i + 3) && IsDigitAt(s, i + 4)
  }

  /** The input ends with a space and `DD:DD`. */
  predicate SpacedClockAtEnd(s: string)
  {
    |s| >= 6 && s[|s| - 6] == ' ' && ClockAt(s, |s| - 5)
  }

  /** `dateTime.replace(/ (\d{2}:\d{2})$/, '+$1')`: a space lost from a
      URL-encoded `+` before a trailing `HH:MM` becomes `+` again. */
  function RestorePlus(s: string): (r: string)
    ensures |r| == |s|
    ensures !SpacedClockAtEnd(s) ==> r == s
    ensures SpacedClockAtEnd(s) ==> r[|s| - 6] == '+' && forall i :: 0 <= i < |s| && i != |s| - 6 ==> r[i] == s[i]
  {
    if SpacedClockAtEnd(s) then s[..|s| - 6] + "+" + s[|s| - 5..] else s
  }

  /** `[+-]\d{2}:\d{2}` matches at `i`. */
  predicate OffsetAt(s: string, i: int)
  {
    0 <= i < |s| && (s[i] == '+' || s[i] == '-') && ClockAt(s, i + 1)
  }

  /** `/[+-]\d{2}:\d{2}|Z$/.test(s)`. */
  predicate HasExplicitOffset(s: string)
  {
    (exists i :: 0 <= i < |s| && OffsetAt(s, i)) || (|s| > 0 && s[|s| - 1] == 'Z')
  }

  /** `/T\d/.test(s)`. */
  predicate HasTimeComponent(s: string)
  {
    exists i :: 0 <= i < |s| && s[i] == 'T' && IsDigitAt(s, i + 1)
  }

  /** `dateTime.split('T')[1]?.substring(0, 5) || '00:00'`. */
  function InputTimePart(s: string): (r: string)
    ensures 'T' !in s ==> r == DefaultTimePart
    ensures |r| <= 5 && r != ""
  {
    SplitNoSepWhen(s);
    var pieces := Split(s, 'T');
    if |pieces| < 2 then DefaultTimePart
    else
      var p := pieces[1];
      var part := if |p| <= 5 then p else p[..5];
      if part == "" then DefaultTimePart else part
  }

  /** With the first `T` at `k` and the next one (or the end) at `j`, the
      time part is the text between them, cut to five characters, or
      `00:00` when that text is empty. */
  lemma InputTimePartAt(s: string, k: nat, j: nat)
    requires k < j <= |s| && s[k] == 'T' && 'T' !in s[..k] && 'T' !in s[k + 1..j]
    requires j == |s| || s[j] == 'T'
    ensures InputTimePart(s) ==
      if j == k + 1 then DefaultTimePart
      else if j - (k + 1) <= 5 then s[k + 1..j]
      else s[k + 1..k + 6]
  {
    SplitSecond(s, 'T', k, j);
    var seg := s[k + 1..j];
    if j - (k + 1) > 5 {
      assert seg[..5] == s[k + 1..k + 6];
    }
  }

  lemma SplitNoSepWhen(s: string)
    ensures 'T' !in s ==> Split(s, 'T') == [s]
  {
    if 'T' !in s { SplitNoSep(s, 'T'); }
  }

  function Classify(dateTime: string, fromZone: Option<string>): (st: InputState)
    ensures st == Ambiguous <==> !HasExplicitOffset(dateTime) && !(fromZone.Some? && fromZone.value != "")
    ensures st == FloatingInZone <==> !HasExplicitOffset(dateTime) && fromZone.Some? && fromZone.value != ""
    ensures st == OffsetOverridesZone <==> HasExplicitOffset(dateTime) && fromZone.Some? && fromZone.value != ""
  {
    var zoneGiven := fromZone.Some? && fromZone.value != "";
    if HasExplicitOffset(dateTime) && zoneGiven then OffsetOverridesZone
    else if HasExplicitOffset(dateTime) then OffsetOnly
    else if zoneGiven then FloatingInZone
    else Ambiguous
  }

  /** The daylight-saving warnings for floating time in `zone`: more than one
      possible offset means a repeated wall time; none, or one that moved the
      wall clock, means a skipped one. */
  function DstWarnings(zone: string, input: string, parsed: Parsed): (ws: seq<Warning>)
    ensures |ws| <= 1
    ensures parsed.possibleOffsetCount > 1 <==> ws == [FallBack(zone)]
    ensures (parsed.possibleOffsetCount == 0 || (parsed.possibleOffsetCount == 1 && InputTimePart(input) != parsed.resolvedHHmm))
      <==> ws == [SpringForward(InputTimePart(input), parsed.resolvedHHmm)]
    ensures ws == [] <==> parsed.possibleOffsetCount == 1 && InputTimePart(input) == parsed.resolvedHHmm
  {
    var inputPart := InputTimePart(input);
    if parsed.possibleOffsetCount > 1 then [FallBack(zone)]
    else if parsed.possibleOffsetCount == 0 || (parsed.possibleOffsetCount == 1 && inputPart != parsed.resolvedHHmm) then
      var ws := [SpringForward(inputPart, parsed.resolvedHHmm)];
      assert ws[0] != FallBack(zone);
      ws
    else []
  }

  /** `convertTime`. */
  function ConvertTime(parse: Parser, dateTime: string, fromZone: Option<string>, toZone: string)
    : (r: Result<Conversion, ConvertError>)
    ensures var text := RestorePlus(dateTime);
      Classify(text, fromZone) == Ambiguous ==> r == Failure(ConvertError(400, AmbiguousMessage, "AMBIGUOUS_DATETIME"))
    ensures var text := RestorePlus(dateTime); var st := Classify(text, fromZone);
      st != Ambiguous ==> (r.Failure? <==> !parse(text, if st == FloatingInZone then fromZone else None).isValid)
    ensures var text := RestorePlus(dateTime); var st := Classify(text, fromZone);
      st != Ambiguous && r.Failure? ==>
        r.error == ConvertError(400, "Malformed dateTime: " + parse(text, if st == FloatingInZone then fromZone else None).invalidReason,
                                "INVALID_DATETIME")
    ensures r.Success? ==> r.value.targetZone == toZone && r.value.sourceInput == dateTime
    ensures r.Success? ==> (r.value.sourceZoneUsed.Some? <==> Classify(RestorePlus(dateTime), fromZone) == FloatingInZone)
    ensures r.Success? ==>
      r.value.sourceZoneUsed == (if Classify(RestorePlus(dateTime), fromZone) == FloatingInZone then fromZone else None)
    ensures var text := RestorePlus(dateTime); var st := Classify(text, fromZone);
      r.Success? ==>
        && (st == OffsetOverridesZone ==>
              r.value.inputInterpretation ==
                "Offset provided in string was used to define the moment (UTC: " + parse(text, None).utcIso + ").")
        && (st == OffsetOnly ==> r.value.inputInterpretation == "Offset in DateTime string was used to define the moment.")
        && (st == FloatingInZone ==>
              r.value.inputInterpretation == "Floating time interpreted as originating in " + fromZone.value + ".")
  {
    var text := RestorePlus(dateTime);
    var state := Classify(text, fromZone);
    if state == Ambiguous then Failure(ConvertError(400, AmbiguousMessage, "AMBIGUOUS_DATETIME"))
    else
      var zone := if state == FloatingInZone then fromZone else None;
      var parsed := parse(text, zone);
      if !parsed.isValid then Failure(ConvertError(400, "Malformed dateTime: " + parsed.invalidReason, "INVALID_DATETIME"))
      else
        var ignored := if state == OffsetOverridesZone then [IgnoredZone] else [];
        var midnight := if HasTimeComponent(text) then [] else [NoTimeComponent];
        var dst := if state == FloatingInZone then DstWarnings(fromZone.value, text, parsed) else [];
        var interpretation :=
          match state
          case OffsetOverridesZone => "Offset provided in string was used to define the moment (UTC: " + parsed.utcIso + ")."
          case OffsetOnly => "Offset in DateTime string was used to define the moment."
          case FloatingInZone => "Floating time interpreted as originating in " + fromZone.value + "."
          case Ambiguous => "";
        Success(Conversion(toZone, zone, ignored + midnight + dst, dateTime, interpretation))
  }

  /** The warnings of a successful conversion: the ignored-zone warning
      exactly once and only when an offset overrides a given zone, the
      midnight warning exactly when there is no `T<digit>`, and the
      daylight-saving warnings only for floating time, never both. */
  lemma ConvertWarnings(parse: Parser, dateTime: string, fromZone: Option<string>, toZone: string)
    requires ConvertTime(parse, dateTime, fromZone, toZone).Success?
    ensures var text := RestorePlus(dateTime);
      var st := Classify(text, fromZone);
      var ws := ConvertTime(parse, dateTime, fromZone, toZone).value.warnings;
      && (IgnoredZone in ws <==> st == OffsetOverridesZone)
      && (st == OffsetOverridesZone ==> ws[0] == IgnoredZone && IgnoredZone !in ws[1..])
      && (NoTimeComponent in ws <==> !HasTimeComponent(text))
      && (forall w :: w in ws && IsDst(w) ==> st == FloatingInZone)
      && (forall w1, w2 :: w1 in ws && w2 in ws && w1.FallBack? ==> !w2.SpringForward?)
      && (st == FloatingInZone ==> (FallBack(fromZone.value) in ws <==> parse(text, fromZone).possibleOffsetCount > 1))
      && (st == FloatingInZone ==>
            var parsed := parse(text, fromZone);
            var spring := SpringForward(InputTimePart(text), parsed.resolvedHHmm);
            && (spring in ws <==>
                  parsed.possibleOffsetCount == 0
                  || (parsed.possibleOffsetCount == 1 && InputTimePart(text) != parsed.resolvedHHmm))
            && ((forall w :: w in ws ==> !IsDst(w)) <==>
                  parsed.possibleOffsetCount == 1 && InputTimePart(text) == parsed.resolvedHHmm))
  {
    var text := RestorePlus(dateTime);
    var st := Classify(text, fromZone);
    var parsed := parse(text, if st == FloatingInZone then fromZone else None);
    var ignored := if st == OffsetOverridesZone then [IgnoredZone] else [];
    var midnight := if HasTimeComponent(text) then [] else [NoTimeComponent];
    var dst := if st == FloatingInZone then DstWarnings(fromZone.value, text, parsed) else [];
    WarningsOf(parse, dateTime, fromZone, toZone);
    WarningsLayout(ignored, midnight, dst);
    if st == FloatingInZone {
      FloatingDst(ConvertTime(parse, dateTime, fromZone, toZone).value.warnings, dst, fromZone.value, text, parsed);
    }
  }

  /** For floating time the daylight-saving warnings of the list are those
      of `DstWarnings`: a fall-back, a spring-forward, or none. */
  lemma FloatingDst(ws: seq<Warning>, dst: seq<Warning>, zone: string, text: string, parsed: Parsed)
    requires dst == DstWarnings(zone, text, parsed)
    requires forall w :: w in ws && IsDst(w) <==> w in dst
    ensures var spring := SpringForward(InputTimePart(text), parsed.resolvedHHmm);
      && (FallBack(zone) in ws <==> parsed.possibleOffsetCount > 1)
      && (spring in ws <==>
            parsed.possibleOffsetCount == 0
            || (parsed.possibleOffsetCount == 1 && InputTimePart(text) != parsed.resolvedHHmm))
      && ((forall w :: w in ws ==> !IsDst(w)) <==>
            parsed.possibleOffsetCount == 1 && InputTimePart(text) == parsed.resolvedHHmm)
  {
  }

  /** The three parts of the warning list of a successful conversion. */
  lemma WarningsOf(parse: Parser, dateTime: string, fromZone: Option<string>, toZone: string)
    requires ConvertTime(parse, dateTime, fromZone, toZone).Success?
    ensures var text := RestorePlus(dateTime);
      var st := Classify(text, fromZone);
      var parsed := parse(text, if st == FloatingInZone then fromZone else None);
      ConvertTime(parse, dateTime, fromZone, toZone).value.warnings ==
        (if st == OffsetOverridesZone then [IgnoredZone] else [])
        + (if HasTimeComponent(text) then [] else [NoTimeComponent])
        + (if st == FloatingInZone then DstWarnings(fromZone.value, text, parsed) else [])
  {
  }

  predicate IsDst(w: Warning) { w.FallBack? || w.SpringForward? }

  /** The warning list is the optional ignored-zone warning, then the optional
      midnight warning, then at most one daylight-saving warning. */
  lemma WarningsLayout(ignored: seq<Warning>, midnight: seq<Warning>, dst: seq<Warning>)
    requires ignored == [] || ignored == [IgnoredZone]
    requires midnight == [] || midnight == [NoTimeComponent]
    requires |dst| <= 1 && forall w :: w in dst ==> IsDst(w)
    ensures var ws := ignored + midnight + dst;
      && (IgnoredZone in ws <==> ignored != [])
      && (ignored != [] ==> ws[0] == IgnoredZone && IgnoredZone !in ws[1..])
      && (NoTimeComponent in ws <==> midnight != [])
      && (forall w :: w in ws && IsDst(w) <==> w in dst)
      && (forall w1, w2 :: w1 in ws && w2 in ws && w1.FallBack? ==> !w2.SpringForward?)
  {
    var ws := ignored + midnight + dst;
    forall w | w in ws
      ensures w in ignored || w in midnight || w in dst
    {
    }
    if ignored != [] {
      assert ws[1..] == midnight + dst;
    }
  }

  /** A trailing space-separated `HH:MM` always ends up read as an explicit
      offset, so such input never counts as floating time. */
  lemma RestoredOffset(dateTime: string)
    requires SpacedClockAtEnd(dateTime)
    ensures HasExplicitOffset(RestorePlus(dateTime))
    ensures forall z :: Classify(RestorePlus(dateTime), z) != FloatingInZone
  {
    var r := RestorePlus(dateTime);
    var i := |dateTime| - 6;
    assert OffsetAt(r, i);
  }
}

=== FILE: timezone_lookup.dfy ===
/** `lookupTimeZone`: the same chain as `getCurrentTime`, collecting
    metadata records instead of a single zone. A step runs only while no
    record has been collected; a metadata failure ends the step it happens
    in but keeps the records pushed before it. */
module TimeZoneLookup {
  import opened Wrappers
  import IpUtils
  import TimeUtils
  import opened PlaceRanker
  import opened TimeZoneService

  /** `results`, `warning` (initially `''`) and the calls made. */
  datatype Collected = Collected(results: seq<TimeUtils.Metadata>, warning: string, calls: seq<Call>)

  const NoResultsMessage: string := "Could not determine timezone from provided parameters"

  /** The `ianaId` of each record. */
  function Ids(ms: seq<TimeUtils.Metadata>): (r: seq<string>)
    ensures |r| == |ms| && forall i :: 0 <= i < |ms| ==> r[i] == ms[i].ianaId
  {
    seq(|ms|, i requires 0 <= i < |ms| => ms[i].ianaId)
  }

  /** The loop `for (id of ids) results.push(await getTimeZoneMetadata(id, ...))`:
      the records of the ids before the first invalid one. */
  function MetadataPrefix(env: Providers, ids: seq<string>, referenceDate: string, foundBy: string): (r: seq<TimeUtils.Metadata>)
    ensures |r| <= |ids|
    ensures forall i :: 0 <= i < |r| ==> (r[i].ianaId == ids[i] && r[i].foundBy == foundBy
      && r[i].metadataAtDate.date == referenceDate && env.zones.isValid(ids[i]))
    ensures |r| < |ids| ==> !env.zones.isValid(ids[|r|])
  {
    if |ids| == 0 then []
    else match TimeUtils.TimeZoneMetadata(env.zones, env.catalog, ids[0], referenceDate, foundBy)
      case Failure(_) => []
      case Success(m) => [m] + MetadataPrefix(env, ids[1..], referenceDate, foundBy)
  }

  /** The names of the catalog zones of a country, in catalog order. */
  function CountryZoneNames(catalog: seq<TimeUtils.TzEntry>, code: string): (r: seq<string>)
    ensures forall x :: x in r <==> exists i :: 0 <= i < |catalog| && catalog[i].countryCode == code && catalog[i].name == x
  {
    if |catalog| == 0 then []
    else
      var rest := CountryZoneNames(catalog[1..], code);
      assert forall i :: 0 < i < |catalog| ==> catalog[i] == catalog[1..][i - 1];
      if catalog[0].countryCode == code then [catalog[0].name] + rest else rest
  }

  /** The position of the first `x` in `s`. */
  function FirstIndex(s: seq<string>, x: string): (i: nat)
    requires x in s
    ensures i < |s| && s[i] == x && x !in s[..i]
  {
    if s[0] == x then 0 else 1 + FirstIndex(s[1..], x)
  }

  /** The names of `s` not in `seen`, each once, in order of first occurrence. */
  function Dedup(s: seq<string>, seen: set<string>): (r: seq<string>)
    ensures forall x :: x in r <==> x in s && x !in seen
    ensures forall i, j :: 0 <= i < j < |r| ==> r[i] != r[j]
  {
    if |s| == 0 then []
    else if s[0] in seen then Dedup(s[1..], seen)
    else [s[0]] + Dedup(s[1..], seen + {s[0]})
  }

  /** `Dedup` keeps first-occurrence order. */
  lemma {:induction false} DedupOrder(s: seq<string>, seen: set<string>)
    ensures forall i, j :: 0 <= i < j < |Dedup(s, seen)| ==>
      FirstIndex(s, Dedup(s, seen)[i]) < FirstIndex(s, Dedup(s, seen)[j])
  {
    if |s| > 0 {
      var r := Dedup(s, seen);
      var seen' := if s[0] in seen then seen else seen + {s[0]};
      DedupOrder(s[1..], seen');
      var t := Dedup(s[1..], seen');
      forall k | 0 <= k < |t|
        ensures FirstIndex(s, t[k]) == 1 + FirstIndex(s[1..], t[k])
      {
        assert t[k] != s[0];
      }
      if s[0] !in seen {
        assert r == [s[0]] + t;
        assert FirstIndex(s, s[0]) == 0;
        forall i, j | 0 <= i < j < |r|
          ensures FirstIndex(s, r[i]) < FirstIndex(s, r[j])
        {
          if i > 0 {
            assert r[i] == t[i - 1] && r[j] == t[j - 1];
          } else {
            assert r[j] == t[j - 1];
          }
        }
      }
    }
  }

  /** The JavaScript loop that fills `uniqueZones` and `uniqueZoneObjects`. */
  method UniqueZoneNames(names: seq<string>) returns (unique: seq<string>)
    ensures unique == Dedup(names, {})
  {
    var seen: set<string> := {};
    unique := [];
    var i := 0;
    while i < |names|
      invariant 0 <= i <= |names|
      invariant unique + Dedup(names[i..], seen) == Dedup(names, {})
      invariant forall x :: x in seen <==> x in unique
    {
      assert names[i..][1..] == names[i + 1..];
      if names[i] !in seen {
        seen := seen + {names[i]};
        unique := unique + [names[i]];
      }
      i := i + 1;
    }
  }

  /** Step 1. */
  function LookupIp(env: Providers, q: Query, referenceDate: string, s: Collected): (r: Collected)
    ensures !Given(q.ip) ==> r == s
    ensures Given(q.ip) && IpUtils.IsPrivateIp(q.ip.value) ==> r == s.(warning := PrivateIpWarning)
    ensures Given(q.ip) && !IpUtils.IsPrivateIp(q.ip.value) && env.maxmind.None? ==> r == s
    ensures Given(q.ip) && !IpUtils.IsPrivateIp(q.ip.value) && env.maxmind.Some? ==>
      var answer := env.maxmind.value(q.ip.value);
      && r.calls == s.calls + [MaxMindCall(q.ip.value)] && r.warning == s.warning
      && (answer.Some? && answer.value != "" ==>
            match TimeUtils.TimeZoneMetadata(env.zones, env.catalog, answer.value, referenceDate, "IP Geolocation")
            case Success(m) => r.results == s.results + [m]
            case Failure(_) => r.results == s.results)
      && (answer.None? || answer.value == "" ==> r.results == s.results)
  {
    if !Given(q.ip) then s
    else
      var ip := q.ip.value;
      if IpUtils.IsPrivateIp(ip) then s.(warning := PrivateIpWarning)
      else match env.maxmind
        case None => s
        case Some(city) =>
          var s1 := s.(calls := s.calls + [MaxMindCall(ip)]);
          match city(ip)
          case Some(z) =>
            if z == "" then s1
            else (match TimeUtils.TimeZoneMetadata(env.zones, env.catalog, z, referenceDate, "IP Geolocation")
              case Success(m) => s1.(results := s1.results + [m])
              case Failure(_) => s1)
          case None => s1
  }

  /** Step 2: one record per geo-tz zone, or the `Etc/GMT` record with the international-waters warning. */
  function LookupCoordinates(env: Providers, q: Query, referenceDate: string, s: Collected): (r: Collected)
    ensures !(Given(q.lat) && Given(q.lon)) || |s.results| > 0 ==> r == s
    ensures Given(q.lat) && Given(q.lon) && |s.results| == 0 && Coordinates(env, q.lat.value, q.lon.value).None? ==>
      r == s.(warning := InvalidCoordinates)
    ensures Given(q.lat) && Given(q.lon) && |s.results| == 0 && Coordinates(env, q.lat.value, q.lon.value).Some? ==>
      var (lat, lon) := Coordinates(env, q.lat.value, q.lon.value).value;
      var zones := env.geoTz(lat, lon);
      && r.calls == s.calls + [GeoTzCall(lat, lon)]
      && (|zones| > 0 ==>
            r.warning == s.warning && r.results == s.results + MetadataPrefix(env, zones, referenceDate, "Coordinate Lookup"))
      && (|zones| == 0 ==>
            match TimeUtils.TimeZoneMetadata(env.zones, env.catalog, WatersZone, referenceDate, "Coordinate Lookup (Default)")
            case Success(m) => r.warning == WatersWarning && r.results == s.results + [m]
            case Failure(_) => r.warning == s.warning && r.results == s.results)
  {
    if !(Given(q.lat) && Given(q.lon)) || |s.results| > 0 then s
    else match Coordinates(env, q.lat.value, q.lon.value)
      case None => s.(warning := InvalidCoordinates)
      case Some((lat, lon)) =>
        var zones := env.geoTz(lat, lon);
        var s1 := s.(calls := s.calls + [GeoTzCall(lat, lon)]);
        if |zones| > 0 then s1.(results := s1.results + MetadataPrefix(env, zones, referenceDate, "Coordinate Lookup"))
        else (match TimeUtils.TimeZoneMetadata(env.zones, env.catalog, WatersZone, referenceDate, "Coordinate Lookup (Default)")
          case Success(m) => s1.(warning := WatersWarning, results := s1.results + [m])
          case Failure(_) => s1)
  }

  /** Step 3: the record of the best-scored place. */
  function LookupCityCountry(env: Providers, q: Query, referenceDate: string, s: Collected): (r: Collected)
    ensures !(Given(q.city) && Given(q.country)) || |s.results| > 0 ==> r == s
    ensures Given(q.city) && Given(q.country) && |s.results| == 0 && CountryCodeOf(env, q.country.value).None? ==>
      r == s.(warning := InvalidCountry)
    ensures Given(q.city) && Given(q.country) && |s.results| == 0 && CountryCodeOf(env, q.country.value).Some? ==>
      var query := CityInCountry(Spaced(q.city.value), CountryCodeOf(env, q.country.value).value);
      var resp := env.geoNames(query);
      && r.calls == s.calls + [GeoNamesCall(query)] && r.warning == s.warning
      && (resp.Some? && resp.value.totalResultsCount > 0 && |resp.value.places| > 0 ==>
            match TimeUtils.TimeZoneMetadata(env.zones, env.catalog, TopPlace(resp.value.places).timeZoneId, referenceDate,
                                             "City + Country Lookup (Highest Population)")
            case Success(m) => r.results == s.results + [m]
            case Failure(_) => r.results == s.results)
      && (!(resp.Some? && resp.value.totalResultsCount > 0 && |resp.value.places| > 0) ==> r.results == s.results)
  {
    if !(Given(q.city) && Given(q.country)) || |s.results| > 0 then s
    else match CountryCodeOf(env, q.country.value)
      case None => s.(warning := InvalidCountry)
      case Some(code) =>
        var query := CityInCountry(Spaced(q.city.value), code);
        var s1 := s.(calls := s.calls + [GeoNamesCall(query)]);
        match env.geoNames(query)
        case None => s1
        case Some(resp) =>
          if resp.totalResultsCount > 0 && |resp.places| > 0 then
            (match TimeUtils.TimeZoneMetadata(env.zones, env.catalog, TopPlace(resp.places).timeZoneId, referenceDate,
                                              "City + Country Lookup (Highest Population)")
             case Success(m) => s1.(results := s1.results + [m])
             case Failure(_) => s1)
          else s1
  }

  /** Step 4: the record of the most populous place of that name. */
  function LookupCity(env: Providers, q: Query, referenceDate: string, s: Collected): (r: Collected)
    ensures !Given(q.city) || |s.results| > 0 ==> r == s
    ensures Given(q.city) && |s.results| == 0 ==>
      var resp := env.geoNames(CityOnly(Spaced(q.city.value)));
      && r.calls == s.calls + [GeoNamesCall(CityOnly(Spaced(q.city.value)))]
      && (resp.Some? && resp.value.totalResultsCount > 0 && |resp.value.places| > 0 ==>
            r.warning == s.warning &&
            match TimeUtils.TimeZoneMetadata(env.zones, env.catalog, resp.value.places[0].timeZoneId, referenceDate,
                                             "City Lookup (Highest Population)")
            case Success(m) => r.results == s.results + [m]
            case Failure(_) => r.results == s.results)
      && (resp.Some? && resp.value.totalResultsCount <= 0 ==> r.results == s.results && r.warning == CityNotFound)
      && (resp.Some? && resp.value.totalResultsCount > 0 && |resp.value.places| == 0 ==>
            r == s.(calls := s.calls + [GeoNamesCall(CityOnly(Spaced(q.city.value)))]))
      && (resp.None? ==> r.results == s.results && r.warning == s.warning)
  {
    if !Given(q.city) || |s.results| > 0 then s
    else
      var query := CityOnly(Spaced(q.city.value));
      var s1 := s.(calls := s.calls + [GeoNamesCall(query)]);
      match env.geoNames(query)
      case None => s1
      case Some(resp) =>
        if resp.totalResultsCount > 0 then
          if |resp.places| > 0 then
            (match TimeUtils.TimeZoneMetadata(env.zones, env.catalog, resp.places[0].timeZoneId, referenceDate,
                                              "City Lookup (Highest Population)")
             case Success(m) => s1.(results := s1.results + [m])
             case Failure(_) => s1)
          else s1
        else s1.(warning := CityNotFound)
  }

  /** Step 5: one record per distinct catalog zone of the country, from the
      local catalog without a provider call. The warning handed to
      `getTimeZoneMetadata` as a fourth argument has no parameter to go to. */
  function LookupCountry(env: Providers, q: Query, referenceDate: string, s: Collected): (r: Collected)
    ensures !Given(q.country) || |s.results| > 0 ==> r == s
    ensures r.calls == s.calls
    ensures Given(q.country) && |s.results| == 0 && CountryCodeOf(env, q.country.value).None? ==>
      r == s.(warning := InvalidCountry)
    ensures Given(q.country) && |s.results| == 0 && CountryCodeOf(env, q.country.value).Some? ==>
      var code := CountryCodeOf(env, q.country.value).value;
      && r.warning == s.warning
      && r.results == s.results + MetadataPrefix(env, Dedup(CountryZoneNames(env.catalog, code), {}), referenceDate, "Country Lookup")
  {
    if !Given(q.country) || |s.results| > 0 then s
    else match CountryCodeOf(env, q.country.value)
      case None => s.(warning := InvalidCountry)
      case Some(code) =>
        var names := Dedup(CountryZoneNames(env.catalog, code), {});
        s.(results := s.results + MetadataPrefix(env, names, referenceDate, "Country Lookup"))
  }

  function Collect(env: Providers, q: Query, referenceDate: string): Collected
  {
    var s0 := Collected([], "", []);
    var s1 := LookupIp(env, q, referenceDate, s0);
    var s2 := LookupCoordinates(env, q, referenceDate, s1);
    var s3 := LookupCityCountry(env, q, referenceDate, s2);
    var s4 := LookupCity(env, q, referenceDate, s3);
    LookupCountry(env, q, referenceDate, s4)
  }

  /** The two shapes of the answer: results with the date asked for, or
      `{ success: 'false', message, warning }` instead of an exception. */
  datatype LookupAnswer =
    | Results(requestedReferenceDate: string, results: seq<TimeUtils.Metadata>, warning: string)
    | NoResults(message: string, warning: string)

  function LookupTimeZone(env: Providers, q: Query, referenceDate: string): (r: LookupAnswer)
    ensures r.NoResults? <==> |Collect(env, q, referenceDate).results| == 0
    ensures r.NoResults? ==> r.message == NoResultsMessage
    ensures r.warning == Collect(env, q, referenceDate).warning
    ensures r.Results? ==> r.requestedReferenceDate == referenceDate && |r.results| > 0
  {
    var c := Collect(env, q, referenceDate);
    if |c.results| == 0 then NoResults(NoResultsMessage, c.warning)
    else Results(referenceDate, c.results, c.warning)
  }

  /** Coordinates alone: one record per geo-tz zone, in geo-tz order, when every zone is valid. */
  lemma CoordinatesOnePerZone(env: Providers, q: Query, referenceDate: string, lat: real, lon: real)
    requires !Given(q.ip) && Given(q.lat) && Given(q.lon)
    requires Coordinates(env, q.lat.value, q.lon.value) == Some((lat, lon))
    requires |env.geoTz(lat, lon)| > 0
    requires forall i :: 0 <= i < |env.geoTz(lat, lon)| ==> env.zones.isValid(env.geoTz(lat, lon)[i])
    ensures LookupTimeZone(env, q, referenceDate).Results?
    ensures Ids(LookupTimeZone(env, q, referenceDate).results) == env.geoTz(lat, lon)
  {
    var zones := env.geoTz(lat, lon);
    AllValidPrefix(env, zones, referenceDate, "Coordinate Lookup");
  }

  /** Country alone: one record per distinct zone name of the country, each
      once, in first-occurrence order, when every such zone is valid. */
  lemma CountryOnePerDistinctZone(env: Providers, q: Query, referenceDate: string, code: string)
    requires !Given(q.ip) && !Given(q.lat) && !Given(q.city) && Given(q.country)
    requires CountryCodeOf(env, q.country.value) == Some(code)
    requires forall x :: x in CountryZoneNames(env.catalog, code) ==> env.zones.isValid(x)
    ensures var ids := Ids(Collect(env, q, referenceDate).results);
      && ids == Dedup(CountryZoneNames(env.catalog, code), {})
      && (forall x :: x in ids <==> exists i :: 0 <= i < |env.catalog| && env.catalog[i].countryCode == code && env.catalog[i].name == x)
      && (forall i, j :: 0 <= i < j < |ids| ==> ids[i] != ids[j])
  {
    var names := Dedup(CountryZoneNames(env.catalog, code), {});
    var rs := MetadataPrefix(env, names, referenceDate, "Country Lookup");
    assert Collect(env, q, referenceDate).results == rs;
    AllValidPrefix(env, names, referenceDate, "Country Lookup");
  }

  /** When every id is valid the loop pushes a record for each. */
  lemma AllValidPrefix(env: Providers, ids: seq<string>, referenceDate: string, foundBy: string)
    requires forall x :: x in ids ==> env.zones.isValid(x)
    ensures Ids(MetadataPrefix(env, ids, referenceDate, foundBy)) == ids
  {
  }
}

=== FILE: timezone_service.dfy ===
/** `getCurrentTime` and `lookupTimeZone`: the fallback chain IP, then
    coordinates, then city and country, then city, then country. Every
    external service is a field of `Providers`; each call the chain makes is
    recorded in the order it is made, so which services were consulted is
    part of the outcome. */
module TimeZoneService {
  import opened Wrappers
  import opened Strings
  import IpUtils
  import CountryCodeMapper
  import TimeUtils
  import opened PlaceRanker

  /** The query parameters, each a string that may be absent. */
  datatype Query = Query(city: Option<string>, country: Option<string>, lat: Option<string>, lon: Option<string>, ip: Option<string>)

  /** JavaScript truthiness of an optional string: present and non-empty. */
  predicate Given(v: Option<string>) { v.Some? && v.value != "" }

  /** The three GeoNames searches the chain issues. */
  datatype GeoQuery =
    | CityInCountry(nameEquals: string, countryCode: string)
    | CityOnly(nameEquals: string)
    | CountryOnly(countryCode: string)

  /** `data.totalResultsCount` and `data.geonames`. */
  datatype GeoResponse = GeoResponse(totalResultsCount: int, places: seq<Place>)

  /** The external services. `maxmind` is absent without credentials and
      answers `timeZone` of a city lookup, `None` when the lookup throws or has
      no zone; `parseFloat` gives `None` for NaN; `geoNames` gives `None` when
      the request fails. */
  datatype Providers = Providers(
    maxmind: Option<string -> Option<string>>,
    parseFloat: string -> Option<real>,
    geoTz: (real, real) -> seq<string>,
    geoNames: GeoQuery -> Option<GeoResponse>,
    countries: map<string, string>,
    catalog: seq<TimeUtils.TzEntry>,
    zones: TimeUtils.ZoneLib)

  datatype Call = MaxMindCall(ip: string) | GeoTzCall(lat: real, lon: real) | GeoNamesCall(query: GeoQuery)

  const PrivateIpWarning: string := "IP address is private/reserved and cannot be geolocated."
  const InvalidCoordinates: string := "Invalid coordinates"
  const WatersWarning: string := "Coordinates are in international waters; time zone defaulted to UTC (GMT+00:00)."
  const InvalidCountry: string := "Invalid country name"
  const CityNotFound: string := "City not found or is too small to be indexed."
  const NoZoneWarning: string := "Could not determine timezone from provided parameters; defaulted to UTC."
  const InvalidIdWarning: string := "Invalid IANA timezone ID; defaulted to UTC."
  const WatersZone: string := "Etc/GMT"
  const DefaultZone: string := "UTC"

  /** `s.replace(/-/g, ' ')`, applied to city and country names. */
  function Spaced(s: string): (r: string)
    ensures |r| == |s| && '-' !in r
  {
    ReplaceChar(s, '-', ' ')
  }

  /** The name of the place, as `getCountryCode` looks it up after the dashes are spaced. */
  function CountryCodeOf(env: Providers, country: string): Option<string>
  {
    CountryCodeMapper.GetCountryCode(env.countries, Spaced(country))
  }

  /** `latNum` and `lonNum` when both parse and lie in [-90, 90] and [-180, 180]. */
  function Coordinates(env: Providers, lat: string, lon: string): (r: Option<(real, real)>)
    ensures r.Some? ==> -90.0 <= r.value.0 <= 90.0 && -180.0 <= r.value.1 <= 180.0
    ensures r.Some? <==> (env.parseFloat(lat).Some? && env.parseFloat(lon).Some? &&
      -90.0 <= env.parseFloat(lat).value <= 90.0 && -180.0 <= env.parseFloat(lon).value <= 180.0)
  {
    match (env.parseFloat(lat), env.parseFloat(lon))
    case (Some(a), Some(b)) => if -90.0 <= a <= 90.0 && -180.0 <= b <= 180.0 then Some((a, b)) else None
    case _ => None
  }

  // ------------------------------------------------------------ getCurrentTime

  /** The variables `ianaZoneId`, `source` and `warning` (`""` standing for a
      falsy zone), with the calls made so far. */
  datatype State = State(zone: string, source: string, warning: Option<string>, calls: seq<Call>)

  predicate Found(s: State) { s.zone != "" }

  const Start: State := State("", "", None, [])

  /** Step 1: a private address only sets the warning; without credentials
      nothing happens; otherwise MaxMind is asked. */
  function IpStep(env: Providers, q: Query, s: State): (r: State)
    ensures !Given(q.ip) || Found(s) ==> r == s
    ensures r.calls == s.calls || (Given(q.ip) && r.calls == s.calls + [MaxMindCall(q.ip.value)])
    ensures Given(q.ip) && IpUtils.IsPrivateIp(q.ip.value) && !Found(s) ==> r == s.(warning := Some(PrivateIpWarning))
    ensures Given(q.ip) && !IpUtils.IsPrivateIp(q.ip.value) && !Found(s) && env.maxmind.None? ==> r == s
    ensures Given(q.ip) && !IpUtils.IsPrivateIp(q.ip.value) && !Found(s) && env.maxmind.Some? ==>
      var answer := env.maxmind.value(q.ip.value);
      && r.calls == s.calls + [MaxMindCall(q.ip.value)] && r.warning == s.warning
      && (answer.Some? && answer.value != "" ==> r.zone == answer.value && r.source == "IP Geolocation (MaxMind)")
      && (answer.None? || answer.value == "" ==> r.zone == s.zone && r.source == s.source)
  {
    if !Given(q.ip) || Found(s) then s
    else
      var ip := q.ip.value;
      if IpUtils.IsPrivateIp(ip) then s.(warning := Some(PrivateIpWarning))
      else match env.maxmind
        case None => s
        case Some(city) =>
          var s1 := s.(calls := s.calls + [MaxMindCall(ip)]);
          match city(ip)
          case Some(z) => if z != "" then s1.(zone := z, source := "IP Geolocation (MaxMind)") else s1
          case None => s1
  }

  /** Step 2: invalid coordinates only set the warning; otherwise the first
      geo-tz zone, or `Etc/GMT` with the international-waters warning. */
  function CoordinateStep(env: Providers, q: Query, s: State): (r: State)
    ensures !(Given(q.lat) && Given(q.lon)) || Found(s) ==> r == s
    ensures r.calls == s.calls || exists lat: real, lon: real :: r.calls == s.calls + [GeoTzCall(lat, lon)]
    ensures Given(q.lat) && Given(q.lon) && !Found(s) && Coordinates(env, q.lat.value, q.lon.value).None? ==>
      r == s.(warning := Some(InvalidCoordinates))
    ensures Given(q.lat) && Given(q.lon) && !Found(s) && Coordinates(env, q.lat.value, q.lon.value).Some? ==>
      var (lat, lon) := Coordinates(env, q.lat.value, q.lon.value).value;
      var zones := env.geoTz(lat, lon);
      && r.calls == s.calls + [GeoTzCall(lat, lon)]
      && (|zones| > 0 ==> r.zone == zones[0] && r.source == "Coordinate Lookup (geo-tz)" && r.warning == s.warning)
      && (|zones| == 0 ==> r.zone == WatersZone && r.source == "Coordinate Lookup (Default)" && r.warning == Some(WatersWarning))
  {
    if !(Given(q.lat) && Given(q.lon)) || Found(s) then s
    else match Coordinates(env, q.lat.value, q.lon.value)
      case None => s.(warning := Some(InvalidCoordinates))
      case Some((lat, lon)) =>
        var zones := env.geoTz(lat, lon);
        var s1 := s.(calls := s.calls + [GeoTzCall(lat, lon)]);
        if |zones| > 0 then s1.(zone := zones[0], source := "Coordinate Lookup (geo-tz)")
        else s1.(zone := WatersZone, source := "Coordinate Lookup (Default)", warning := Some(WatersWarning))
  }

  /** Step 3: an unmapped country sets the warning; otherwise the best-scored
      place of the search by city and country. */
  function CityCountryStep(env: Providers, q: Query, s: State): (r: State)
    ensures !(Given(q.city) && Given(q.country)) || Found(s) ==> r == s
    ensures Given(q.city) && Given(q.country) && !Found(s) && CountryCodeOf(env, q.country.value).None? ==>
      r == s.(warning := Some(InvalidCountry))
    ensures r.calls == s.calls || exists code :: r.calls == s.calls + [GeoNamesCall(CityInCountry(Spaced(q.city.value), code))]
    ensures Given(q.city) && Given(q.country) && !Found(s) && CountryCodeOf(env, q.country.value).Some? ==>
      var query := CityInCountry(Spaced(q.city.value), CountryCodeOf(env, q.country.value).value);
      var resp := env.geoNames(query);
      && r.calls == s.calls + [GeoNamesCall(query)] && r.warning == s.warning
      && (resp.Some? && resp.value.totalResultsCount > 0 && |resp.value.places| > 0 ==>
            r.zone == TopPlace(resp.value.places).timeZoneId && r.source == "GeoNames API (City/Country Lookup)")
      && (!(resp.Some? && resp.value.totalResultsCount > 0 && |resp.value.places| > 0) ==> r.zone == s.zone)
  {
    if !(Given(q.city) && Given(q.country)) || Found(s) then s
    else match CountryCodeOf(env, q.country.value)
      case None => s.(warning := Some(InvalidCountry))
      case Some(code) =>
        var query := CityInCountry(Spaced(q.city.value), code);
        var s1 := s.(calls := s.calls + [GeoNamesCall(query)]);
        match env.geoNames(query)
        case None => s1
        case Some(resp) =>
          if resp.totalResultsCount > 0 && |resp.places| > 0 then
            s1.(zone := TopPlace(resp.places).timeZoneId, source := "GeoNames API (City/Country Lookup)")
          else s1
  }

  /** Step 4: the most populous place of the search by city; an empty answer sets the warning. */
  function CityStep(env: Providers, q: Query, s: State): (r: State)
    ensures !Given(q.city) || Found(s) ==> r == s
    ensures r.calls == s.calls || r.calls == s.calls + [GeoNamesCall(CityOnly(Spaced(q.city.value)))]
    ensures Given(q.city) && !Found(s) ==>
      var resp := env.geoNames(CityOnly(Spaced(q.city.value)));
      && r.calls == s.calls + [GeoNamesCall(CityOnly(Spaced(q.city.value)))]
      && (resp.Some? && resp.value.totalResultsCount > 0 && |resp.value.places| > 0 ==>
            r.zone == resp.value.places[0].timeZoneId && r.source == "GeoNames API (City Lookup)" && r.warning == s.warning)
      && (resp.Some? && resp.value.totalResultsCount <= 0 ==> r.zone == s.zone && r.warning == Some(CityNotFound))
      && (resp.Some? && resp.value.totalResultsCount > 0 && |resp.value.places| == 0 ==>
            r == s.(calls := s.calls + [GeoNamesCall(CityOnly(Spaced(q.city.value)))]))
      && (resp.None? ==> r.zone == s.zone && r.warning == s.warning)
  {
    if !Given(q.city) || Found(s) then s
    else
      var query := CityOnly(Spaced(q.city.value));
      var s1 := s.(calls := s.calls + [GeoNamesCall(query)]);
      match env.geoNames(query)
      case None => s1
      case Some(resp) =>
        if resp.totalResultsCount > 0 then
          if |resp.places| > 0 then s1.(zone := resp.places[0].timeZoneId, source := "GeoNames API (City Lookup)")
          else s1
        else s1.(warning := Some(CityNotFound))
  }

  /** Step 5: the most populous place of the country; an unmapped country
      quietly yields nothing. */
  function CountryStep(env: Providers, q: Query, s: State): (r: State)
    ensures !Given(q.country) || Found(s) ==> r == s
    ensures CountryCodeOf(env, q.country.GetOr("")).None? ==> r == s
    ensures r.warning == s.warning
    ensures r.calls == s.calls || exists code :: r.calls == s.calls + [GeoNamesCall(CountryOnly(code))]
    ensures Given(q.country) && !Found(s) && CountryCodeOf(env, q.country.value).Some? ==>
      var query := CountryOnly(CountryCodeOf(env, q.country.value).value);
      var resp := env.geoNames(query);
      && r.calls == s.calls + [GeoNamesCall(query)]
      && (resp.Some? && resp.value.totalResultsCount > 0 && |resp.value.places| > 0 ==>
            r.zone == resp.value.places[0].timeZoneId && r.source == "GeoNames API (Country Lookup)")
      && (!(resp.Some? && resp.value.totalResultsCount > 0 && |resp.value.places| > 0) ==> r.zone == s.zone)
  {
    if !Given(q.country) || Found(s) then s
    else match CountryCodeOf(env, q.country.value)
      case None => s
      case Some(code) =>
        var query := CountryOnly(code);
        var s1 := s.(calls := s.calls + [GeoNamesCall(query)]);
        match env.geoNames(query)
        case None => s1
        case Some(resp) =>
          if resp.totalResultsCount > 0 && |resp.places| > 0 then
            s1.(zone := resp.places[0].timeZoneId, source := "GeoNames API (Country Lookup)")
          else s1
  }

  /** The five steps in order. */
  function Chain(env: Providers, q: Query): State
  {
    CountryStep(env, q, CityStep(env, q, CityCountryStep(env, q, CoordinateStep(env, q, IpStep(env, q, Start)))))
  }

  /** The two defaults: no zone gives `UTC`, an invalid one `UTC` too; each
      adds its warning only when there is none yet. */
  function Finish(env: Providers, s: State): (r: State)
    ensures r.calls == s.calls
    ensures s.warning.Some? ==> r.warning == s.warning
    ensures !Found(s) ==> r.warning.Some?
    ensures env.zones.isValid(DefaultZone) ==> env.zones.isValid(r.zone)
    ensures Found(s) && env.zones.isValid(s.zone) ==> r.zone == s.zone && r.source == s.source
    ensures !Found(s) ==> r.zone == DefaultZone
  {
    var s1 := if Found(s) then s
              else State(DefaultZone, "Default", Some(s.warning.GetOr(NoZoneWarning)), s.calls);
    if env.zones.isValid(s1.zone) then s1
    else State(DefaultZone, "Default (Invalid IANA ID)", Some(s1.warning.GetOr(InvalidIdWarning)), s1.calls)
  }

  /** What `getCurrentTime` reports about the zone; the clock readings are
      the date library's and are not modelled. */
  datatype CurrentTime = CurrentTime(ianaId: string, longName: string, source: string, warning: Option<string>, calls: seq<Call>)

  function GetCurrentTime(env: Providers, q: Query): (r: CurrentTime)
    ensures env.zones.isValid(DefaultZone) ==> env.zones.isValid(r.ianaId)
    ensures r.longName == TimeUtils.LongName(env.catalog, r.ianaId)
  {
    var s := Finish(env, Chain(env, q));
    CurrentTime(s.zone, TimeUtils.LongName(env.catalog, s.zone), s.source, s.warning, s.calls)
  }

  // --------------------------------------------------- properties of the chain

  /** Position of a provider call in the chain. */
  function Rank(c: Call): nat
  {
    match c
    case MaxMindCall(_) => 1
    case GeoTzCall(_, _) => 2
    case GeoNamesCall(CityInCountry(_, _)) => 3
    case GeoNamesCall(CityOnly(_)) => 4
    case GeoNamesCall(CountryOnly(_)) => 5
  }

  /** `b` is `a`, or `a` with one call of rank `k` appended. */
  predicate Extends(a: seq<Call>, b: seq<Call>, k: nat)
  {
    b == a || (|b| == |a| + 1 && b[..|a|] == a && Rank(b[|a|]) == k)
  }

  /** Calls of strictly increasing rank, all below `k`. */
  predicate OrderedBelow(calls: seq<Call>, k: nat)
  {
    && (forall i, j :: 0 <= i < j < |calls| ==> Rank(calls[i]) < Rank(calls[j]))
    && (forall i :: 0 <= i < |calls| ==> Rank(calls[i]) < k)
  }

  lemma ExtendsOrdered(a: seq<Call>, b: seq<Call>, k: nat)
    requires OrderedBelow(a, k) && Extends(a, b, k)
    ensures OrderedBelow(b, k + 1)
  {
    if b != a {
      assert forall i :: 0 <= i < |a| ==> b[i] == a[i];
    }
  }

  /** Each step adds at most one call, of its own rank. */
  lemma IpExtends(env: Providers, q: Query, s: State)
    ensures Extends(s.calls, IpStep(env, q, s).calls, 1)
  {
  }

  lemma CityExtends(env: Providers, q: Query, s: State)
    ensures Extends(s.calls, CityStep(env, q, s).calls, 4)
  {
  }

  lemma CoordinateExtends(env: Providers, q: Query, s: State)
    ensures Extends(s.calls, CoordinateStep(env, q, s).calls, 2)
  {
    var r := CoordinateStep(env, q, s);
    if r.calls != s.calls {
      var lat: real, lon: real :| r.calls == s.calls + [GeoTzCall(lat, lon)];
    }
  }

  lemma CityCountryExtends(env: Providers, q: Query, s: State)
    ensures Extends(s.calls, CityCountryStep(env, q, s).calls, 3)
  {
    var r := CityCountryStep(env, q, s);
    if r.calls != s.calls {
      var code :| r.calls == s.calls + [GeoNamesCall(CityInCountry(Spaced(q.city.value), code))];
    }
  }

  lemma CountryExtends(env: Providers, q: Query, s: State)
    ensures Extends(s.calls, CountryStep(env, q, s).calls, 5)
  {
    var r := CountryStep(env, q, s);
    if r.calls != s.calls {
      var code :| r.calls == s.calls + [GeoNamesCall(CountryOnly(code))];
    }
  }

  /** Every call has a rank in `ks`. */
  predicate RanksIn(calls: seq<Call>, ks: set<nat>)
  {
    forall i :: 0 <= i < |calls| ==> Rank(calls[i]) in ks
  }

  lemma ExtendsRanks(a: seq<Call>, b: seq<Call>, k: nat, ks: set<nat>)
    requires RanksIn(a, ks) && Extends(a, b, k) && (b != a ==> k in ks)
    ensures RanksIn(b, ks)
  {
    if b != a {
      assert forall i :: 0 <= i < |a| ==> b[i] == a[i];
    }
  }

  /** The rank of each call, read back from the call list. */
  lemma RankOfMember(calls: seq<Call>, ks: set<nat>, c: Call)
    requires RanksIn(calls, ks) && c in calls
    ensures Rank(c) in ks
  {
    var i :| 0 <= i < |calls| && calls[i] == c;
  }

  /** The providers are consulted in chain order (MaxMind, geo-tz, GeoNames by
      city and country, by city, by country), each at most once. */
  lemma ChainCallsOrdered(env: Providers, q: Query)
    ensures OrderedBelow(GetCurrentTime(env, q).calls, 6)
  {
    var s1 := IpStep(env, q, Start);
    var s2 := CoordinateStep(env, q, s1);
    var s3 := CityCountryStep(env, q, s2);
    var s4 := CityStep(env, q, s3);
    IpExtends(env, q, Start);
    CoordinateExtends(env, q, s1);
    CityCountryExtends(env, q, s2);
    CityExtends(env, q, s3);
    CountryExtends(env, q, s4);
    ExtendsOrdered(Start.calls, s1.calls, 1);
    ExtendsOrdered(s1.calls, s2.calls, 2);
    ExtendsOrdered(s2.calls, s3.calls, 3);
    ExtendsOrdered(s3.calls, s4.calls, 4);
    ExtendsOrdered(s4.calls, Chain(env, q).calls, 5);
  }

  /** Once a step has found a zone, every later step leaves the state alone. */
  lemma FoundStopsChain(env: Providers, q: Query, s: State)
    requires Found(s)
    ensures CoordinateStep(env, q, s) == s
    ensures CityCountryStep(env, q, s) == s
    ensures CityStep(env, q, s) == s
    ensures CountryStep(env, q, s) == s
  {
  }

  /** So the zone comes from the first step that finds one: if the IP step
      does, no other provider is asked and its zone is kept when valid. */
  lemma IpWins(env: Providers, q: Query)
    requires Found(IpStep(env, q, Start))
    ensures var z := IpStep(env, q, Start).zone;
      && Chain(env, q) == IpStep(env, q, Start)
      && (env.zones.isValid(z) ==> GetCurrentTime(env, q).ianaId == z)
      && GetCurrentTime(env, q).calls == [MaxMindCall(q.ip.value)]
  {
    FoundStopsChain(env, q, IpStep(env, q, Start));
  }

  /** If the coordinate step is the first to find a zone, the GeoNames searches never run. */
  lemma CoordinatesWin(env: Providers, q: Query)
    requires !Found(IpStep(env, q, Start))
    requires Found(CoordinateStep(env, q, IpStep(env, q, Start)))
    ensures Chain(env, q) == CoordinateStep(env, q, IpStep(env, q, Start))
    ensures forall c :: c in GetCurrentTime(env, q).calls ==> !c.GeoNamesCall?
  {
    var s1 := IpStep(env, q, Start);
    var s2 := CoordinateStep(env, q, s1);
    FoundStopsChain(env, q, s2);
    var ks := {1, 2};
    IpExtends(env, q, Start);
    CoordinateExtends(env, q, s1);
    ExtendsRanks(Start.calls, s1.calls, 1, ks);
    ExtendsRanks(s1.calls, s2.calls, 2, ks);
    forall c | c in s2.calls
      ensures !c.GeoNamesCall?
    {
      RankOfMember(s2.calls, ks, c);
    }
  }

  /** A private or reserved address never reaches MaxMind. */
  lemma PrivateIpNeverQueried(env: Providers, q: Query)
    requires Given(q.ip) && IpUtils.IsPrivateIp(q.ip.value)
    ensures forall c :: c in GetCurrentTime(env, q).calls ==> !c.MaxMindCall?
    ensures IpStep(env, q, Start).warning == Some(PrivateIpWarning)
  {
    var calls := Chain(env, q).calls;
    PrivateIpRanks(env, q);
    forall c | c in calls
      ensures !c.MaxMindCall?
    {
      RankOfMember(calls, {2, 3, 4, 5}, c);
    }
  }

  lemma PrivateIpRanks(env: Providers, q: Query)
    requires Given(q.ip) && IpUtils.IsPrivateIp(q.ip.value)
    ensures RanksIn(Chain(env, q).calls, {2, 3, 4, 5})
  {
    var s1 := IpStep(env, q, Start);
    var s2 := CoordinateStep(env, q, s1);
    var s3 := CityCountryStep(env, q, s2);
    var s4 := CityStep(env, q, s3);
    var ks := {2, 3, 4, 5};
    assert s1.calls == [];
    CoordinateExtends(env, q, s1);
    CityCountryExtends(env, q, s2);
    CityExtends(env, q, s3);
    CountryExtends(env, q, s4);
    ExtendsRanks(s1.calls, s2.calls, 2, ks);
    ExtendsRanks(s2.calls, s3.calls, 3, ks);
    ExtendsRanks(s3.calls, s4.calls, 4, ks);
    ExtendsRanks(s4.calls, Chain(env, q).calls, 5, ks);
  }

  /** Without credentials a public address yields nothing and MaxMind is not called. */
  lemma NoCredentialsNoZone(env: Providers, q: Query)
    requires env.maxmind.None?
    ensures IpStep(env, q, Start).zone == "" && IpStep(env, q, Start).calls == []
  {
  }

  /** A country name with no code skips both country-based searches. */
  lemma UnmappedCountrySkipsBoth(env: Providers, q: Query)
    requires Given(q.country) && CountryCodeOf(env, q.country.value).None?
    ensures forall c :: c in GetCurrentTime(env, q).calls ==>
      !(c.GeoNamesCall? && (c.query.CityInCountry? || c.query.CountryOnly?))
  {
    var calls := Chain(env, q).calls;
    UnmappedCountryRanks(env, q);
    forall c | c in calls
      ensures !(c.GeoNamesCall? && (c.query.CityInCountry? || c.query.CountryOnly?))
    {
      RankOfMember(calls, {1, 2, 4}, c);
    }
  }

  lemma UnmappedCountryRanks(env: Providers, q: Query)
    requires Given(q.country) && CountryCodeOf(env, q.country.value).None?
    ensures RanksIn(Chain(env, q).calls, {1, 2, 4})
  {
    var s1 := IpStep(env, q, Start);
    var s2 := CoordinateStep(env, q, s1);
    var s3 := CityCountryStep(env, q, s2);
    var s4 := CityStep(env, q, s3);
    var ks := {1, 2, 4};
    assert s3.calls == s2.calls;
    assert Chain(env, q).calls == s4.calls;
    IpExtends(env, q, Start);
    CoordinateExtends(env, q, s1);
    CityExtends(env, q, s3);
    ExtendsRanks(Start.calls, s1.calls, 1, ks);
    ExtendsRanks(s1.calls, s2.calls, 2, ks);
    ExtendsRanks(s3.calls, s4.calls, 4, ks);
  }

  /** The single `warning` variable keeps its last value: a private address
      followed by a coordinate hit reports the coordinate zone with the
      private-address warning still attached. */
  lemma StaleWarningSurvives(env: Providers, q: Query, lat: real, lon: real)
    requires Given(q.ip) && IpUtils.IsPrivateIp(q.ip.value)
    requires Given(q.lat) && Given(q.lon)
    requires Coordinates(env, q.lat.value, q.lon.value) == Some((lat, lon))
    requires |env.geoTz(lat, lon)| > 0 && env.geoTz(lat, lon)[0] != "" && env.zones.isValid(env.geoTz(lat, lon)[0])
    ensures GetCurrentTime(env, q).ianaId == env.geoTz(lat, lon)[0]
    ensures GetCurrentTime(env, q).source == "Coordinate Lookup (geo-tz)"
    ensures GetCurrentTime(env, q).warning == Some(PrivateIpWarning)
  {
    var s1 := IpStep(env, q, Start);
    var s2 := CoordinateStep(env, q, s1);
    FoundStopsChain(env, q, s2);
  }

  /** Coordinates with no zone (open sea) give `Etc/GMT` and the waters warning. */
  lemma WatersGivesEtcGmt(env: Providers, q: Query, lat: real, lon: real)
    requires !Given(q.ip) && Given(q.lat) && Given(q.lon)
    requires Coordinates(env, q.lat.value, q.lon.value) == Some((lat, lon)) && |env.geoTz(lat, lon)| == 0
    requires env.zones.isValid(WatersZone)
    ensures GetCurrentTime(env, q).ianaId == WatersZone
    ensures GetCurrentTime(env, q).source == "Coordinate Lookup (Default)"
    ensures GetCurrentTime(env, q).warning == Some(WatersWarning)
  {
    var s1 := IpStep(env, q, Start);
    var s2 := CoordinateStep(env, q, s1);
    FoundStopsChain(env, q, s2);
  }

  /** Invalid coordinates alone end in the `UTC` default, reporting the
      invalid-coordinates warning rather than the generic one. */
  lemma InvalidCoordinatesWarn(env: Providers, q: Query)
    requires !Given(q.ip) && !Given(q.city) && !Given(q.country) && Given(q.lat) && Given(q.lon)
    requires Coordinates(env, q.lat.value, q.lon.value).None?
    requires env.zones.isValid(DefaultZone)
    ensures GetCurrentTime(env, q).ianaId == DefaultZone
    ensures GetCurrentTime(env, q).warning == Some(InvalidCoordinates)
  {
  }

  /** With nothing found, the answer is `UTC` from the default, and the
      default warning appears only when no step left one. */
  lemma NothingFoundDefaults(env: Providers, q: Query)
    requires !Found(Chain(env, q)) && env.zones.isValid(DefaultZone)
    ensures GetCurrentTime(env, q).ianaId == DefaultZone
    ensures GetCurrentTime(env, q).source == "Default"
    ensures GetCurrentTime(env, q).warning == Some(Chain(env, q).warning.GetOr(NoZoneWarning))
  {
  }

  /** A found but invalid zone is replaced by `UTC`, keeping any warning. */
  lemma InvalidZoneDefaults(env: Providers, q: Query)
    requires Found(Chain(env, q)) && !env.zones.isValid(Chain(env, q).zone)
    ensures GetCurrentTime(env, q).ianaId == DefaultZone
    ensures GetCurrentTime(env, q).source == "Default (Invalid IANA ID)"
    ensures GetCurrentTime(env, q).warning == Some(Chain(env, q).warning.GetOr(InvalidIdWarning))
  {
  }
}

=== FILE: url_shortener_model.dfy ===
/** The `urls` table and the four queries the model class runs against it.
    The table is a map from the SERIAL primary key to the row, plus the
    sequence's next value; `CURRENT_TIMESTAMP` is the `now` parameter. */
module UrlShortenerModel {
  import opened Wrappers
  import Base62

  /** A timestamp (milliseconds since the epoch). */
  type Time = int

  datatype Row = Row(
    id: nat,
    shortId: string,
    originalUrl: string,
    clicks: nat,
    createdAt: Time,
    expiresAt: Option<Time>,
    lastAccessed: Option<Time>)

  datatype Table = Table(rows: map<nat, Row>, nextId: nat)

  /** The freshly created table: no rows, and the SERIAL sequence starts at 1. */
  const EmptyTable: Table := Table(map[], 1)

  /** What every table built by `Create` satisfies: keys come from the
      sequence, each row carries its own key, and its short id encodes that key. */
  predicate Valid(t: Table)
  {
    && t.nextId >= 1
    && forall id :: id in t.rows ==>
         1 <= id < t.nextId && t.rows[id].id == id && t.rows[id].shortId == Base62.Encode(id)
  }

  /** The UNIQUE constraint on `short_id`. */
  predicate UniqueShortIds(t: Table)
  {
    forall a, b :: a in t.rows && b in t.rows && t.rows[a].shortId == t.rows[b].shortId ==> a == b
  }

  /** Distinct rows have distinct short ids, because distinct ids encode distinctly. */
  lemma ValidUnique(t: Table)
    requires Valid(t)
    ensures UniqueShortIds(t)
  {
    forall a, b | a in t.rows && b in t.rows && t.rows[a].shortId == t.rows[b].shortId
      ensures a == b
    {
      Base62.EncodeInjective(a, b);
    }
  }

  /** `create`: inserts a row under the next SERIAL id, with zero clicks, no
      last access and `created_at` now, and gives it the short id `encode(id)`. */
  function Create(t: Table, originalUrl: string, expiresAt: Option<Time>, now: Time): (res: (Table, Row))
    ensures var (t', row) := res;
      && row.id == t.nextId
      && row.shortId == Base62.Encode(row.id)
      && row.originalUrl == originalUrl && row.expiresAt == expiresAt
      && row.clicks == 0 && row.lastAccessed == None && row.createdAt == now
      && t'.nextId == t.nextId + 1
      && row.id in t'.rows && t'.rows[row.id] == row
      && t'.rows.Keys == t.rows.Keys + {row.id}
      && (forall k :: k in t.rows && k != row.id ==> t'.rows[k] == t.rows[k])
    ensures Valid(t) ==> Valid(res.0) && res.1.id !in t.rows
  {
    var id := t.nextId;
    var row := Row(id, Base62.Encode(id), originalUrl, 0, now, expiresAt, None);
    (Table(t.rows[id := row], id + 1), row)
  }

  /** Creating a row keeps all short ids distinct. */
  lemma CreateKeepsUnique(t: Table, originalUrl: string, expiresAt: Option<Time>, now: Time)
    requires Valid(t)
    ensures UniqueShortIds(Create(t, originalUrl, expiresAt, now).0)
  {
    ValidUnique(Create(t, originalUrl, expiresAt, now).0);
  }

  /** The smallest key at or above `from` (and below the sequence value) whose row has short id `sid`. */
  function FindKeyFrom(t: Table, sid: string, from: nat): (r: Option<nat>)
    ensures r.Some? ==> from <= r.value < t.nextId && r.value in t.rows && t.rows[r.value].shortId == sid
    ensures r.None? ==> forall k :: from <= k < t.nextId && k in t.rows ==> t.rows[k].shortId != sid
    decreases t.nextId - from
  {
    if from >= t.nextId then None
    else if from in t.rows && t.rows[from].shortId == sid then Some(from)
    else FindKeyFrom(t, sid, from + 1)
  }

  /** `findByShortId`: `SELECT * FROM urls WHERE short_id = $1`, first row or null. */
  function FindByShortId(t: Table, sid: string): (r: Option<Row>)
    ensures r.Some? ==> r.value.shortId == sid && r.value in t.rows.Values
    ensures Valid(t) ==> (r.None? <==> forall k :: k in t.rows ==> t.rows[k].shortId != sid)
    ensures Valid(t) && r.Some? ==> r.value.id in t.rows && t.rows[r.value.id] == r.value
  {
    match FindKeyFrom(t, sid, 0)
    case Some(k) => Some(t.rows[k])
    case None => None
  }

  /** The row an access turns `row` into. */
  function Touch(row: Row, now: Time): Row
  {
    row.(clicks := row.clicks + 1, lastAccessed := Some(now))
  }

  /** The table after `UPDATE urls SET clicks = clicks + 1, last_accessed = now WHERE short_id = sid`. */
  function TouchMatching(t: Table, sid: string, now: Time): (t': Table)
    ensures t'.nextId == t.nextId && t'.rows.Keys == t.rows.Keys
    ensures forall k :: k in t.rows && t.rows[k].shortId == sid ==>
      && t'.rows[k].clicks == t.rows[k].clicks + 1
      && t'.rows[k].lastAccessed == Some(now)
      && t'.rows[k] == t.rows[k].(clicks := t'.rows[k].clicks, lastAccessed := Some(now))
    ensures forall k :: k in t.rows && t.rows[k].shortId != sid ==> t'.rows[k] == t.rows[k]
  {
    Table(map k | k in t.rows :: if t.rows[k].shortId == sid then Touch(t.rows[k], now) else t.rows[k], t.nextId)
  }

  lemma TouchMatchingValid(t: Table, sid: string, now: Time)
    requires Valid(t)
    ensures Valid(TouchMatching(t, sid, now))
    ensures forall k :: k in t.rows ==> TouchMatching(t, sid, now).rows[k].shortId == t.rows[k].shortId
  {
  }

  datatype ClickStats = ClickStats(clicks: nat, lastAccessed: Option<Time>)

  /** `incrementClicks`: `clicks = clicks + 1, last_accessed = CURRENT_TIMESTAMP`
      on the rows whose short id is `sid`, returning the first updated row's
      counters (undefined, here `None`, when nothing matched). */
  function IncrementClicks(t: Table, sid: string, now: Time): (res: (Table, Option<ClickStats>))
    ensures res.0 == TouchMatching(t, sid, now)
    ensures Valid(t) ==> Valid(res.0)
    ensures Valid(t) ==> (res.1.Some? <==> exists k :: k in t.rows && t.rows[k].shortId == sid)
    ensures res.1.Some? ==> res.1.value.lastAccessed == Some(now)
    ensures Valid(t) ==> forall k :: k in t.rows && t.rows[k].shortId == sid ==>
      res.1 == Some(ClickStats(t.rows[k].clicks + 1, Some(now)))
  {
    var t' := TouchMatching(t, sid, now);
    NewCountReturned(t, sid, now);
    if Valid(t) then TouchMatchingValid(t, sid, now); (t', Stats(t', sid)) else (t', Stats(t', sid))
  }

  /** RETURNING reads the updated row: the matching row's new count and access time. */
  lemma NewCountReturned(t: Table, sid: string, now: Time)
    ensures Valid(t) ==> forall k :: k in t.rows && t.rows[k].shortId == sid ==>
      Stats(TouchMatching(t, sid, now), sid) == Some(ClickStats(t.rows[k].clicks + 1, Some(now)))
  {
    if Valid(t) {
      var t' := TouchMatching(t, sid, now);
      TouchMatchingValid(t, sid, now);
      forall k | k in t.rows && t.rows[k].shortId == sid
        ensures Stats(t', sid) == Some(ClickStats(t.rows[k].clicks + 1, Some(now)))
      {
        StatsOfRow(t', sid, k);
      }
    }
  }

  /** In a valid table the counters returned for `sid` are those of its one row. */
  lemma StatsOfRow(t: Table, sid: string, k: nat)
    requires Valid(t) && k in t.rows && t.rows[k].shortId == sid
    ensures Stats(t, sid) == Some(ClickStats(t.rows[k].clicks, t.rows[k].lastAccessed))
  {
    ValidUnique(t);
    var row := FindByShortId(t, sid).value;
    assert t.rows[row.id].shortId == t.rows[k].shortId;
  }

  /** The counters of the first row with short id `sid` (RETURNING `clicks, last_accessed`). */
  function Stats(t: Table, sid: string): (r: Option<ClickStats>)
    ensures r.Some? ==> exists k :: (k in t.rows && t.rows[k].shortId == sid &&
      r.value == ClickStats(t.rows[k].clicks, t.rows[k].lastAccessed))
    ensures Valid(t) ==> (r.None? <==> forall k :: k in t.rows ==> t.rows[k].shortId != sid)
  {
    match FindByShortId(t, sid)
    case Some(row) => Some(ClickStats(row.clicks, row.lastAccessed))
    case None => None
  }

  datatype Analytics = Analytics(clicks: nat, lastAccessed: Option<Time>, createdAt: Time, expiresAt: Option<Time>)

  /** `getAnalytics`: the counters and timestamps of the row with short id `sid`, or null. */
  function GetAnalytics(t: Table, sid: string): (r: Option<Analytics>)
    ensures Valid(t) ==> (r.None? <==> forall k :: k in t.rows ==> t.rows[k].shortId != sid)
    ensures r.Some? ==> exists k :: (k in t.rows && t.rows[k].shortId == sid &&
      r.value == Analytics(t.rows[k].clicks, t.rows[k].lastAccessed, t.rows[k].createdAt, t.rows[k].expiresAt))
  {
    match FindByShortId(t, sid)
    case Some(row) => Some(Analytics(row.clicks, row.lastAccessed, row.createdAt, row.expiresAt))
    case None => None
  }

  // ------------------------------------------------ the placeholder short id

  /** The placeholder `create` inserts before it knows the id. */
  const Placeholder: string := "temp"

  /** The id whose encoding is the placeholder itself. */
  const PlaceholderId: nat := 6966717

  datatype DbError = UniqueViolation(column: string)

  /** `create` as the source writes it: the row is first inserted with
      `short_id = 'temp'` and only then updated to `encode(id)`. Under the
      UNIQUE constraint the insert fails while some row still holds `'temp'`;
      the SERIAL value is consumed either way. */
  function CreateAsWritten(t: Table, originalUrl: string, expiresAt: Option<Time>, now: Time): (res: (Table, Result<Row, DbError>))
    ensures res.0.nextId == t.nextId + 1
    ensures res.1.Failure? <==> exists k :: k in t.rows && t.rows[k].shortId == Placeholder
    ensures res.1.Success? ==> res == (Create(t, originalUrl, expiresAt, now).0, Success(Create(t, originalUrl, expiresAt, now).1))
  {
    if exists k :: k in t.rows && t.rows[k].shortId == Placeholder then
      (t.(nextId := t.nextId + 1), Failure(UniqueViolation("short_id")))
    else
      var (t', row) := Create(t, originalUrl, expiresAt, now);
      (t', Success(row))
  }

  lemma PlaceholderIsAnEncoding()
    ensures Base62.Encode(PlaceholderId) == Placeholder
  {
    var s := Placeholder;
    assert Base62.IsCanonical(s) by {
      assert forall i :: 0 <= i < |s| ==> Base62.IndexOf(s[i]) >= 0;
    }
    Base62.EncodeDecode(s);
    assert Base62.Decode(s) == PlaceholderId by {
      assert s[..3] == "tem" && s[..3][..2] == "te" && s[..3][..2][..1] == "t";
      assert Base62.Decode("t") == 29 by { assert "t"[..0] == ""; }
      assert Base62.Decode("te") == 1812;
      assert Base62.Decode("tem") == 112366;
    }
  }

  /** Counterexample: once the row with id 6966717 exists its short id is the
      placeholder, and from then on every `create` fails, the table keeping the
      offending row. */
  lemma CreateAsWrittenJams(t: Table, originalUrl: string, expiresAt: Option<Time>, now: Time)
    requires Valid(t) && t.nextId == PlaceholderId
    ensures var (t1, r1) := CreateAsWritten(t, originalUrl, expiresAt, now);
      && r1.Success? && r1.value.shortId == Placeholder
      && CreateAsWritten(t1, originalUrl, expiresAt, now).1.Failure?
  {
    PlaceholderIsAnEncoding();
    NoPlaceholderBelow(t);
    var c := Create(t, originalUrl, expiresAt, now);
    var r := CreateAsWritten(t, originalUrl, expiresAt, now);
    assert r == (c.0, Success(c.1));
    assert c.1.shortId == Placeholder;
    assert c.0.rows[t.nextId].shortId == Placeholder;
  }

  /** Before id 6966717 is reached no row holds the placeholder. */
  lemma NoPlaceholderBelow(t: Table)
    requires Valid(t) && t.nextId <= PlaceholderId
    ensures forall k :: k in t.rows ==> t.rows[k].shortId != Placeholder
  {
    PlaceholderIsAnEncoding();
    forall k | k in t.rows
      ensures t.rows[k].shortId != Placeholder
    {
      Base62.EncodeInjective(k, PlaceholderId);
    }
  }

  /** The jam is permanent: a failed `create` leaves the placeholder row in place. */
  lemma CreateAsWrittenStaysJammed(t: Table, originalUrl: string, expiresAt: Option<Time>, now: Time)
    requires exists k :: k in t.rows && t.rows[k].shortId == Placeholder
    ensures var (t1, r1) := CreateAsWritten(t, originalUrl, expiresAt, now);
      && r1.Failure?
      && t1.rows == t.rows
      && exists k :: k in t1.rows && t1.rows[k].shortId == Placeholder
  {
  }
}

=== FILE: url_shortener_service.dfy ===
/** The URL shortener service: shortening, analytics and redirect lookup on
    top of the `urls` table. The expiry instant is given already parsed, and
    the environment's `BASE_URL` and `V1_URL_MOUNT` are a `Config`. */
module UrlShortenerService {
  import opened Wrappers
  import opened UrlShortenerModel
  import Base62

  /** `process.env.BASE_URL` and `process.env.V1_URL_MOUNT`, each possibly unset. */
  datatype Config = Config(baseUrl: Option<string>, urlMount: Option<string>)

  const DefaultBaseUrl: string := "http://localhost:3000"

  /** How a template literal renders an unset variable. */
  const Undefined: string := "undefined"

  /** `BASE_URL || 'http://localhost:3000'`: an unset or empty base falls back. */
  function BaseUrl(cfg: Config): (b: string)
    ensures cfg.baseUrl.Some? && cfg.baseUrl.value != "" ==> b == cfg.baseUrl.value
    ensures cfg.baseUrl.None? || cfg.baseUrl.value == "" ==> b == DefaultBaseUrl
  {
    if cfg.baseUrl.Some? && cfg.baseUrl.value != "" then cfg.baseUrl.value else DefaultBaseUrl
  }

  /** `${base}/${mount}/${shortId}`. */
  function ShortUrl(cfg: Config, shortId: string): string
  {
    BaseUrl(cfg) + "/" + cfg.urlMount.GetOr(Undefined) + "/" + shortId
  }

  /** The short URL starts with the base URL and a slash, and the short id
      is its last path segment. */
  lemma ShortUrlEndsWithId(cfg: Config, shortId: string)
    ensures var u := ShortUrl(cfg, shortId); var b := BaseUrl(cfg);
      && |u| > |b| + |shortId| && u[..|b|] == b && u[|b|] == '/'
      && u[|u| - |shortId|..] == shortId && u[|u| - |shortId| - 1] == '/'
  {
    var u := ShortUrl(cfg, shortId);
    var b := BaseUrl(cfg);
    var prefix := b + "/" + cfg.urlMount.GetOr(Undefined) + "/";
    assert u == prefix + shortId;
    assert u[|u| - |shortId|..] == shortId;
    assert u[..|b|] == b;
  }

  datatype Shortened = Shortened(
    shortId: string,
    originalUrl: string,
    shortUrl: string,
    createdAt: Time,
    expiresAt: Option<Time>)

  /** `shortenUrl`: creates the row and describes it. */
  function ShortenUrl(t: Table, cfg: Config, originalUrl: string, expiresAt: Option<Time>, now: Time): (res: (Table, Shortened))
    ensures var (t', s) := res;
      && s.shortId == Base62.Encode(t.nextId)
      && s.originalUrl == originalUrl && s.expiresAt == expiresAt && s.createdAt == now
      && s.shortUrl == ShortUrl(cfg, s.shortId)
      && t' == Create(t, originalUrl, expiresAt, now).0
  {
    var (t', row) := Create(t, originalUrl, expiresAt, now);
    (t', Shortened(row.shortId, row.originalUrl, ShortUrl(cfg, row.shortId), row.createdAt, row.expiresAt))
  }

  /** `shortenUrl` over the `create` the model class actually runs: its
      UNIQUE violation is rethrown, and otherwise the answer is the one the
      corrected `create` gives. */
  function ShortenUrlAsWritten(t: Table, cfg: Config, originalUrl: string, expiresAt: Option<Time>, now: Time)
    : (res: (Table, Result<Shortened, DbError>))
    ensures res.1.Failure? <==> exists k :: k in t.rows && t.rows[k].shortId == Placeholder
    ensures res.1.Failure? ==> res.1.error == UniqueViolation("short_id") && res.0.rows == t.rows
    ensures res.1.Success? ==> res == (ShortenUrl(t, cfg, originalUrl, expiresAt, now).0, Success(ShortenUrl(t, cfg, originalUrl, expiresAt, now).1))
  {
    match CreateAsWritten(t, originalUrl, expiresAt, now)
    case (t', Failure(e)) => (t', Failure(e))
    case (t', Success(row)) =>
      (t', Success(Shortened(row.shortId, row.originalUrl, ShortUrl(cfg, row.shortId), row.createdAt, row.expiresAt)))
  }

  /** Until serial id 6966717 has been handed out the two agree. */
  lemma ShortenAsWrittenAgrees(t: Table, cfg: Config, originalUrl: string, expiresAt: Option<Time>, now: Time)
    requires Valid(t) && t.nextId <= PlaceholderId
    ensures ShortenUrlAsWritten(t, cfg, originalUrl, expiresAt, now) ==
      (ShortenUrl(t, cfg, originalUrl, expiresAt, now).0, Success(ShortenUrl(t, cfg, originalUrl, expiresAt, now).1))
  {
    NoPlaceholderBelow(t);
  }

  /** The `{ error, statusCode }` object the service returns instead of throwing. */
  datatype ServiceError = ServiceError(error: string, statusCode: nat)

  const NotFound: ServiceError := ServiceError("URL Not Found", 404)
  const Expired: ServiceError := ServiceError("URL Has Expired", 410)

  /** `expires_at && now > expires_at`: a link without expiry never expires,
      and a link is still live at its expiry instant. */
  predicate IsExpired(expiresAt: Option<Time>, now: Time)
  {
    expiresAt.Some? && now > expiresAt.value
  }

  datatype AnalyticsView = AnalyticsView(
    shortId: string,
    clicks: nat,
    createdAt: Time,
    lastAccessed: Option<Time>,
    expiresAt: Option<Time>,
    isExpired: bool)

  /** `getAnalytics`: the counters of the link, or 404; reading them changes nothing. */
  function GetAnalytics(t: Table, sid: string, now: Time): (r: Result<AnalyticsView, ServiceError>)
    ensures Valid(t) ==> (r.Failure? <==> forall k :: k in t.rows ==> t.rows[k].shortId != sid)
    ensures r.Failure? ==> r.error == NotFound
    ensures r.Success? ==> exists k :: (k in t.rows && t.rows[k].shortId == sid &&
      r.value == AnalyticsView(sid, t.rows[k].clicks, t.rows[k].createdAt, t.rows[k].lastAccessed,
                               t.rows[k].expiresAt, IsExpired(t.rows[k].expiresAt, now)))
  {
    match UrlShortenerModel.GetAnalytics(t, sid)
    case None => Failure(NotFound)
    case Some(a) => Success(AnalyticsView(sid, a.clicks, a.createdAt, a.lastAccessed, a.expiresAt, IsExpired(a.expiresAt, now)))
  }

  datatype Redirect = Redirect(originalUrl: string, shortId: string)

  /** `getOriginalUrl`: 404 for an unknown id, 410 for an expired link (the
      table untouched in both cases), otherwise the target, counting the visit. */
  function GetOriginalUrl(t: Table, sid: string, now: Time): (res: (Table, Result<Redirect, ServiceError>))
    ensures Valid(t) ==> Valid(res.0)
    ensures res.1.Failure? ==> res.0 == t
    ensures Valid(t) && (forall k :: k in t.rows ==> t.rows[k].shortId != sid) ==> res.1 == Failure(NotFound)
    ensures Valid(t) ==> forall k :: k in t.rows && t.rows[k].shortId == sid && IsExpired(t.rows[k].expiresAt, now) ==>
      res.1 == Failure(Expired)
    ensures res.1.Success? ==> exists k :: (k in t.rows && t.rows[k].shortId == sid &&
      !IsExpired(t.rows[k].expiresAt, now) &&
      res.1.value == Redirect(t.rows[k].originalUrl, sid) &&
      k in res.0.rows && res.0.rows[k].clicks == t.rows[k].clicks + 1 && res.0.rows[k].lastAccessed == Some(now))
    ensures res.1.Success? ==> res.0 == TouchMatching(t, sid, now)
    ensures Valid(t) ==> forall k :: k in t.rows && t.rows[k].shortId == sid && !IsExpired(t.rows[k].expiresAt, now) ==>
      res.1 == Success(Redirect(t.rows[k].originalUrl, sid)) && res.0 == TouchMatching(t, sid, now)
  {
    if Valid(t) then ValidUnique(t); Resolve(t, sid, now) else Resolve(t, sid, now)
  }

  function Resolve(t: Table, sid: string, now: Time): (Table, Result<Redirect, ServiceError>)
  {
    match FindByShortId(t, sid)
    case None => (t, Failure(NotFound))
    case Some(row) =>
      if IsExpired(row.expiresAt, now) then (t, Failure(Expired))
      else (IncrementClicks(t, sid, now).0, Success(Redirect(row.originalUrl, row.shortId)))
  }

  /** Round trip: a freshly shortened link resolves to its original URL at any
      instant it has not expired, and an expiry-less link at every instant. */
  lemma ShortenThenResolve(t: Table, cfg: Config, originalUrl: string, expiresAt: Option<Time>, now: Time, later: Time)
    requires Valid(t) && !IsExpired(expiresAt, later)
    ensures var (t1, s) := ShortenUrl(t, cfg, originalUrl, expiresAt, now);
      GetOriginalUrl(t1, s.shortId, later).1 == Success(Redirect(originalUrl, s.shortId))
  {
    var (t1, s) := ShortenUrl(t, cfg, originalUrl, expiresAt, now);
    var id := t.nextId;
    assert id in t1.rows && t1.rows[id].shortId == s.shortId;
    ValidUnique(t1);
  }

  /** Each successful redirect adds exactly one to the clicks analytics reports. */
  lemma RedirectCountsOneClick(t: Table, sid: string, now: Time, at: Time)
    requires Valid(t) && GetOriginalUrl(t, sid, now).1.Success?
    ensures var t1 := GetOriginalUrl(t, sid, now).0;
      && GetAnalytics(t, sid, at).Success? && GetAnalytics(t1, sid, at).Success?
      && GetAnalytics(t1, sid, at).value.clicks == GetAnalytics(t, sid, at).value.clicks + 1
      && GetAnalytics(t1, sid, at).value.lastAccessed == Some(now)
  {
    var t1 := GetOriginalUrl(t, sid, now).0;
    var k :| k in t.rows && t.rows[k].shortId == sid;
    TouchMatchingValid(t, sid, now);
    AnalyticsOfRow(t, sid, at, k);
    AnalyticsOfRow(t1, sid, at, k);
  }

  /** With unique short ids, analytics reports the counters of the one row carrying `sid`. */
  lemma AnalyticsOfRow(t: Table, sid: string, at: Time, k: nat)
    requires Valid(t) && k in t.rows && t.rows[k].shortId == sid
    ensures GetAnalytics(t, sid, at).Success?
    ensures GetAnalytics(t, sid, at).value.clicks == t.rows[k].clicks
    ensures GetAnalytics(t, sid, at).value.lastAccessed == t.rows[k].lastAccessed
  {
    ValidUnique(t);
  }
}

=== FILE: wrappers.dfy ===
/** Option and Result, the model's stand-ins for JavaScript's null/undefined
    and for thrown errors. */
module Wrappers {

  /** A value that may be absent (`null` or `undefined` in the source). */
  datatype Option<+T> = None | Some(value: T) {

    /** The value if present, otherwise `default` (JavaScript's `x ?? d`). */
    function GetOr(default: T): T
    {
      match this
      case Some(v) => v
      case None => default
    }
  }

  /** The outcome of an operation that may throw: `Failure` carries what was thrown. */
  datatype Result<+R, +E> = Success(value: R) | Failure(error: E)
}
